=== FILE: README.md ===
# Thymeleaf pattern library: component composition and component groups

This project models two parts of a Thymeleaf pattern library in Dafny and
proves properties of them.

The first part is the component dialect's `ComponentModelProcessor`. An
invocation such as `<pl:button pl:label="…" class="x"><span pl:slot="icon">…</span>text</pl:button>`
is replaced by the component's fragment template. The steps are:

- attributes in the dialect become local variables of the fragment;
- the other attributes go on a `th:block` wrapper;
- every `pl:slot` placeholder of the fragment is replaced by the call-site
  content marked for that slot, or by the placeholder's own fallback content.

The second part is the pattern-library browser: `ComponentGroup` and the
start-up of `PatternLibraryController`. Every resource under the components
directory is filed into the group of its folder. Groups get a name, main
documentation, a main example and further show cases. Each group is linked to
the group of its parent folder.

A Thymeleaf model is a flat list of template events: open, close and
standalone tags, and text (`Events.Event`). Comments, CDATA sections,
doctypes, XML declarations and processing instructions are all `Text` here,
because the processor only asks whether an event is a processable, open or
close element tag. Every event carries an identity.
The original compares events by reference (`==`, `indexOf`, `removeAll`), and
the model compares them by identity. Markup is "well-formed" when every prefix
has at least as many open as close tags and the whole list has equally many.

Modules follow the structure of the original:

- `Events` and `SubTree`: the event list, `subTreeFrom` / `subTreeBelow`.
- `Slots`: `extractSlotContents`, `extractSlots`.
- `Merge`: `fillSlot`, and filling in sequence.
- `Compose`: `fillSlots`, `prepareModel`.
- `Attributes`: attribute resolution.
- `Processor`: `doProcess`.
- `JavaStrings`: the parts of `String.split`, `String.join`,
  `BufferedReader.readLine` and `StringUtils.capitalize` that the browser uses.
- `ComponentGroups`: `ComponentGroup`.
- `Controller`: `PatternLibraryController`.
- `Grouping`: the reduction that files items under their keys, in list order.
- `Tables`: filing keyed entries into a table, last entry wins or a repeated key fails.
- `Enumerations`: hash-map iteration orders.
- `Wrappers`, `Errors`: `Option`, `Result`, and the errors the original throws.

The main results are these:

- The Java loop of `subTreeFrom` computes the bracket-matched span of an event
  (`SubTree.ScanMatchesSpan`).
- `fillSlots` equals an independent, event-by-event reference splice whenever
  the placeholders are not nested (`Compose.FillSlotsSplices`). It is
  therefore independent of the hash-map iteration order
  (`Compose.FillSlotsOrderIndependent`, `Processor.ProcessOrderIndependent`).
  The filled body has the body's events, minus every placeholder subtree,
  plus every slot's content (`Compose.FillSlotsLength`,
  `Merge.FillInOrderLength`), and the result is well-formed markup
  (`Processor.ProcessWellFormed`).
- The premises of these three lemmas can be met. The call
  `<pl:button>hi</pl:button>` of the fragment
  `<div th:fragment="button"><pl:slot/></div>` meets them, with the text as
  the default slot's content (`Processor.ComposableButton`).
- Nested placeholders do make the result depend on the order
  (`Merge.NestedPlaceholdersOrderDependent`).
- In the browser, grouping partitions the listing (`Controller.GroupsPartition`).
- The hierarchy lists exactly the children of each group, in list order
  (`Controller.BuildHierarchy`).
- A parent id is shorter than its child's id unless it is the root, so no
  group is its own parent (`Controller.ParentShorter`, `Controller.NoSelfParent`).

## Model

| member | source | states |
|---|---|---|
| Events.IndexOf | poc-thymeleaf-pattern-library-dialect/src/main/java/personal/cstettler/thymeleaf/dialect/ComponentModelProcessor.java:161 | `List.indexOf` by identity: -1 exactly when the identity is absent, otherwise the first position holding it |
| Events.RemoveIds | poc-thymeleaf-pattern-library-dialect/src/main/java/personal/cstettler/thymeleaf/dialect/ComponentModelProcessor.java:162 | `List.removeAll` by identity: an event survives exactly when its identity is not removed, and the list never grows |
| Events.RemoveIdsConcat | poc-thymeleaf-pattern-library-dialect/src/main/java/personal/cstettler/thymeleaf/dialect/ComponentModelProcessor.java:100 | removal works element by element, so it distributes over concatenation and keeps the relative order of survivors |
| Events.RemoveIdsAbsent | poc-thymeleaf-pattern-library-dialect/src/main/java/personal/cstettler/thymeleaf/dialect/ComponentModelProcessor.java:100 | removing identities that do not occur leaves the list unchanged |
| SubTree.SpanEnd | poc-thymeleaf-pattern-library-dialect/src/main/java/personal/cstettler/thymeleaf/dialect/ComponentModelProcessor.java:286-301 | the first position where the events since the start are balanced again, or the end of the model when they never are |
| SubTree.SubTreeFrom | poc-thymeleaf-pattern-library-dialect/src/main/java/personal/cstettler/thymeleaf/dialect/ComponentModelProcessor.java:271-305 | an absent start event gives the empty list; with distinct events the loop's result equals the reference span |
| SubTree.ScanMatchesSpan | poc-thymeleaf-pattern-library-dialect/src/main/java/personal/cstettler/thymeleaf/dialect/ComponentModelProcessor.java:277-302 | the loop with its found flag and counter of unclosed tags takes nothing before the start event and then the bracket-matched span |
| SubTree.SpanIsSlice | poc-thymeleaf-pattern-library-dialect/src/test/java/personal/cstettler/thymeleaf/dialect/ComponentModelProcessorTest.java:238-330 | a subtree is a contiguous block of the model starting at the start event, and a single event unless that is an open tag |
| SubTree.SpanShape | poc-thymeleaf-pattern-library-dialect/src/test/java/personal/cstettler/thymeleaf/dialect/ComponentModelProcessorTest.java:254-294 | for an open tag the subtree stops at the matching close tag: every proper prefix leaves a tag open, and it ends balanced or at the end of the model |
| SubTree.BalancedSpanInterior | poc-thymeleaf-pattern-library-dialect/src/main/java/personal/cstettler/thymeleaf/dialect/ComponentModelProcessor.java:268 | a balanced open-tag span has at least two events, ends in a close tag, and what lies strictly inside is well-formed |
| SubTree.SubTreeBelowOfNonOpen | poc-thymeleaf-pattern-library-dialect/src/main/java/personal/cstettler/thymeleaf/dialect/ComponentModelProcessor.java:265-269 | subTreeBelow of a standalone tag, a close tag or text is empty, since its subtree has fewer than two events |
| SubTree.SubTreeBelowOfOpen | poc-thymeleaf-pattern-library-dialect/src/main/java/personal/cstettler/thymeleaf/dialect/ComponentModelProcessor.java:265-269 | subTreeBelow of a closed open tag is exactly the block between the tag and its matching close tag, and it is well-formed |
| SubTree.SubTreeBelowOfUnclosed | poc-thymeleaf-pattern-library-dialect/src/main/java/personal/cstettler/thymeleaf/dialect/ComponentModelProcessor.java:265-305 | for an open tag that is never closed the subtree runs to the model's end, and subTreeBelow drops the tag and the model's last event, whatever that event is |
| SubTree.IndexOfUnique | poc-thymeleaf-pattern-library-dialect/src/main/java/personal/cstettler/thymeleaf/dialect/ComponentModelProcessor.java:280 | with distinct events, looking up an event's identity finds the event's own position |
| Slots.SlotEntriesMarks | poc-thymeleaf-pattern-library-dialect/src/main/java/personal/cstettler/thymeleaf/dialect/ComponentModelProcessor.java:84-88 | among the first n events, an entry carries a slot name exactly when its event is a tag marked for it, so entries repeat a name exactly when two tags are marked for it |
| Slots.CollectSlotContents | poc-thymeleaf-pattern-library-dialect/src/main/java/personal/cstettler/thymeleaf/dialect/ComponentModelProcessor.java:84-97 | the loop fails exactly when two tags are marked for the same slot, naming the slot of the first tag whose name was already met; otherwise it holds exactly the marked names, each mapped to its tag's subtree |
| Tables.Distinct | poc-thymeleaf-pattern-library-dialect/src/main/java/personal/cstettler/thymeleaf/dialect/ComponentModelProcessor.java:84-97 | filing keyed entries one by one fails exactly when a key repeats, with the key of the first entry that repeats an earlier one; otherwise the table holds exactly the keys met, each with its entry's value |
| Tables.RepeatedStep | poc-thymeleaf-pattern-library-dialect/src/main/java/personal/cstettler/thymeleaf/dialect/ComponentModelProcessor.java:90-92 | a repetition among the first n entries is one among the first n - 1, or the last key already met |
| Slots.FirstElementTag | poc-thymeleaf-pattern-library-dialect/src/main/java/personal/cstettler/thymeleaf/dialect/ComponentModelProcessor.java:199-205 | the first open or standalone tag, or none when the model has no such tag |
| Slots.CollectedContentIds | poc-thymeleaf-pattern-library-dialect/src/main/java/personal/cstettler/thymeleaf/dialect/ComponentModelProcessor.java:100 | the identities removed from the default content are exactly those inside some marked tag's subtree |
| Slots.ExtractSlotContents | poc-thymeleaf-pattern-library-dialect/src/main/java/personal/cstettler/thymeleaf/dialect/ComponentModelProcessor.java:81-104 | fails exactly on a duplicate slot marker, naming the first marker met a second time in model order (lines 90-92); otherwise holds the default slot and every marked name; each named slot maps to its subtree; the default slot holds the component tag's body minus every marked subtree |
| Tables.LastWins | poc-thymeleaf-pattern-library-dialect/src/main/java/personal/cstettler/thymeleaf/dialect/ComponentModelProcessor.java:109-113 | filing keyed entries one by one, later replacing earlier, gives a table holding exactly the keys met |
| Slots.PlaceholderEntriesDeclare | poc-thymeleaf-pattern-library-dialect/src/main/java/personal/cstettler/thymeleaf/dialect/ComponentModelProcessor.java:109-110 | an event's entry carries a slot name exactly when the event is a placeholder declaring it |
| Tables.LastWinsKeepsLast | poc-thymeleaf-pattern-library-dialect/src/main/java/personal/cstettler/thymeleaf/dialect/ComponentModelProcessor.java:111 | `put` overwrites, so the value kept for a key is that of the last entry carrying it |
| Slots.PlaceholderEntriesLast | poc-thymeleaf-pattern-library-dialect/src/main/java/personal/cstettler/thymeleaf/dialect/ComponentModelProcessor.java:111 | the last entry carrying a name is the fragment's last placeholder declaring it |
| Slots.ExtractSlots | poc-thymeleaf-pattern-library-dialect/src/main/java/personal/cstettler/thymeleaf/dialect/ComponentModelProcessor.java:106-116 | the keys are the declared slot names (the `prefix:name` attribute, else the default name), each mapped to its last placeholder |
| Merge.FillSlot | poc-thymeleaf-pattern-library-dialect/src/main/java/personal/cstettler/thymeleaf/dialect/ComponentModelProcessor.java:160-164 | an empty subtree, or one whose first event is missing, is an index-out-of-bounds error; otherwise the result holds the surviving events and the content, and its length is survivors plus content |
| Merge.FillSlotReplacesSpan | poc-thymeleaf-pattern-library-dialect/src/main/java/personal/cstettler/thymeleaf/dialect/ComponentModelProcessor.java:160-164 | when the subtree is a block whose surroundings do not share its identities, fillSlot replaces exactly that block by the content |
| Merge.FillInOrder | poc-thymeleaf-pattern-library-dialect/src/main/java/personal/cstettler/thymeleaf/dialect/ComponentModelProcessor.java:143-155 | no steps leave the body unchanged; every event of the result comes from the body or from some step's content; the only failure is index-out-of-bounds |
| Merge.FillInOrderSplices | poc-thymeleaf-pattern-library-dialect/src/main/java/personal/cstettler/thymeleaf/dialect/ComponentModelProcessor.java:143-157 | with disjoint, contiguous placeholder subtrees and foreign contents, filling step by step succeeds and equals the reference event-by-event splice |
| Merge.SplicedLength | poc-thymeleaf-pattern-library-dialect/src/main/java/personal/cstettler/thymeleaf/dialect/ComponentModelProcessor.java:161-163 | each step trades its subtree's events for its content's, so the length is the body's, minus the subtrees, plus the contents |
| Merge.FillInOrderLength | poc-thymeleaf-pattern-library-dialect/src/main/java/personal/cstettler/thymeleaf/dialect/ComponentModelProcessor.java:143-157 | filling under the placement conditions succeeds, and the result has the body's length, minus every placeholder subtree, plus every content |
| Merge.FillInOrderOrderIndependent | poc-thymeleaf-pattern-library-dialect/src/main/java/personal/cstettler/thymeleaf/dialect/ComponentModelProcessor.java:143 | two orders of the same steps give the same result when the placement conditions hold |
| Merge.FillInOrderTwo | poc-thymeleaf-pattern-library-dialect/src/main/java/personal/cstettler/thymeleaf/dialect/ComponentModelProcessor.java:143-155 | a two-slot fill is two fillSlot calls, the second applied to the first's result |
| Merge.NestedAfterOuterFails | poc-thymeleaf-pattern-library-dialect/src/main/java/personal/cstettler/thymeleaf/dialect/ComponentModelProcessor.java:161-163 | once the outer subtree has been replaced, filling a placeholder that was inside it finds no position and fails |
| Merge.NestedPlaceholdersOrderDependent | poc-thymeleaf-pattern-library-dialect/src/main/java/personal/cstettler/thymeleaf/dialect/ComponentModelProcessor.java:143-155 | with one placeholder inside another, inner-first succeeds and leaves the inner content after the outer content, while outer-first fails: the result depends on the map's order |
| Merge.ReplaceBalanced | poc-thymeleaf-pattern-library-dialect/src/main/java/personal/cstettler/thymeleaf/dialect/ComponentModelProcessor.java:162-163 | replacing a well-formed block of well-formed markup by well-formed content keeps the markup well-formed |
| Merge.SplicedWellFormed | poc-thymeleaf-pattern-library-dialect/src/main/java/personal/cstettler/thymeleaf/dialect/ComponentModelProcessor.java:143-157 | splicing well-formed steps into a well-formed body keeps it well-formed |
| Enumerations.EnumerationSize | poc-thymeleaf-pattern-library-dialect/src/main/java/personal/cstettler/thymeleaf/dialect/ComponentModelProcessor.java:143 | an iteration order of a hash map visits as many keys as the map has |
| Compose.FirstOpenWithAttribute | poc-thymeleaf-pattern-library-dialect/src/main/java/personal/cstettler/thymeleaf/dialect/ComponentModelProcessor.java:207-214 | the first open tag carrying the attribute, passing over standalone tags, or none |
| Compose.FillSlots | poc-thymeleaf-pattern-library-dialect/src/main/java/personal/cstettler/thymeleaf/dialect/ComponentModelProcessor.java:138-158 | with no slots it returns the fragment body; each result event comes from the body or from the content of some slot (call-site content, else fallback); the only failure is index-out-of-bounds |
| Compose.PrepareModel | poc-thymeleaf-pattern-library-dialect/src/main/java/personal/cstettler/thymeleaf/dialect/ComponentModelProcessor.java:118-136 | succeeds exactly when fillSlots does; the result is the filled body between an open `th:block` with the attributes and a close `th:block` |
| Compose.WrapWellFormed | poc-thymeleaf-pattern-library-dialect/src/main/java/personal/cstettler/thymeleaf/dialect/ComponentModelProcessor.java:128-133 | wrapping well-formed events in an open and a close tag keeps them well-formed |
| Compose.RootBodyWellFormed | poc-thymeleaf-pattern-library-dialect/src/main/java/personal/cstettler/thymeleaf/dialect/ComponentModelProcessor.java:142 | the body below a balanced `th:fragment` root is well-formed |
| Compose.SpansDisjoint | poc-thymeleaf-pattern-library-dialect/src/main/java/personal/cstettler/thymeleaf/dialect/ComponentModelProcessor.java:154 | placeholders not inside each other have subtrees with no common event |
| Compose.WellPlacedPlacement | poc-thymeleaf-pattern-library-dialect/src/main/java/personal/cstettler/thymeleaf/dialect/ComponentModelProcessor.java:143-155 | distinct events, placeholders inside the root and not nested, and foreign call-site contents give the placement conditions in every iteration order |
| Compose.FillSlotsSplices | poc-thymeleaf-pattern-library-dialect/src/main/java/personal/cstettler/thymeleaf/dialect/ComponentModelProcessor.java:138-158 | for a well-placed fragment fillSlots succeeds and equals the reference splice of the body |
| Compose.FillSlotsOrderIndependent | poc-thymeleaf-pattern-library-dialect/src/main/java/personal/cstettler/thymeleaf/dialect/ComponentModelProcessor.java:143 | for a well-placed fragment any two iteration orders of the slot map give the same result |
| Compose.FillSlotsLength | poc-thymeleaf-pattern-library-dialect/src/main/java/personal/cstettler/thymeleaf/dialect/ComponentModelProcessor.java:138-158 | the filled body has the body's events, minus every placeholder subtree, plus every slot's content |
| Compose.PlaceholderWellFormed | poc-thymeleaf-pattern-library-dialect/src/main/java/personal/cstettler/thymeleaf/dialect/ComponentModelProcessor.java:166-168 | a placeholder inside the root spans well-formed markup, and its fallback content is well-formed |
| Compose.FillSlotsWellFormed | poc-thymeleaf-pattern-library-dialect/src/main/java/personal/cstettler/thymeleaf/dialect/ComponentModelProcessor.java:138-158 | a well-placed fragment filled with well-formed contents succeeds and yields well-formed markup |
| Compose.PrepareModelWellFormed | poc-thymeleaf-pattern-library-dialect/src/main/java/personal/cstettler/thymeleaf/dialect/ComponentModelProcessor.java:118-136 | the prepared model of such a fragment is one balanced `th:block` element |
| Attributes.PrefixOf | poc-thymeleaf-pattern-library-dialect/src/main/java/personal/cstettler/thymeleaf/dialect/ComponentModelProcessor.java:224 | an attribute name has a prefix exactly when it contains ':'; the prefix is the colon-free text before the first ':' |
| Attributes.PrefixOfJoin | poc-thymeleaf-pattern-library-dialect/src/main/java/personal/cstettler/thymeleaf/dialect/ComponentModelProcessor.java:228 | `prefix:local` has prefix `prefix` for a colon-free prefix, the inverse of stripping `prefix.length() + 1` characters |
| Attributes.ComponentAttributes | poc-thymeleaf-pattern-library-dialect/src/main/java/personal/cstettler/thymeleaf/dialect/ComponentModelProcessor.java:216-233 | every dialect attribute appears under its local part with its resolved value, and every key comes from such an attribute |
| Attributes.AdditionalAttributes | poc-thymeleaf-pattern-library-dialect/src/main/java/personal/cstettler/thymeleaf/dialect/ComponentModelProcessor.java:235-247 | exactly the attributes outside the dialect, under their complete names, with resolved values |
| Attributes.LocalNameInjective | poc-thymeleaf-pattern-library-dialect/src/main/java/personal/cstettler/thymeleaf/dialect/ComponentModelProcessor.java:228 | two dialect attributes never share a local part, so no local variable is overwritten |
| Attributes.AttributePartition | poc-thymeleaf-pattern-library-dialect/src/main/java/personal/cstettler/thymeleaf/dialect/ComponentModelProcessor.java:60-61 | each attribute lands in exactly one of the two maps, and together they hold as many entries as the tag has attributes |
| Processor.LoadFragment | poc-thymeleaf-pattern-library-dialect/src/main/java/personal/cstettler/thymeleaf/dialect/ComponentModelProcessor.java:77-79 | the configured template path, else `pl/<element>/<element>`; a missing template is an error naming that path |
| Processor.BlockAttributes | poc-thymeleaf-pattern-library-dialect/src/main/java/personal/cstettler/thymeleaf/dialect/ComponentModelProcessor.java:170-175 | the wrapper gets the same attribute names; a raw (unevaluated) value is passed as its text, and an evaluated value as its rendering `show(v)`, the `toString()` of line 172 |
| Processor.ComposeComponent | poc-thymeleaf-pattern-library-dialect/src/main/java/personal/cstettler/thymeleaf/dialect/ComponentModelProcessor.java:59-70 | a missing template fails with its path; with a template, a duplicate slot marker is the duplicate-slot error; on success the locals are the component attributes and the model is wrapped in `th:block` |
| Processor.Process | poc-thymeleaf-pattern-library-dialect/src/main/java/personal/cstettler/thymeleaf/dialect/ComponentModelProcessor.java:47-71 | no element tag is the "no component tag" error and nothing else is; a tag outside `prefix:` leaves the model and locals untouched; any other tag is composed |
| Processor.ProcessSplices | poc-thymeleaf-pattern-library-dialect/src/test/java/personal/cstettler/thymeleaf/dialect/ComponentModelProcessorTest.java:107-236 | a composable invocation becomes the wrapper around the fragment body with each placeholder subtree replaced by its slot's content |
| Processor.ProcessOrderIndependent | poc-thymeleaf-pattern-library-dialect/src/main/java/personal/cstettler/thymeleaf/dialect/ComponentModelProcessor.java:143 | for a composable invocation the slot map's iteration order does not change the result |
| Processor.ExtractedPlaceholders | poc-thymeleaf-pattern-library-dialect/src/main/java/personal/cstettler/thymeleaf/dialect/ComponentModelProcessor.java:181-187 | every placeholder extractSlots keeps is an open or standalone tag |
| Processor.ProcessWellFormed | poc-thymeleaf-pattern-library-dialect/src/main/java/personal/cstettler/thymeleaf/dialect/ComponentModelProcessor.java:47-71 | a composable invocation with well-formed contents succeeds and produces well-formed markup |
| JavaStrings.LastIndexOf | poc-thymeleaf-pattern-library-application/src/main/java/personal/cstettler/thymeleaf/patternlibrary/PatternLibraryController.java:124 | -1 exactly when the character is absent, otherwise its position with no further occurrence after it |
| JavaStrings.Split | poc-thymeleaf-pattern-library-application/src/main/java/personal/cstettler/thymeleaf/patternlibrary/PatternLibraryController.java:128 | `String.split`: no piece holds a separator; without separators the whole string; otherwise no trailing empty piece |
| JavaStrings.JoinPieces | poc-thymeleaf-pattern-library-application/src/main/java/personal/cstettler/thymeleaf/patternlibrary/PatternLibraryController.java:128-132 | joining the pieces between separators with that separator gives back the string |
| JavaStrings.SplitJoin | poc-thymeleaf-pattern-library-application/src/main/java/personal/cstettler/thymeleaf/patternlibrary/PatternLibraryController.java:128-132 | split then join gives back the string up to the trailing separators split drops |
| JavaStrings.SplitLast | poc-thymeleaf-pattern-library-application/src/main/java/personal/cstettler/thymeleaf/patternlibrary/ComponentGroup.java:115-120 | the split of `a/b`, for a separator-free non-empty b, is the pieces of a followed by b |
| JavaStrings.SplitLastBeforeSeparator | poc-thymeleaf-pattern-library-application/src/main/java/personal/cstettler/thymeleaf/patternlibrary/PatternLibraryController.java:128 | the split of `a/b/` is the same: the trailing empty piece is dropped |
| JavaStrings.LineEnd | poc-thymeleaf-pattern-library-application/src/main/java/personal/cstettler/thymeleaf/patternlibrary/ComponentGroup.java:208 | a line ends at the first '\n' or '\r', or at the end of the text |
| JavaStrings.ReadAllLines | poc-thymeleaf-pattern-library-application/src/main/java/personal/cstettler/thymeleaf/patternlibrary/ComponentGroup.java:203-216 | `readLine` until null: no lines exactly for the empty text |
| JavaStrings.ReadAllLinesSingle | poc-thymeleaf-pattern-library-application/src/main/java/personal/cstettler/thymeleaf/patternlibrary/ComponentGroup.java:203-216 | no line read holds a line terminator |
| JavaStrings.JoinReadAllLines | poc-thymeleaf-pattern-library-application/src/main/java/personal/cstettler/thymeleaf/patternlibrary/ComponentGroup.java:198-216 | for text with '\n' breaks and no trailing break, joining the lines with "\n" gives back the text |
| JavaStrings.ReadAllLinesCons | poc-thymeleaf-pattern-library-application/src/main/java/personal/cstettler/thymeleaf/patternlibrary/ComponentGroup.java:203-216 | a line followed by "\n" is read as that line, then the lines of the rest |
| JavaStrings.ReadAllLinesCrLf | poc-thymeleaf-pattern-library-application/src/main/java/personal/cstettler/thymeleaf/patternlibrary/ComponentGroup.java:203-216 | a line followed by "\r\n" is read as that line, then the lines of the rest: the pair is one terminator |
| JavaStrings.ReadAllLinesCr | poc-thymeleaf-pattern-library-application/src/main/java/personal/cstettler/thymeleaf/patternlibrary/ComponentGroup.java:203-216 | a line followed by a "\r" that no "\n" follows is read as that line, then the lines of the rest |
| JavaStrings.Capitalize | poc-thymeleaf-pattern-library-application/src/main/java/personal/cstettler/thymeleaf/patternlibrary/ComponentGroup.java:138-142 | same length; the first character upper-cased and the rest unchanged |
| ComponentGroups.LocalId | poc-thymeleaf-pattern-library-application/src/main/java/personal/cstettler/thymeleaf/patternlibrary/ComponentGroup.java:115-120 | the last piece of the id split on "/", slash-free; undefined exactly when the split is empty |
| ComponentGroups.LocalIdOfFolder | poc-thymeleaf-pattern-library-application/src/main/java/personal/cstettler/thymeleaf/patternlibrary/ComponentGroup.java:115-120 | the local id of a folder id `…/name/` is `name` |
| ComponentGroups.RootHasNoLocalId | poc-thymeleaf-pattern-library-application/src/main/java/personal/cstettler/thymeleaf/patternlibrary/ComponentGroup.java:115-120 | "/" splits into nothing, so the root has no local id, which is why every root-facing method checks isRoot first |
| ComponentGroups.ResourceFor | poc-thymeleaf-pattern-library-application/src/main/java/personal/cstettler/thymeleaf/patternlibrary/ComponentGroup.java:148-157 | a resource is found exactly when hasResource holds, and it is one of the group's resources with that file name |
| ComponentGroups.FirstNamed | poc-thymeleaf-pattern-library-application/src/main/java/personal/cstettler/thymeleaf/patternlibrary/ComponentGroup.java:152-157 | the found resource is the first with the file name |
| ComponentGroups.Documentation | poc-thymeleaf-pattern-library-application/src/main/java/personal/cstettler/thymeleaf/patternlibrary/ComponentGroup.java:99-104 | documentation exists exactly when hasDocumentation holds, and is named "index.md" for the root, "<local id>.md" otherwise |
| ComponentGroups.FolderGroup | poc-thymeleaf-pattern-library-application/src/main/java/personal/cstettler/thymeleaf/patternlibrary/ComponentGroup.java:52-69 | a folder group `…/name/` is documented by "name.md", has an example exactly when "name.html" is present, and its example path ends in "/name" |
| ComponentGroups.BaseName | poc-thymeleaf-pattern-library-application/src/main/java/personal/cstettler/thymeleaf/patternlibrary/ComponentGroup.java:144-146 | defined exactly when the name has a '.', and the name is the base name, '.', and a dot-free extension |
| ComponentGroups.BaseNameOf | poc-thymeleaf-pattern-library-application/src/main/java/personal/cstettler/thymeleaf/patternlibrary/ComponentGroup.java:144-146 | the base name of `name.ext` with a dot-free extension is `name` |
| ComponentGroups.LookupDocumentationFor | poc-thymeleaf-pattern-library-application/src/main/java/personal/cstettler/thymeleaf/patternlibrary/ComponentGroup.java:106-113 | a found document is a non-main ".md" resource with the example's base name, and no earlier resource is one (`findFirst`); none is found only when no such resource exists |
| ComponentGroups.ShowCasesFollowExamples | poc-thymeleaf-pattern-library-application/src/main/java/personal/cstettler/thymeleaf/patternlibrary/ComponentGroup.java:83-89 | one show case per non-main ".html" resource, in order; each carries its example, the id "<group id>/<base name>" and the example's documentation |
| ComponentGroups.ShowCaseResourcesMembers | poc-thymeleaf-pattern-library-application/src/main/java/personal/cstettler/thymeleaf/patternlibrary/ComponentGroup.java:84-86 | the shown examples are exactly the group's ".html" resources other than the main example |
| ComponentGroups.ShowCases | poc-thymeleaf-pattern-library-application/src/main/java/personal/cstettler/thymeleaf/patternlibrary/ComponentGroup.java:83-89 | a group without a local id has no show cases |
| ComponentGroups.CapitalizedDashed | poc-thymeleaf-pattern-library-application/src/main/java/personal/cstettler/thymeleaf/patternlibrary/ComponentGroup.java:138-142 | "first-second" becomes the two words capitalized and joined by a space |
| ComponentGroups.TitleWhereStripped | poc-thymeleaf-pattern-library-application/src/main/java/personal/cstettler/thymeleaf/patternlibrary/ComponentGroup.java:179-196 | titleFrom finds a title exactly when stripTitle strips one: when the text starts with "# " |
| ComponentGroups.StripTitle | poc-thymeleaf-pattern-library-application/src/main/java/personal/cstettler/thymeleaf/patternlibrary/ComponentGroup.java:190-196 | text that does not start with "# " is returned unchanged |
| ComponentGroups.TitledDocument | poc-thymeleaf-pattern-library-application/src/main/java/personal/cstettler/thymeleaf/patternlibrary/ComponentGroup.java:179-201 | for "# title\nbody" whose body holds no '\r' and does not end in '\n', titleFrom gives the title and stripTitle gives back exactly the body; the restriction is needed because skipLines joins the lines by "\n" and so drops a trailing newline |
| ComponentGroups.TitleOfFirstLine | poc-thymeleaf-pattern-library-application/src/main/java/personal/cstettler/thymeleaf/patternlibrary/ComponentGroup.java:179-188 | a text whose first line is "# title" has that title, whatever follows the line's terminator ("\n", "\r" or "\r\n") |
| ComponentGroups.Name | poc-thymeleaf-pattern-library-application/src/main/java/personal/cstettler/thymeleaf/patternlibrary/ComponentGroup.java:40-50 | a group has no name (null) exactly when it is the root and its documentation is missing or does not start with "# " |
| ComponentGroups.NameOfTitledFolder | poc-thymeleaf-pattern-library-application/src/main/java/personal/cstettler/thymeleaf/patternlibrary/ComponentGroup.java:40-50 | a folder group whose "<name>.md" has "# title" as its first line, followed by nothing or by any line terminator and any text, is named title |
| ComponentGroups.NameOfUntitledFolder | poc-thymeleaf-pattern-library-application/src/main/java/personal/cstettler/thymeleaf/patternlibrary/ComponentGroup.java:40-50 | a folder group without "<name>.md", or whose "<name>.md" does not start with "# ", is named by its folder name, capitalized word by word |
| ComponentGroups.NameOfUntitledRoot | poc-thymeleaf-pattern-library-application/src/main/java/personal/cstettler/thymeleaf/patternlibrary/ComponentGroup.java:40-50 | the root group without a titled "index.md" has no name (null) |
| ComponentGroups.ShowCaseName | poc-thymeleaf-pattern-library-application/src/main/java/personal/cstettler/thymeleaf/patternlibrary/ComponentGroup.java:234-246 | a show case whose documentation starts with "# " is named by a single line |
| ComponentGroups.ShowCaseNameTitled | poc-thymeleaf-pattern-library-application/src/main/java/personal/cstettler/thymeleaf/patternlibrary/ComponentGroup.java:234-246 | a show case whose documentation has "# title" as its first line, followed by nothing or by any line terminator and any text, is named title |
| ComponentGroups.ShowCaseNameUntitled | poc-thymeleaf-pattern-library-application/src/main/java/personal/cstettler/thymeleaf/patternlibrary/ComponentGroup.java:234-246 | an untitled show case whose example file is named "first-second" reads "First Second": the whole file name split on '-', each part capitalized, joined by a space |
| Controller.RelativePathFor | poc-thymeleaf-pattern-library-application/src/main/java/personal/cstettler/thymeleaf/patternlibrary/PatternLibraryController.java:145-150 | the URI less the root URI's length; for a URI under the root, root plus relative path gives back the URI |
| Controller.GroupIdFor | poc-thymeleaf-pattern-library-application/src/main/java/personal/cstettler/thymeleaf/patternlibrary/PatternLibraryController.java:117-125 | a prefix of the path that is empty or ends in "/", with no "/" after it |
| Controller.GroupIdForUnique | poc-thymeleaf-pattern-library-application/src/main/java/personal/cstettler/thymeleaf/patternlibrary/PatternLibraryController.java:117-125 | those three properties determine the group id: the longest prefix ending in "/" |
| Controller.GroupIdOfFile | poc-thymeleaf-pattern-library-application/src/main/java/personal/cstettler/thymeleaf/patternlibrary/PatternLibraryController.java:117-125 | a file in a folder belongs to the folder's group |
| Controller.GroupIdForIdempotent | poc-thymeleaf-pattern-library-application/src/main/java/personal/cstettler/thymeleaf/patternlibrary/PatternLibraryController.java:117-125 | the group id of a group id is itself |
| Controller.ParentGroupIdFor | poc-thymeleaf-pattern-library-application/src/main/java/personal/cstettler/thymeleaf/patternlibrary/PatternLibraryController.java:127-133 | undefined exactly when the id splits into nothing; otherwise it ends in "/" |
| Controller.ParentOfFolder | poc-thymeleaf-pattern-library-application/src/main/java/personal/cstettler/thymeleaf/patternlibrary/PatternLibraryController.java:127-133 | the parent of `p/name/` is `p/`, and `name` is its local id |
| Controller.ParentShorter | poc-thymeleaf-pattern-library-application/src/main/java/personal/cstettler/thymeleaf/patternlibrary/PatternLibraryController.java:127-133 | a parent id is the root id or strictly shorter than the id |
| Controller.ComponentGroupFor | poc-thymeleaf-pattern-library-application/src/main/java/personal/cstettler/thymeleaf/patternlibrary/PatternLibraryController.java:67-71 | found exactly when some group has the id, and the found group is the first with it |
| Controller.FindParent | poc-thymeleaf-pattern-library-application/src/main/java/personal/cstettler/thymeleaf/patternlibrary/PatternLibraryController.java:135-143 | the root has no parent; a found parent carries the parent id; none is found only when no group carries it |
| Controller.NoSelfParent | poc-thymeleaf-pattern-library-application/src/main/java/personal/cstettler/thymeleaf/patternlibrary/PatternLibraryController.java:135-143 | no group is its own parent |
| Controller.BuildHierarchy | poc-thymeleaf-pattern-library-application/src/main/java/personal/cstettler/thymeleaf/patternlibrary/PatternLibraryController.java:112-115 | each group's sub-groups are exactly the groups whose parent it is, in increasing list position |
| Controller.HasSubGroups | poc-thymeleaf-pattern-library-application/src/main/java/personal/cstettler/thymeleaf/patternlibrary/ComponentGroup.java:75-77 | a group has sub-groups exactly when some group has it as parent |
| Controller.MembersIn | poc-thymeleaf-pattern-library-application/src/main/java/personal/cstettler/thymeleaf/patternlibrary/PatternLibraryController.java:97-102 | a group's resources are exactly the listed resources with its group id |
| Controller.IndexResourcesGroups | poc-thymeleaf-pattern-library-application/src/main/java/personal/cstettler/thymeleaf/patternlibrary/PatternLibraryController.java:97-102 | the reduction has one entry per group id of the listing, holding that group's resources in listing order |
| Grouping.MembersIn | poc-thymeleaf-pattern-library-application/src/main/java/personal/cstettler/thymeleaf/patternlibrary/PatternLibraryController.java:97-102 | an item is filed under a key exactly when it occurs in the list with that key |
| Grouping.MembersNone | poc-thymeleaf-pattern-library-application/src/main/java/personal/cstettler/thymeleaf/patternlibrary/PatternLibraryController.java:97-102 | a key that does not occur in the list is filed with no items |
| Grouping.MembersSnoc | poc-thymeleaf-pattern-library-application/src/main/java/personal/cstettler/thymeleaf/patternlibrary/PatternLibraryController.java:97-102 | filing one more item extends only the list of its own key, at the end |
| Grouping.IndexGroups | poc-thymeleaf-pattern-library-application/src/main/java/personal/cstettler/thymeleaf/patternlibrary/PatternLibraryController.java:97-102 | the reduction has exactly the keys of the list, and each entry equals the reference filter for its key |
| Controller.BuildComponentGroups | poc-thymeleaf-pattern-library-application/src/main/java/personal/cstettler/thymeleaf/patternlibrary/PatternLibraryController.java:96-110 | one group per entry, in the map's iteration order, holding that id's resources in listing order |
| Controller.GroupsPartition | poc-thymeleaf-pattern-library-application/src/main/java/personal/cstettler/thymeleaf/patternlibrary/PatternLibraryController.java:96-110 | group ids are distinct, groups are non-empty, every resource's group exists, and a resource is in a group exactly when the ids match |
| Controller.Initialize | poc-thymeleaf-pattern-library-application/src/main/java/personal/cstettler/thymeleaf/patternlibrary/PatternLibraryController.java:31-53 | a missing components root, then a missing index, are the first two errors; otherwise start-up succeeds exactly when some resource files under "/", with the groups built, the hierarchy linked and the root found |
| Controller.IndexMakesRootGroup | poc-thymeleaf-pattern-library-application/src/main/java/personal/cstettler/thymeleaf/patternlibrary/PatternLibraryController.java:44-52 | a listing holding "<root>/index.md" has a root group, so the root-group error cannot follow a found index that is listed |
| Controller.GroupPage | poc-thymeleaf-pattern-library-application/src/main/java/personal/cstettler/thymeleaf/patternlibrary/PatternLibraryController.java:55-60 | the requested group, or the root when none is requested, and none exactly when no group has that id |

## Left out

- Thymeleaf itself is not modelled: template parsing, the engine's handing of the model to the processor, `model.reset()`/`addModel`, and the model factory. The invocation and fragment models are event lists, and the fragment templates are a map from path to event list.
- Evaluating attribute expressions is the parameter `eval`; rendering an evaluated value as wrapper attribute text is `show`. Exceptions other than evaluation failure are not modelled.
- `setLocalVariable` is a side effect on the structure handler. It is modelled as the `locals` map of the result.
- Thymeleaf also accepts the `data-pl-slot` and `pl-slot` spellings of dialect attributes. The model knows only the `prefix:name` spelling.
- `Compose.FirstOpenWithAttribute`: the fragment root is found by the exact attribute name `th:fragment`. Thymeleaf's `hasAttribute` in HTML mode also accepts `data-th-fragment` and ignores the case of attribute names; neither is modelled, because attribute-name normalisation belongs to the engine.
- Attribute names and tag names are compared exactly throughout. HTML-mode case folding of names is not modelled.
- Attribute values are never null in the model: every value is a string. Thymeleaf reports a valueless attribute such as `<span pl:slot>` as null, so Java keys that slot by null, apart from "". `blockOpenElement` also keeps an evaluated null as a null attribute value (ComponentModelProcessor.java:172), which `show` cannot produce.
- `Compose.FillSlots`: hash-map iteration order is a parameter. It is any duplicate-free listing of the slot names, and the theorems hold for every such listing.
- `Controller.BuildComponentGroups`: hash-map iteration order is a parameter. It is any duplicate-free listing of the group ids, and the theorems hold for every such listing.
- `Merge.NestedPlaceholdersOrderDependent`: when one placeholder is inside another's subtree, the result depends on the hash-map order. The model states that dependence and does not claim order independence there.
- `Slots.ExtractSlots`: two placeholders for the same slot name are not an error in the code. The last one silently wins, and the model follows the code.
- `Slots.ExtractSlotContents`: the code does not require a slot-name attribute value at the call site. Any value, including an empty one, is taken as the name.
- `Controller.RelativePathFor` requires the URI to be at least as long as the root URI, because `substring` throws otherwise.
- `ComponentGroups.SkipLines` requires at least as many lines as are skipped, because `subList` throws otherwise.
- `ComponentGroups.LocalId` is `None` where the id splits into nothing. Java's array index throws there. Members that need a local id require one (`Named`, `ShowCasesDefined`), as the Java calls them only then.
- `Controller.FindParent` requires a parent id for a non-root group. For an id made only of "/" characters, `limit(-1)` throws.
- `JavaStrings.Capitalize` upper-cases ASCII letters only. Other Unicode case mappings of `Character.toUpperCase` are not modelled.
- `ComponentGroups.Name` and `ComponentGroups.ShowCaseName` stand for `getName`. Reading a resource's text (`extractResource`) is I/O, so a resource carries its content.
- Markdown rendering (`render`, `markdownToHTML`, `getDocumentationContent`, `getExampleContent`, `ShowCase.getDocumentation`) is left out because it calls the commonmark library.
- `Controller.Initialize` takes the existence of the components directory and of its "index.md" as booleans, and the resource listing as a parameter. Resolving resources, their URIs and the `IOException` of `uriFor` are I/O.
- The web layer is left out, apart from the group lookup of the index page (`Controller.GroupPage`). That includes `ModelAndView`, the request mappings, the `example` endpoint and the Spring application class.
- `ComponentDialect` and `RemoveSlotAttributeProcessor` are left out. They only register processors and strip an attribute.
- The JavaScript files and the build configuration are left out.

=== FILE: attributes.dfy ===
/** Splitting the invocation tag's attributes into the component's own
    attributes, which become local variables of the fragment, and the
    additional attributes, which are passed on to the `th:block` wrapper
    (ComponentModelProcessor.java:216-256). */
module Attributes {
  import opened Wrappers

  /** An attribute value after resolution: what the expression evaluated to,
      or the raw text when evaluation failed. */
  datatype Value<V> = Evaluated(result: V) | Raw(text: string)

  /** The prefix of a complete attribute name: the text before its first
      ':', and none when the name has no ':' ("pl:label" has prefix "pl",
      "class" has none). */
  function PrefixOf(name: string): (r: Option<string>)
    ensures r.Some? <==> ':' in name
    ensures r.Some? ==> ':' !in r.value && |r.value| < |name| && name[..|r.value| + 1] == r.value + ":"
  {
    if name == [] then None
    else if name[0] == ':' then Some([])
    else
      match PrefixOf(name[1..])
      case None => None
      case Some(p) => Some([name[0]] + p)
  }

  /** A prefixed name splits back into its prefix and its local part. */
  lemma PrefixedName(name: string, prefix: string)
    requires PrefixOf(name) == Some(prefix)
    ensures name == prefix + ":" + name[|prefix| + 1..]
  {
    assert name == name[..|prefix| + 1] + name[|prefix| + 1..];
  }

  /** Joining a colon-free prefix and any local part gives a name with that
      prefix. */
  lemma {:induction false} PrefixOfJoin(prefix: string, local: string)
    requires ':' !in prefix
    ensures PrefixOf(prefix + ":" + local) == Some(prefix)
  {
    if prefix != [] {
      assert (prefix + ":" + local)[1..] == prefix[1..] + ":" + local;
      PrefixOfJoin(prefix[1..], local);
      assert [prefix[0]] + prefix[1..] == prefix;
    }
  }

  /** The attribute belongs to the dialect (its prefix is the dialect prefix). */
  predicate InDialect(name: string, prefix: string) {
    PrefixOf(name) == Some(prefix)
  }

  /** tryResolveAttributeValue (ComponentModelProcessor.java:249-256): the
      evaluator's result, or the raw value when evaluation fails (`None`). */
  function Resolve<V>(raw: string, eval: string -> Option<V>): Value<V> {
    match eval(raw)
    case Some(v) => Evaluated(v)
    case None => Raw(raw)
  }

  /** The local part of a dialect attribute: its name without `prefix:`. */
  function LocalName(name: string, prefix: string): string {
    if |prefix| + 1 <= |name| then name[|prefix| + 1..] else []
  }

  /** The dialect attributes of a tag. */
  function DialectNames(attributes: map<string, string>, prefix: string): set<string> {
    set name | name in attributes && InDialect(name, prefix)
  }

  /** The local parts of the dialect attributes of a tag. */
  function ComponentKeys(attributes: map<string, string>, prefix: string): set<string> {
    set name | name in DialectNames(attributes, prefix) :: LocalName(name, prefix)
  }

  /** resolveComponentAttributes (ComponentModelProcessor.java:216-233): every
      dialect attribute, keyed by its local part, with its resolved value. */
  function ComponentAttributes<V>(attributes: map<string, string>, prefix: string, eval: string -> Option<V>): (r: map<string, Value<V>>)
    ensures forall name :: name in attributes && InDialect(name, prefix) ==>
      LocalName(name, prefix) in r && r[LocalName(name, prefix)] == Resolve(attributes[name], eval)
    ensures forall key :: key in r ==> prefix + ":" + key in attributes && InDialect(prefix + ":" + key, prefix)
    ensures r.Keys == ComponentKeys(attributes, prefix)
  {
    ComponentKeysNamed(attributes, prefix);
    var r := map key | key in ComponentKeys(attributes, prefix) :: Resolve(attributes[prefix + ":" + key], eval);
    ComponentLookup(attributes, prefix, eval, r);
    r
  }

  /** Every local part comes from a dialect attribute of the tag. */
  lemma ComponentKeysNamed(attributes: map<string, string>, prefix: string)
    ensures forall key :: key in ComponentKeys(attributes, prefix) ==>
      prefix + ":" + key in attributes && InDialect(prefix + ":" + key, prefix)
  {
    forall key | key in ComponentKeys(attributes, prefix)
      ensures prefix + ":" + key in attributes && InDialect(prefix + ":" + key, prefix)
    {
      var name :| name in DialectNames(attributes, prefix) && LocalName(name, prefix) == key;
      PrefixedName(name, prefix);
    }
  }

  /** Each dialect attribute is found again under its local part. */
  lemma ComponentLookup<V>(attributes: map<string, string>, prefix: string, eval: string -> Option<V>, r: map<string, Value<V>>)
    requires forall key :: key in ComponentKeys(attributes, prefix) ==> prefix + ":" + key in attributes
    requires r == map key | key in ComponentKeys(attributes, prefix) :: Resolve(attributes[prefix + ":" + key], eval)
    ensures forall name :: name in attributes && InDialect(name, prefix) ==>
      LocalName(name, prefix) in r && r[LocalName(name, prefix)] == Resolve(attributes[name], eval)
    ensures r.Keys == ComponentKeys(attributes, prefix)
  {
    forall name | name in attributes && InDialect(name, prefix)
      ensures LocalName(name, prefix) in r && r[LocalName(name, prefix)] == Resolve(attributes[name], eval)
    {
      assert name in DialectNames(attributes, prefix);
      assert LocalName(name, prefix) in ComponentKeys(attributes, prefix);
      PrefixedName(name, prefix);
    }
  }

  /** resolveAdditionalAttributes (ComponentModelProcessor.java:235-247): every
      attribute outside the dialect, keyed by its complete name, with its
      resolved value. */
  function AdditionalAttributes<V>(attributes: map<string, string>, prefix: string, eval: string -> Option<V>): (r: map<string, Value<V>>)
    ensures forall name :: name in r <==> name in attributes && !InDialect(name, prefix)
    ensures forall name :: name in r ==> r[name] == Resolve(attributes[name], eval)
  {
    map name | name in attributes && !InDialect(name, prefix) :: Resolve(attributes[name], eval)
  }

  /** Stripping the prefix loses nothing: two dialect attributes never share a
      local part. */
  lemma LocalNameInjective(a: string, b: string, prefix: string)
    requires InDialect(a, prefix) && InDialect(b, prefix) && LocalName(a, prefix) == LocalName(b, prefix)
    ensures a == b
  {
    PrefixedName(a, prefix);
    PrefixedName(b, prefix);
  }

  /** An injective image of a finite set has the set's size. */
  lemma {:induction false} LocalNamesSize(names: set<string>, prefix: string)
    requires forall name :: name in names ==> InDialect(name, prefix)
    ensures |set name | name in names :: LocalName(name, prefix)| == |names|
    decreases |names|
  {
    var image := set name | name in names :: LocalName(name, prefix);
    if names != {} {
      var x :| x in names;
      var rest := names - {x};
      var restImage := set name | name in rest :: LocalName(name, prefix);
      LocalNamesSize(rest, prefix);
      assert image == restImage + {LocalName(x, prefix)};
      assert LocalName(x, prefix) !in restImage by {
        if LocalName(x, prefix) in restImage {
          var y :| y in rest && LocalName(y, prefix) == LocalName(x, prefix);
          LocalNameInjective(x, y, prefix);
        }
      }
    }
  }

  lemma ComponentSize<V>(attributes: map<string, string>, prefix: string, eval: string -> Option<V>)
    ensures |ComponentAttributes(attributes, prefix, eval)| == |DialectNames(attributes, prefix)|
  {
    var c := ComponentAttributes(attributes, prefix, eval);
    LocalNamesSize(DialectNames(attributes, prefix), prefix);
    assert |c| == |c.Keys|;
  }

  lemma AdditionalSize<V>(attributes: map<string, string>, prefix: string, eval: string -> Option<V>)
    ensures |AdditionalAttributes(attributes, prefix, eval)| + |DialectNames(attributes, prefix)| == |attributes|
  {
    var dialect := DialectNames(attributes, prefix);
    AdditionalKeys(attributes, prefix, eval);
    DisjointUnionSize(dialect, attributes.Keys - dialect, attributes.Keys);
  }

  /** The additional attributes are the tag's attributes outside the dialect. */
  lemma AdditionalKeys<V>(attributes: map<string, string>, prefix: string, eval: string -> Option<V>)
    ensures AdditionalAttributes(attributes, prefix, eval).Keys == attributes.Keys - DialectNames(attributes, prefix)
    ensures DialectNames(attributes, prefix) <= attributes.Keys
  {
  }

  lemma DisjointUnionSize<T>(a: set<T>, b: set<T>, c: set<T>)
    requires a !! b && c == a + b
    ensures |c| == |a| + |b|
  {
  }

  /** The two maps partition the attributes: each attribute lands in exactly
      one of them, and together they hold as many entries as the tag has
      attributes. */
  lemma AttributePartition<V>(attributes: map<string, string>, prefix: string, eval: string -> Option<V>)
    ensures forall name :: name in attributes ==>
      (LocalName(name, prefix) in ComponentAttributes(attributes, prefix, eval) && InDialect(name, prefix))
        != (name in AdditionalAttributes(attributes, prefix, eval))
    ensures |ComponentAttributes(attributes, prefix, eval)| + |AdditionalAttributes(attributes, prefix, eval)| == |attributes|
  {
    ComponentSize(attributes, prefix, eval);
    AdditionalSize(attributes, prefix, eval);
  }
}

=== FILE: componentgroups.dfy ===
/** A component group of the pattern-library browser (ComponentGroup.java):
    the resources of one folder of the components directory, shown as one
    page with its documentation, its main example and further show cases.

    A resource is its URI, its file name and its text; reading the text
    (extractResource) and rendering markdown are outside the model. */
module ComponentGroups {
  import opened Wrappers
  import opened JavaStrings

  datatype Resource = Resource(uri: string, filename: string, content: string)

  datatype Group = Group(id: string, resources: seq<Resource>)

  /** One further example of a group, with its own documentation if any. */
  datatype ShowCase = ShowCase(id: string, example: Resource, documentation: Option<Resource>)

  /** The id of the group of the components directory itself (ROOT_GROUP_ID). */
  const RootGroupId: string := "/"

  /** isRoot (ComponentGroup.java:95-97). */
  predicate IsRoot(g: Group) {
    g.id == RootGroupId
  }

  /** localId (ComponentGroup.java:115-120): the last piece of the id split on
      "/"; none where Java indexes an empty array and throws. */
  function LocalId(id: string): (r: Option<string>)
    ensures r.None? <==> Split(id, {'/'}) == []
    ensures r.Some? ==> '/' !in r.value
  {
    var segments := Split(id, {'/'});
    if segments == [] then None else Some(segments[|segments| - 1])
  }

  /** The local id of a folder id is its last folder name. */
  lemma LocalIdOfFolder(parent: string, name: string)
    requires name != [] && '/' !in name
    ensures LocalId(parent + "/" + name + "/") == Some(name)
  {
    SplitLastBeforeSeparator(parent, '/', name, {'/'});
  }

  /** The local id of a path without trailing "/" is its last name. */
  lemma LocalIdOfPath(parent: string, name: string)
    requires name != [] && '/' !in name
    ensures LocalId(parent + "/" + name) == Some(name)
  {
    SplitLast(parent, '/', name, {'/'});
  }

  /** The root id has no local id: "/".split("/") is empty. */
  lemma RootHasNoLocalId()
    ensures LocalId(RootGroupId) == None
  {
    assert '/' in RootGroupId;
    assert Pieces(RootGroupId, {'/'}) == [[], []] by {
      assert RootGroupId[1..] == [];
    }
  }

  /** The group's local id is defined wherever the group's code asks for it. */
  predicate Named(g: Group) {
    IsRoot(g) || LocalId(g.id).Some?
  }

  /** hasResource (ComponentGroup.java:148-150). */
  predicate HasResource(g: Group, filename: string) {
    exists k :: 0 <= k < |g.resources| && g.resources[k].filename == filename
  }

  /** resourceFor (ComponentGroup.java:152-157): the first resource with the
      file name; none where Java throws. */
  function ResourceFor(g: Group, filename: string): (r: Option<Resource>)
    ensures r.Some? <==> HasResource(g, filename)
    ensures r.Some? ==> r.value in g.resources && r.value.filename == filename
  {
    FirstNamed(g.resources, filename)
  }

  function FirstNamed(resources: seq<Resource>, filename: string): (r: Option<Resource>)
    ensures r.Some? <==> exists k :: 0 <= k < |resources| && resources[k].filename == filename
    ensures r.Some? ==> r.value in resources && r.value.filename == filename
    ensures r.Some? ==> exists k :: (0 <= k < |resources| && resources[k] == r.value &&
      forall j :: 0 <= j < k ==> resources[j].filename != filename)
  {
    if resources == [] then None
    else if resources[0].filename == filename then Some(resources[0])
    else
      var rest := FirstNamed(resources[1..], filename);
      if rest.Some? then
        var k :| 0 <= k < |resources[1..]| && resources[1..][k] == rest.value &&
          forall j :: 0 <= j < k ==> resources[1..][j].filename != filename;
        assert resources[k + 1] == rest.value;
        rest
      else
        rest
  }

  /** The file name of the group's main documentation. */
  function DocumentationName(g: Group): string
    requires Named(g)
  {
    if IsRoot(g) then "index.md" else LocalId(g.id).value + ".md"
  }

  /** hasDocumentation (ComponentGroup.java:52-57): the root is documented by
      "index.md", any other group by "<local id>.md". */
  predicate HasDocumentation(g: Group)
    requires Named(g)
  {
    HasResource(g, DocumentationName(g))
  }

  /** getDocumentation (ComponentGroup.java:99-104). */
  function Documentation(g: Group): (r: Option<Resource>)
    requires Named(g)
    ensures r.Some? <==> HasDocumentation(g)
    ensures r.Some? ==> r.value.filename == DocumentationName(g)
  {
    ResourceFor(g, DocumentationName(g))
  }

  /** hasExample (ComponentGroup.java:63-65): never for the root, otherwise
      whether "<local id>.html" is among the resources. */
  predicate HasExample(g: Group)
    requires Named(g)
  {
    !IsRoot(g) && HasResource(g, LocalId(g.id).value + ".html")
  }

  /** getExamplePath (ComponentGroup.java:67-69). */
  function ExamplePath(g: Group): string
    requires LocalId(g.id).Some?
  {
    g.id + "/" + LocalId(g.id).value
  }

  /** The group of a folder `name` is documented by "<name>.md", has an
      example when "<name>.html" is among its resources, and finds that
      example under its id followed by "/<name>". */
  lemma FolderGroup(g: Group, parent: string, name: string)
    requires name != [] && '/' !in name && g.id == parent + "/" + name + "/"
    ensures !IsRoot(g) && Named(g)
    ensures DocumentationName(g) == name + ".md"
    ensures HasExample(g) <==> HasResource(g, name + ".html")
    ensures ExamplePath(g) == g.id + "/" + name
  {
    LocalIdOfFolder(parent, name);
    assert g.id[|g.id| - 2] == name[|name| - 1];
  }

  /** isExample (ComponentGroup.java:130-132). */
  predicate IsExample(r: Resource) {
    EndsWith(r.filename, ".html")
  }

  /** isDocumentation (ComponentGroup.java:134-136). */
  predicate IsDocumentation(r: Resource) {
    EndsWith(r.filename, ".md")
  }

  /** isMainExample (ComponentGroup.java:126-128). */
  predicate IsMainExample(g: Group, r: Resource)
    requires LocalId(g.id).Some?
  {
    r.filename == LocalId(g.id).value + ".html"
  }

  /** isMainDocumentation (ComponentGroup.java:122-124). */
  predicate IsMainDocumentation(g: Group, r: Resource)
    requires LocalId(g.id).Some?
  {
    r.filename == LocalId(g.id).value + ".md"
  }

  /** baseName (ComponentGroup.java:144-146): the file name before its last
      '.'; none where Java's substring(0, -1) throws. */
  function BaseName(filename: string): (r: Option<string>)
    ensures r.None? <==> '.' !in filename
    ensures r.Some? ==> exists extension :: '.' !in extension && filename == r.value + "." + extension
  {
    var dot := LastIndexOf(filename, '.');
    if dot == -1 then None
    else
      assert filename == filename[..dot] + "." + filename[dot + 1..];
      Some(filename[..dot])
  }

  /** The base name of a name with an extension is the name. */
  lemma BaseNameOf(name: string, extension: string)
    requires '.' !in extension
    ensures BaseName(name + "." + extension) == Some(name)
  {
    var f := name + "." + extension;
    var dot := LastIndexOf(f, '.');
    assert f[|name|] == '.';
    assert f[|name| + 1..] == extension;
    assert dot == |name|;
    assert f[..dot] == name;
  }

  /** An example or a documentation file has a base name. */
  lemma SuffixedHasBaseName(filename: string, suffix: string)
    requires EndsWith(filename, suffix) && |suffix| > 0 && suffix[0] == '.'
    ensures BaseName(filename).Some?
  {
    assert filename[|filename| - |suffix|] == '.';
  }

  /** A documentation file other than the group's main one that shares the
      example's base name. */
  predicate DocumentsExample(g: Group, d: Resource, example: Resource)
    requires LocalId(g.id).Some?
  {
    IsDocumentation(d) && BaseName(d.filename) == BaseName(example.filename) && !IsMainDocumentation(g, d)
  }

  /** lookupDocumentationFor (ComponentGroup.java:106-113): the first
      documentation file sharing the example's base name, other than the
      group's main documentation. */
  function LookupDocumentationFor(g: Group, example: Resource): (r: Option<Resource>)
    requires LocalId(g.id).Some?
    ensures r.Some? ==> r.value in g.resources && IsDocumentation(r.value) && !IsMainDocumentation(g, r.value)
    ensures r.Some? ==> BaseName(r.value.filename) == BaseName(example.filename)
    ensures r.Some? ==> exists k :: (0 <= k < |g.resources| && g.resources[k] == r.value &&
      forall j :: 0 <= j < k ==> !DocumentsExample(g, g.resources[j], example))
    ensures r.None? ==> forall d :: d in g.resources && IsDocumentation(d) && !IsMainDocumentation(g, d) ==>
      BaseName(d.filename) != BaseName(example.filename)
  {
    FirstDocumentation(g, g.resources, example)
  }

  function FirstDocumentation(g: Group, resources: seq<Resource>, example: Resource): (r: Option<Resource>)
    requires LocalId(g.id).Some?
    ensures r.Some? ==> r.value in resources && DocumentsExample(g, r.value, example)
    ensures r.Some? ==> exists k :: (0 <= k < |resources| && resources[k] == r.value &&
      forall j :: 0 <= j < k ==> !DocumentsExample(g, resources[j], example))
    ensures r.None? ==> forall d :: d in resources ==> !DocumentsExample(g, d, example)
  {
    if resources == [] then None
    else if DocumentsExample(g, resources[0], example) then Some(resources[0])
    else
      var rest := FirstDocumentation(g, resources[1..], example);
      if rest.Some? then
        FirstDocumentationShift(g, resources, example, rest.value);
        rest
      else
        assert forall d :: d in resources ==> d == resources[0] || d in resources[1..];
        rest
  }

  /** A first documenting resource of the tail, behind a head that does not
      document the example, is the first of the whole sequence too. */
  lemma FirstDocumentationShift(g: Group, resources: seq<Resource>, example: Resource, x: Resource)
    requires LocalId(g.id).Some? && resources != [] && !DocumentsExample(g, resources[0], example)
    requires exists k :: (0 <= k < |resources[1..]| && resources[1..][k] == x &&
      forall j :: 0 <= j < k ==> !DocumentsExample(g, resources[1..][j], example))
    ensures exists k :: (0 <= k < |resources| && resources[k] == x &&
      forall j :: 0 <= j < k ==> !DocumentsExample(g, resources[j], example))
  {
    var k :| 0 <= k < |resources[1..]| && resources[1..][k] == x &&
      forall j :: 0 <= j < k ==> !DocumentsExample(g, resources[1..][j], example);
    var tail := resources[1..];
    assert forall j :: 1 <= j < |resources| ==> resources[j] == tail[j - 1];
    assert forall j :: 0 <= j < k + 1 ==> !DocumentsExample(g, resources[j], example);
    assert resources[k + 1] == x;
  }

  /** The resources shown as show cases: examples other than the main one. */
  predicate IsShowCase(g: Group, r: Resource)
    requires LocalId(g.id).Some?
  {
    IsExample(r) && !IsMainExample(g, r)
  }

  /** The local id is needed by getShowCases only when there is an example. */
  predicate ShowCasesDefined(g: Group) {
    LocalId(g.id).Some? || forall r :: r in g.resources ==> !IsExample(r)
  }

  /** getShowCases (ComponentGroup.java:83-89): one show case per example
      other than the main one, in resource order, identified by the group id
      and the example's base name. */
  function ShowCases(g: Group): (r: seq<ShowCase>)
    requires ShowCasesDefined(g)
    ensures LocalId(g.id).None? ==> r == []
  {
    ShowCasesOf(g, g.resources)
  }

  function ShowCasesOf(g: Group, resources: seq<Resource>): (r: seq<ShowCase>)
    requires LocalId(g.id).Some? || forall x :: x in resources ==> !IsExample(x)
    ensures LocalId(g.id).None? ==> r == []
  {
    if resources == [] then []
    else
      var x := resources[0];
      var rest := ShowCasesOf(g, resources[1..]);
      if IsExample(x) && !IsMainExample(g, x) then [CaseOf(g, x)] + rest
      else rest
  }

  /** The show case of one example. */
  function CaseOf(g: Group, example: Resource): (r: ShowCase)
    requires LocalId(g.id).Some? && IsShowCase(g, example)
    ensures BaseName(example.filename).Some?
  {
    SuffixedHasBaseName(example.filename, ".html");
    ShowCase(g.id + "/" + BaseName(example.filename).value, example, LookupDocumentationFor(g, example))
  }

  /** The show-case resources, in resource order (the reference filter). */
  function ShowCaseResources(g: Group, resources: seq<Resource>): (r: seq<Resource>)
    requires LocalId(g.id).Some?
    ensures |r| <= |resources| && forall k :: 0 <= k < |r| ==> IsShowCase(g, r[k])
  {
    if resources == [] then []
    else if IsShowCase(g, resources[0]) then [resources[0]] + ShowCaseResources(g, resources[1..])
    else ShowCaseResources(g, resources[1..])
  }

  /** Show cases follow the examples one by one: same count and order, each
      made from its example. */
  lemma {:induction false} ShowCasesMapExamples(g: Group, resources: seq<Resource>)
    requires LocalId(g.id).Some?
    ensures var cases, examples := ShowCasesOf(g, resources), ShowCaseResources(g, resources);
      |cases| == |examples| && forall k :: 0 <= k < |cases| ==> cases[k] == CaseOf(g, examples[k])
  {
    if resources != [] {
      ShowCasesMapExamples(g, resources[1..]);
      var x := resources[0];
      var cases, examples := ShowCasesOf(g, resources[1..]), ShowCaseResources(g, resources[1..]);
      if IsShowCase(g, x) {
        assert ShowCasesOf(g, resources) == [CaseOf(g, x)] + cases;
        assert ShowCaseResources(g, resources) == [x] + examples;
        ShowCasesCons(g, x, cases, examples);
      }
    }
  }

  /** One more show-case resource in front adds its show case in front. */
  lemma ShowCasesCons(g: Group, x: Resource, cases: seq<ShowCase>, examples: seq<Resource>)
    requires LocalId(g.id).Some? && IsShowCase(g, x)
    requires forall k :: 0 <= k < |examples| ==> IsShowCase(g, examples[k])
    requires |cases| == |examples| && forall k :: 0 <= k < |cases| ==> cases[k] == CaseOf(g, examples[k])
    ensures var all, allExamples := [CaseOf(g, x)] + cases, [x] + examples;
      |all| == |allExamples| && forall k :: 0 <= k < |all| ==> IsShowCase(g, allExamples[k]) && all[k] == CaseOf(g, allExamples[k])
  {
    var all, allExamples := [CaseOf(g, x)] + cases, [x] + examples;
    forall k | 0 <= k < |all|
      ensures IsShowCase(g, allExamples[k]) && all[k] == CaseOf(g, allExamples[k])
    {
      if k > 0 {
        var e := examples[k - 1];
        assert allExamples[k] == e && IsShowCase(g, e);
        assert all[k] == cases[k - 1] == CaseOf(g, e);
      }
    }
  }

  /** Each show case carries its example, an id of the group id and the
      example's base name, and the example's own documentation. */
  lemma ShowCasesFollowExamples(g: Group)
    requires LocalId(g.id).Some?
    ensures var cases, examples := ShowCases(g), ShowCaseResources(g, g.resources);
      && |cases| == |examples|
      && forall k :: 0 <= k < |cases| ==>
           && cases[k].example == examples[k]
           && BaseName(examples[k].filename).Some?
           && cases[k].id == g.id + "/" + BaseName(examples[k].filename).value
           && cases[k].documentation == LookupDocumentationFor(g, examples[k])
  {
    ShowCasesMapExamples(g, g.resources);
    ShowCaseResourcesMembers(g, g.resources);
  }

  /** The show-case resources are exactly the examples other than the main one. */
  lemma {:induction false} ShowCaseResourcesMembers(g: Group, resources: seq<Resource>)
    requires LocalId(g.id).Some?
    ensures forall x :: x in ShowCaseResources(g, resources) <==> x in resources && IsShowCase(g, x)
  {
    if resources != [] {
      ShowCaseResourcesMembers(g, resources[1..]);
      assert forall x :: x in resources <==> x == resources[0] || x in resources[1..];
    }
  }

  /** capitalized (ComponentGroup.java:138-142): the pieces between spaces and
      dashes, each capitalized, joined by single spaces. */
  function Capitalized(raw: string): string {
    Join(CapitalizeAll(Split(raw, {' ', '-'})), " ")
  }

  function CapitalizeAll(words: seq<string>): (r: seq<string>)
    ensures |r| == |words| && forall k :: 0 <= k < |words| ==> r[k] == Capitalize(words[k])
  {
    if words == [] then [] else [Capitalize(words[0])] + CapitalizeAll(words[1..])
  }

  /** A dashed name becomes capitalized words: "primary-button" reads
      "Primary Button". */
  lemma CapitalizedDashed(first: string, second: string)
    requires first != [] && second != []
    requires Plain(first, {' ', '-'})
    requires Plain(second, {' ', '-'})
    ensures Capitalized(first + "-" + second) == Capitalize(first) + " " + Capitalize(second)
  {
    SplitLast(first, '-', second, {' ', '-'});
    PiecesPlain(first, {' ', '-'});
    var words := CapitalizeAll([first, second]);
    assert words[1..] == [Capitalize(second)];
  }

  /** A name without spaces or dashes is only capitalized. */
  lemma CapitalizedWord(word: string)
    requires Plain(word, {' ', '-'})
    ensures Capitalized(word) == Capitalize(word)
  {
  }

  /** titleFrom (ComponentGroup.java:179-188): the first line without its
      "# " when it is a markdown title, none otherwise. */
  function TitleFrom(source: string): Option<string> {
    var lines := ReadAllLines(source);
    if lines != [] && "# " <= lines[0] then Some(lines[0][2..]) else None
  }

  /** skipLines (ComponentGroup.java:198-201): every line after the first `n`,
      joined by "\n". subList throws when there are fewer than `n` lines. */
  function SkipLines(source: string, n: nat): string
    requires n <= |ReadAllLines(source)|
  {
    Join(ReadAllLines(source)[n..], "\n")
  }

  /** stripTitle (ComponentGroup.java:190-196): the text without its first
      line when it starts with "# ", the text itself otherwise. */
  function StripTitle(source: string): (r: string)
    ensures !("# " <= source) ==> r == source
  {
    if "# " <= source then
      assert |ReadAllLines(source)| >= 1;
      SkipLines(source, 1)
    else source
  }

  /** titleFrom and stripTitle agree on what a title is: the first line is a
      title exactly when the text starts with "# ". */
  lemma TitleWhereStripped(source: string)
    ensures TitleFrom(source).Some? <==> "# " <= source
  {
    if source != [] {
      var e := LineEnd(source);
      var lines := ReadAllLines(source);
      assert lines[0] == source[..e];
      if e >= 2 {
        assert source[..e][..2] == source[..2];
      } else if |source| >= 2 {
        assert IsLineBreak(source[e]);
      }
    }
  }

  /** A document made of a title line and a body: titleFrom finds the title and
      stripTitle leaves exactly the body. */
  lemma TitledDocument(title: string, body: string)
    requires SingleLine(title)
    requires '\r' !in body && (body == [] || body[|body| - 1] != '\n')
    ensures TitleFrom("# " + title + "\n" + body) == Some(title)
    ensures StripTitle("# " + title + "\n" + body) == body
  {
    var line := "# " + title;
    var source := line + "\n" + body;
    assert "# " + title + "\n" + body == source;
    ReadAllLinesCons(line, body);
    JoinReadAllLines(body);
    assert "# " <= source;
    assert ReadAllLines(source)[1..] == ReadAllLines(body);
    assert line[2..] == title;
  }

  /** getName (ComponentGroup.java:40-50): the title of the group's
      documentation, else the capitalized local id; none for an untitled root. */
  function Name(g: Group): (r: Option<string>)
    requires Named(g)
    ensures r.None? <==> IsRoot(g) && !(HasDocumentation(g) && "# " <= Documentation(g).value.content)
  {
    var title := if HasDocumentation(g) then TitleFrom(Documentation(g).value.content) else None;
    assert HasDocumentation(g) ==> (title.Some? <==> "# " <= Documentation(g).value.content) by {
      if HasDocumentation(g) {
        TitleWhereStripped(Documentation(g).value.content);
      }
    }
    if title.Some? then title
    else if IsRoot(g) then None
    else Some(Capitalized(LocalId(g.id).value))
  }

  /** ShowCase.getName (ComponentGroup.java:234-246): the title of the show
      case's documentation, else the example's whole file name split on '-',
      each piece capitalized and joined by spaces. */
  function ShowCaseName(s: ShowCase): (r: string)
    ensures s.documentation.Some? && "# " <= s.documentation.value.content ==> SingleLine(r)
  {
    if s.documentation.Some? && TitleFrom(s.documentation.value.content).Some? then
      var title := TitleFrom(s.documentation.value.content).value;
      assert SingleLine(title) by {
        var source := s.documentation.value.content;
        ReadAllLinesSingle(source);
        var line := ReadAllLines(source)[0];
        assert SingleLine(line);
        assert forall j :: 0 <= j < |title| ==> title[j] == line[j + 2];
      }
      title
    else
      Join(CapitalizeAll(Split(s.example.filename, {'-'})), " ")
  }

  /** A document whose first line is "# title" is titled by it, whatever
      follows the line's terminator: the rest of the file is never read. */
  lemma TitleOfFirstLine(title: string, rest: string)
    requires SingleLine(title)
    requires rest == [] || IsLineBreak(rest[0])
    ensures TitleFrom("# " + title + rest) == Some(title)
  {
    var line := "# " + title;
    var source := line + rest;
    assert "# " + title + rest == source;
    assert SingleLine(line) by {
      assert forall j :: 2 <= j < |line| ==> line[j] == title[j - 2];
    }
    LineEndOf(line, rest);
    assert source[..|line|] == line;
    assert ReadAllLines(source)[0] == line;
    assert line[2..] == title;
  }

  /** A folder group whose "<name>.md" has "# title" as its first line is
      named by that title, whatever the rest of the file holds. */
  lemma NameOfTitledFolder(g: Group, parent: string, name: string, title: string, rest: string)
    requires name != [] && '/' !in name && g.id == parent + "/" + name + "/"
    requires SingleLine(title)
    requires rest == [] || IsLineBreak(rest[0])
    requires ResourceFor(g, name + ".md").Some? && ResourceFor(g, name + ".md").value.content == "# " + title + rest
    ensures Named(g) && Name(g) == Some(title)
  {
    FolderGroup(g, parent, name);
    TitleOfFirstLine(title, rest);
  }

  /** A folder group without a titled "<name>.md" is named by its folder
      name, capitalized word by word. */
  lemma NameOfUntitledFolder(g: Group, parent: string, name: string)
    requires name != [] && '/' !in name && g.id == parent + "/" + name + "/"
    requires ResourceFor(g, name + ".md").Some? ==> !("# " <= ResourceFor(g, name + ".md").value.content)
    ensures Named(g) && Name(g) == Some(Capitalized(name))
  {
    FolderGroup(g, parent, name);
    LocalIdOfFolder(parent, name);
    if HasDocumentation(g) {
      TitleWhereStripped(Documentation(g).value.content);
    }
  }

  /** The root group without a titled "index.md" has no name. */
  lemma NameOfUntitledRoot(g: Group)
    requires IsRoot(g)
    requires ResourceFor(g, "index.md").Some? ==> !("# " <= ResourceFor(g, "index.md").value.content)
    ensures Named(g) && Name(g) == None
  {
    if HasDocumentation(g) {
      TitleWhereStripped(Documentation(g).value.content);
    }
  }

  /** A show case whose documentation has "# title" as its first line is
      named by that title, whatever the rest of the file holds. */
  lemma ShowCaseNameTitled(s: ShowCase, title: string, rest: string)
    requires SingleLine(title)
    requires rest == [] || IsLineBreak(rest[0])
    requires s.documentation.Some? && s.documentation.value.content == "# " + title + rest
    ensures ShowCaseName(s) == title
  {
    TitleOfFirstLine(title, rest);
  }

  /** An untitled show case whose example file is named "first-second" reads
      as the two parts capitalized and joined by a space. The whole file name
      is split, so "primary-button.html" reads "Primary Button.html". */
  lemma ShowCaseNameUntitled(s: ShowCase, first: string, second: string)
    requires first != [] && second != [] && Plain(first, {'-'}) && Plain(second, {'-'})
    requires s.example.filename == first + "-" + second
    requires s.documentation.Some? ==> !("# " <= s.documentation.value.content)
    ensures ShowCaseName(s) == Capitalize(first) + " " + Capitalize(second)
  {
    if s.documentation.Some? {
      TitleWhereStripped(s.documentation.value.content);
    }
    assert first + "-" + second == first + ['-'] + second;
    SplitLast(first, '-', second, {'-'});
    PiecesPlain(first, {'-'});
    var words := CapitalizeAll([first, second]);
    assert words[1..] == [Capitalize(second)];
  }
}

=== FILE: compose.dfy ===
/** The fragment side of a composition: locating the fragment's body, choosing
    each slot's content (call-site content or the placeholder's fallback),
    filling every slot (`fillSlots`) and wrapping the result in a transparent
    `th:block` (`prepareModel`). */
module Compose {
  import opened Wrappers
  import opened Errors
  import opened Events
  import opened SubTree
  import opened Slots
  import opened Merge
  import opened Enumerations

  /** The attribute marking the fragment's root element. */
  const FragmentAttribute: string := "th:fragment"

  /** The wrapper element's complete name. */
  const BlockName: string := "th:block"

  /** Position of the first open tag carrying attribute `attr`
      (firstOpenElementTagWithAttribute). Standalone tags are passed over. */
  function FirstOpenWithAttribute(model: seq<Event>, attr: string): (r: Option<nat>)
    ensures r.Some? ==> r.value < |model| && model[r.value].OpenTag? && attr in model[r.value].attributes
    ensures r.Some? ==> forall k :: 0 <= k < r.value ==> !(model[k].OpenTag? && attr in model[k].attributes)
    ensures r.None? ==> forall k :: 0 <= k < |model| ==> !(model[k].OpenTag? && attr in model[k].attributes)
  {
    FirstOpenWithAttributeFrom(model, attr, 0)
  }

  function FirstOpenWithAttributeFrom(model: seq<Event>, attr: string, i: nat): (r: Option<nat>)
    requires i <= |model|
    ensures r.Some? ==> i <= r.value < |model| && model[r.value].OpenTag? && attr in model[r.value].attributes
    ensures r.Some? ==> forall k :: i <= k < r.value ==> !(model[k].OpenTag? && attr in model[k].attributes)
    ensures r.None? ==> forall k :: i <= k < |model| ==> !(model[k].OpenTag? && attr in model[k].attributes)
    decreases |model| - i
  {
    if i == |model| then None
    else if model[i].OpenTag? && attr in model[i].attributes then Some(i)
    else FirstOpenWithAttributeFrom(model, attr, i + 1)
  }

  /** The events inside the fragment's root element; empty when the fragment
      has no root (subTreeBelow of null is empty). */
  function FragmentBody(fragment: seq<Event>): seq<Event> {
    match FirstOpenWithAttribute(fragment, FragmentAttribute)
    case None => []
    case Some(r) => SubTreeBelow(fragment, fragment[r].id)
  }

  /** fallbackSlotContent (ComponentModelProcessor.java:166-168): what an open
      placeholder encloses; a standalone placeholder has none. */
  function FallbackContent(fragment: seq<Event>, placeholder: Event): seq<Event> {
    if placeholder.OpenTag? then SubTreeBelow(fragment, placeholder.id) else []
  }

  /** The content a slot is filled with: the call-site content when there is
      some, the placeholder's fallback otherwise (ComponentModelProcessor.java:143-153). */
  function EffectiveContent(fragment: seq<Event>, placeholder: Event, contents: map<string, seq<Event>>, name: string): seq<Event> {
    if name !in contents || contents[name] == [] then FallbackContent(fragment, placeholder)
    else contents[name]
  }

  /** The fill step of one slot: the placeholder's subtree in the fragment and
      the slot's content. */
  function SlotStep(fragment: seq<Event>, slots: map<string, Event>, contents: map<string, seq<Event>>, name: string): Splice
    requires name in slots
  {
    Splice(SubTreeFrom(fragment, slots[name].id), EffectiveContent(fragment, slots[name], contents, name))
  }

  /** The fill steps in the given iteration order. */
  function SlotPlan(fragment: seq<Event>, slots: map<string, Event>, contents: map<string, seq<Event>>, order: seq<string>): seq<Splice>
    requires forall n :: n in order ==> n in slots
  {
    seq(|order|, i requires 0 <= i < |order| => SlotStep(fragment, slots, contents, order[i]))
  }

  /** fillSlots (ComponentModelProcessor.java:138-158): every slot of the
      fragment filled in the iteration order `order` of the slot map. */
  function FillSlots(fragment: seq<Event>, slots: map<string, Event>, contents: map<string, seq<Event>>, order: seq<string>): (r: Result<seq<Event>, Error>)
    requires IsEnumeration(order, slots.Keys)
    ensures slots == map[] ==> r == Success(FragmentBody(fragment))
    ensures r.Success? ==> forall e :: e in r.value ==>
      e in FragmentBody(fragment) || exists name :: name in slots && e in EffectiveContent(fragment, slots[name], contents, name)
    ensures r.Failure? ==> r.error == IndexOutOfBounds
  {
    var plan := SlotPlan(fragment, slots, contents, order);
    if slots == map[] then
      EnumerationSize(order, slots.Keys);
      FillInOrder(FragmentBody(fragment), plan)
    else
      var r := FillInOrder(FragmentBody(fragment), plan);
      assert r.Success? ==> forall e :: e in r.value ==>
        e in FragmentBody(fragment) || exists name :: name in slots && e in EffectiveContent(fragment, slots[name], contents, name) by {
        if r.Success? {
          forall e | e in r.value && e !in FragmentBody(fragment)
            ensures exists name :: name in slots && e in EffectiveContent(fragment, slots[name], contents, name)
          {
            var a :| 0 <= a < |plan| && e in plan[a].content;
            assert order[a] in order;
          }
        }
      }
      r
  }

  /** prepareModel (ComponentModelProcessor.java:118-136): the filled fragment
      body between an open and a close `th:block` tag, the open tag carrying
      the pass-through attributes. */
  function PrepareModel(fragment: seq<Event>, attributes: map<string, string>, slots: map<string, Event>,
                        contents: map<string, seq<Event>>, order: seq<string>, openId: EventId, closeId: EventId): (r: Result<seq<Event>, Error>)
    requires IsEnumeration(order, slots.Keys)
    ensures r.Success? <==> FillSlots(fragment, slots, contents, order).Success?
    ensures r.Failure? ==> r.error == IndexOutOfBounds
    ensures r.Success? ==>
      && |r.value| == |FillSlots(fragment, slots, contents, order).value| + 2
      && r.value[0] == OpenTag(openId, BlockName, attributes)
      && r.value[|r.value| - 1] == CloseTag(closeId, BlockName)
      && r.value[1..|r.value| - 1] == FillSlots(fragment, slots, contents, order).value
  {
    var filled :- FillSlots(fragment, slots, contents, order);
    var r := [OpenTag(openId, BlockName, attributes)] + filled + [CloseTag(closeId, BlockName)];
    assert r[1..|r| - 1] == filled;
    Success(r)
  }

  /** The wrapper keeps markup balanced: wrapping well-formed events in an
      open and a close tag yields well-formed events. */
  lemma WrapWellFormed(s: seq<Event>, open: Event, close: Event)
    requires WellFormed(s) && open.OpenTag? && close.CloseTag?
    ensures WellFormed([open] + s + [close])
  {
    var w := [open] + s + [close];
    DepthConcat([open] + s, [close]);
    DepthConcat([open], s);
    forall k | 0 <= k <= |w|
      ensures Depth(w[..k]) >= 0
    {
      if k == |w| {
        assert w[..k] == w;
      } else if 1 <= k {
        assert w[..k] == [open] + s[..k - 1];
        DepthConcat([open], s[..k - 1]);
      }
    }
  }

  /** Where a placeholder's subtree begins in the fragment. */
  function PlaceholderStart(fragment: seq<Event>, e: Event): int {
    IndexOf(fragment, e.id)
  }

  /** Where a placeholder's subtree ends (exclusive) in the fragment. */
  function PlaceholderEnd(fragment: seq<Event>, e: Event): int {
    IndexOf(fragment, e.id) + |SubTreeFrom(fragment, e.id)|
  }

  /** Distinct events and a root element whose subtree is balanced. */
  ghost predicate Rooted(fragment: seq<Event>) {
    && UniqueIds(fragment)
    && FirstOpenWithAttribute(fragment, FragmentAttribute).Some?
    && Depth(SubTreeFrom(fragment, fragment[FirstOpenWithAttribute(fragment, FragmentAttribute).value].id)) == 0
  }

  /** Where the root element's subtree ends (exclusive). */
  ghost function RootEnd(fragment: seq<Event>): int
    requires FirstOpenWithAttribute(fragment, FragmentAttribute).Some?
  {
    var r := FirstOpenWithAttribute(fragment, FragmentAttribute).value;
    r + |SubTreeFrom(fragment, fragment[r].id)|
  }

  /** A placeholder of the fragment whose subtree lies strictly inside the root. */
  ghost predicate InsideRoot(fragment: seq<Event>, e: Event)
    requires FirstOpenWithAttribute(fragment, FragmentAttribute).Some?
  {
    && e in fragment
    && FirstOpenWithAttribute(fragment, FragmentAttribute).value < PlaceholderStart(fragment, e)
    && PlaceholderEnd(fragment, e) < RootEnd(fragment)
  }

  /** A fragment whose slots fill without interference: distinct events, a
      balanced root element, every placeholder's subtree strictly inside the
      root, no placeholder inside another placeholder's subtree, and call-site
      contents made of events from outside the fragment. */
  ghost predicate WellPlaced(fragment: seq<Event>, slots: map<string, Event>, contents: map<string, seq<Event>>) {
    && Rooted(fragment)
    && (forall name :: name in slots ==> InsideRoot(fragment, slots[name]))
    && (forall a, b :: a in slots && b in slots && a != b ==> Apart(fragment, slots[a], slots[b]))
    && (forall name :: name in contents ==> Ids(contents[name]) !! Ids(fragment))
  }

  /** One placeholder inside a rooted fragment, filled with foreign content,
      is well placed. */
  lemma WellPlacedSingle(fragment: seq<Event>, name: string, placeholder: Event, content: seq<Event>)
    requires Rooted(fragment) && InsideRoot(fragment, placeholder)
    requires Ids(content) !! Ids(fragment)
    ensures WellPlaced(fragment, map[name := placeholder], map[name := content])
  {
  }

  /** A placeholder's subtree is the block of the fragment between its start
      and end. */
  lemma PlaceholderSlice(fragment: seq<Event>, e: Event)
    requires UniqueIds(fragment) && e in fragment
    ensures var p, t := PlaceholderStart(fragment, e), SubTreeFrom(fragment, e.id);
      && 0 <= p && 1 <= |t| && p + |t| <= |fragment|
      && t == fragment[p..p + |t|]
  {
    assert e.id in Ids(fragment);
    SpanIsSlice(fragment, e.id);
  }

  /** Distinct events occupy disjoint blocks with disjoint identities. */
  lemma SliceIdsDisjoint(m: seq<Event>, x: nat, k: nat, y: nat, l: nat)
    requires UniqueIds(m) && x + k <= y && y + l <= |m|
    ensures Ids(m[x..x + k]) !! Ids(m[y..y + l])
  {
    forall e, f | e in m[x..x + k] && f in m[y..y + l]
      ensures e.id != f.id
    {
      var p :| 0 <= p < k && m[x..x + k][p] == e;
      var q :| 0 <= q < l && m[y..y + l][q] == f;
      assert m[x + p] == e && m[y + q] == f;
    }
  }

  lemma SliceIdsWithin(m: seq<Event>, x: nat, k: nat)
    requires x + k <= |m|
    ensures Ids(m[x..x + k]) <= Ids(m)
  {
    assert forall e :: e in m[x..x + k] ==> e in m;
  }

  /** What subTreeBelow returns is part of what subTreeFrom returns. */
  lemma SubTreeBelowWithin(model: seq<Event>, id: EventId)
    ensures Ids(SubTreeBelow(model, id)) <= Ids(SubTreeFrom(model, id))
  {
    var t := SubTreeFrom(model, id);
    if |t| >= 2 {
      assert forall e :: e in t[1..|t| - 1] ==> e in t;
    }
  }

  /** The body of a rooted fragment is the block strictly inside the root. */
  lemma RootBody(fragment: seq<Event>)
    requires Rooted(fragment)
    ensures var r := FirstOpenWithAttribute(fragment, FragmentAttribute).value;
      && r + 2 <= RootEnd(fragment) <= |fragment|
      && FragmentBody(fragment) == fragment[r + 1..RootEnd(fragment) - 1]
      && UniqueIds(FragmentBody(fragment))
  {
    var r := FirstOpenWithAttribute(fragment, FragmentAttribute).value;
    SubTreeBelowOfOpen(fragment, r);
    UniqueBlock(fragment, r + 1, RootEnd(fragment) - 1 - (r + 1));
  }

  /** The body of a rooted fragment is well-formed markup. */
  lemma RootBodyWellFormed(fragment: seq<Event>)
    requires Rooted(fragment)
    ensures WellFormed(FragmentBody(fragment))
  {
    var r := FirstOpenWithAttribute(fragment, FragmentAttribute).value;
    SubTreeBelowOfOpen(fragment, r);
  }

  /** A block of the fragment inside the body is a block of the body. */
  lemma BlockOfBody(fragment: seq<Event>, body: seq<Event>, lo: nat, hi: nat, p: nat, t: seq<Event>)
    requires UniqueIds(fragment) && lo <= p && 1 <= |t| && p + |t| <= hi <= |fragment|
    requires body == fragment[lo..hi] && t == fragment[p..p + |t|]
    ensures Contiguous(body, t)
  {
    UniqueBlock(fragment, lo, hi - lo);
    assert fragment[lo..lo + (hi - lo)] == body;
    SliceOfSlice(fragment, lo, hi, p, |t|);
    BlockAt(body, p - lo, t);
  }

  /** A block of distinct events found at position `i`. */
  lemma BlockAt(body: seq<Event>, i: nat, t: seq<Event>)
    requires UniqueIds(body) && 1 <= |t| && i + |t| <= |body| && body[i..i + |t|] == t
    ensures Contiguous(body, t)
  {
    assert body[i] == t[0];
    IndexOfUnique(body, i);
  }

  lemma SliceOfSlice<T>(m: seq<T>, lo: nat, hi: nat, p: nat, n: nat)
    requires lo <= p && p + n <= hi <= |m|
    ensures m[lo..hi][p - lo..p - lo + n] == m[p..p + n]
  {
    var a, b := m[lo..hi][p - lo..p - lo + n], m[p..p + n];
    assert |a| == |b|;
    forall k | 0 <= k < n
      ensures a[k] == b[k]
    {
      assert a[k] == m[p + k];
    }
  }

  /** Neither placeholder lies inside the other's subtree. */
  predicate Apart(fragment: seq<Event>, x: Event, y: Event) {
    && !(PlaceholderStart(fragment, x) <= PlaceholderStart(fragment, y) < PlaceholderEnd(fragment, x))
    && !(PlaceholderStart(fragment, y) <= PlaceholderStart(fragment, x) < PlaceholderEnd(fragment, y))
  }

  /** Placeholders apart from each other have subtrees without common events. */
  lemma SpansDisjoint(fragment: seq<Event>, x: Event, y: Event)
    requires UniqueIds(fragment) && x in fragment && y in fragment
    requires Apart(fragment, x, y)
    ensures Ids(SubTreeFrom(fragment, x.id)) !! Ids(SubTreeFrom(fragment, y.id))
  {
    PlaceholderSlice(fragment, x);
    PlaceholderSlice(fragment, y);
    var px, py := PlaceholderStart(fragment, x), PlaceholderStart(fragment, y);
    var tx, ty := SubTreeFrom(fragment, x.id), SubTreeFrom(fragment, y.id);
    if px <= py {
      BlocksDisjoint(fragment, px, tx, py, ty);
    } else {
      BlocksDisjoint(fragment, py, ty, px, tx);
    }
  }

  /** Two blocks of distinct events, one after the other, share no identity. */
  lemma BlocksDisjoint(m: seq<Event>, x: nat, tx: seq<Event>, y: nat, ty: seq<Event>)
    requires UniqueIds(m) && x + |tx| <= y && y + |ty| <= |m|
    requires tx == m[x..x + |tx|] && ty == m[y..y + |ty|]
    ensures Ids(tx) !! Ids(ty)
  {
    SliceIdsDisjoint(m, x, |tx|, y, |ty|);
  }

  /** A placeholder's fallback, or call-site content from outside the fragment,
      shares no event with the subtree of a placeholder apart from it. */
  lemma ContentAvoidsOtherSpan(fragment: seq<Event>, x: Event, y: Event, content: seq<Event>)
    requires UniqueIds(fragment) && x in fragment && y in fragment
    requires Apart(fragment, x, y)
    requires content == FallbackContent(fragment, x) || Ids(content) !! Ids(fragment)
    ensures Ids(content) !! Ids(SubTreeFrom(fragment, y.id))
  {
    if content == FallbackContent(fragment, x) {
      SpansDisjoint(fragment, x, y);
      SubTreeBelowWithin(fragment, x.id);
    } else {
      PlaceholderSlice(fragment, y);
      SliceIdsWithin(fragment, PlaceholderStart(fragment, y), |SubTreeFrom(fragment, y.id)|);
    }
  }

  /** A placeholder whose subtree lies within the body's block is a block of
      the body. */
  lemma PlaceholderInBody(fragment: seq<Event>, body: seq<Event>, e: Event, lo: nat, hi: nat)
    requires UniqueIds(fragment) && e in fragment
    requires lo <= PlaceholderStart(fragment, e) && PlaceholderEnd(fragment, e) <= hi <= |fragment|
    requires body == fragment[lo..hi]
    ensures Contiguous(body, SubTreeFrom(fragment, e.id))
  {
    PlaceholderSlice(fragment, e);
    BlockOfBody(fragment, body, lo, hi, PlaceholderStart(fragment, e), SubTreeFrom(fragment, e.id));
  }

  /** A placeholder inside the root has a subtree that is a block of the body. */
  lemma InsideRootContiguous(fragment: seq<Event>, e: Event)
    requires Rooted(fragment) && InsideRoot(fragment, e)
    ensures Contiguous(FragmentBody(fragment), SubTreeFrom(fragment, e.id))
  {
    RootBody(fragment);
    var r := FirstOpenWithAttribute(fragment, FragmentAttribute).value;
    PlaceholderInBody(fragment, FragmentBody(fragment), e, r + 1, RootEnd(fragment) - 1);
  }

  /** Two apart placeholders: their fill steps do not interfere. */
  lemma StepsApart(fragment: seq<Event>, x: Event, y: Event, content: seq<Event>)
    requires UniqueIds(fragment) && x in fragment && y in fragment && Apart(fragment, x, y)
    requires content == FallbackContent(fragment, x) || Ids(content) !! Ids(fragment)
    ensures Ids(SubTreeFrom(fragment, x.id)) !! Ids(SubTreeFrom(fragment, y.id))
    ensures Ids(content) !! Ids(SubTreeFrom(fragment, y.id))
  {
    SpansDisjoint(fragment, x, y);
    ContentAvoidsOtherSpan(fragment, x, y, content);
  }

  lemma PlanContiguous(fragment: seq<Event>, slots: map<string, Event>, contents: map<string, seq<Event>>, order: seq<string>)
    requires WellPlaced(fragment, slots, contents) && IsEnumeration(order, slots.Keys)
    ensures var plan := SlotPlan(fragment, slots, contents, order);
      forall a :: 0 <= a < |plan| ==> Contiguous(FragmentBody(fragment), plan[a].span)
  {
    var plan := SlotPlan(fragment, slots, contents, order);
    forall a | 0 <= a < |plan|
      ensures Contiguous(FragmentBody(fragment), plan[a].span)
    {
      assert order[a] in order;
      InsideRootContiguous(fragment, slots[order[a]]);
    }
  }

  lemma PlanApart(fragment: seq<Event>, slots: map<string, Event>, contents: map<string, seq<Event>>, order: seq<string>)
    requires WellPlaced(fragment, slots, contents) && IsEnumeration(order, slots.Keys)
    ensures var plan := SlotPlan(fragment, slots, contents, order);
      forall a, b :: 0 <= a < |plan| && 0 <= b < |plan| && a != b ==>
        Ids(plan[a].span) !! Ids(plan[b].span) && Ids(plan[a].content) !! Ids(plan[b].span)
  {
    var plan := SlotPlan(fragment, slots, contents, order);
    forall a, b | 0 <= a < |plan| && 0 <= b < |plan| && a != b
      ensures Ids(plan[a].span) !! Ids(plan[b].span) && Ids(plan[a].content) !! Ids(plan[b].span)
    {
      assert order[a] in order && order[b] in order;
      assert order[a] != order[b] by {
        if a < b { } else { }
      }
      assert plan[a] == SlotStep(fragment, slots, contents, order[a]);
      assert plan[b] == SlotStep(fragment, slots, contents, order[b]);
      SlotStepsApart(fragment, slots, contents, order[a], order[b]);
    }
  }

  /** The fill steps of two different slots touch disjoint parts of the
      fragment, and the first one's content avoids the second one's subtree. */
  lemma SlotStepsApart(fragment: seq<Event>, slots: map<string, Event>, contents: map<string, seq<Event>>, a: string, b: string)
    requires WellPlaced(fragment, slots, contents)
    requires a in slots && b in slots && a != b
    ensures var x, y := SlotStep(fragment, slots, contents, a), SlotStep(fragment, slots, contents, b);
      Ids(x.span) !! Ids(y.span) && Ids(x.content) !! Ids(y.span)
  {
    var x, y := slots[a], slots[b];
    assert InsideRoot(fragment, x) && InsideRoot(fragment, y) && Apart(fragment, x, y);
    StepsApart(fragment, x, y, EffectiveContent(fragment, x, contents, a));
  }

  /** The fragment-level conditions give the placement conditions of the fill
      steps, in every iteration order of the slot map. */
  lemma WellPlacedPlacement(fragment: seq<Event>, slots: map<string, Event>, contents: map<string, seq<Event>>, order: seq<string>)
    requires WellPlaced(fragment, slots, contents) && IsEnumeration(order, slots.Keys)
    ensures Placement(FragmentBody(fragment), SlotPlan(fragment, slots, contents, order))
  {
    RootBody(fragment);
    PlanContiguous(fragment, slots, contents, order);
    PlanApart(fragment, slots, contents, order);
  }

  /** Under the fragment-level conditions fillSlots succeeds and computes the
      reference splice of the fragment body. */
  lemma FillSlotsSplices(fragment: seq<Event>, slots: map<string, Event>, contents: map<string, seq<Event>>, order: seq<string>)
    requires WellPlaced(fragment, slots, contents) && IsEnumeration(order, slots.Keys)
    ensures FillSlots(fragment, slots, contents, order) == Success(Spliced(FragmentBody(fragment), SlotPlan(fragment, slots, contents, order)))
  {
    WellPlacedPlacement(fragment, slots, contents, order);
    FillInOrderSplices(FragmentBody(fragment), SlotPlan(fragment, slots, contents, order));
  }

  /** Two iteration orders of the same slot map yield the same fill steps. */
  lemma SamePlanSteps(fragment: seq<Event>, slots: map<string, Event>, contents: map<string, seq<Event>>, o1: seq<string>, o2: seq<string>)
    requires IsEnumeration(o1, slots.Keys) && IsEnumeration(o2, slots.Keys)
    ensures var p, q := SlotPlan(fragment, slots, contents, o1), SlotPlan(fragment, slots, contents, o2);
      forall sp :: sp in p <==> sp in q
  {
    var p, q := SlotPlan(fragment, slots, contents, o1), SlotPlan(fragment, slots, contents, o2);
    forall sp | sp in p
      ensures sp in q
    {
      var a :| 0 <= a < |p| && p[a] == sp;
      assert o1[a] in o1;
      var b :| 0 <= b < |o2| && o2[b] == o1[a];
      assert q[b] == sp;
    }
    forall sp | sp in q
      ensures sp in p
    {
      var b :| 0 <= b < |q| && q[b] == sp;
      assert o2[b] in o2;
      var a :| 0 <= a < |o1| && o1[a] == o2[b];
      assert p[a] == sp;
    }
  }

  /** The iteration order of the slot map does not affect fillSlots when the
      fragment-level conditions hold. */
  lemma FillSlotsOrderIndependent(fragment: seq<Event>, slots: map<string, Event>, contents: map<string, seq<Event>>, o1: seq<string>, o2: seq<string>)
    requires WellPlaced(fragment, slots, contents)
    requires IsEnumeration(o1, slots.Keys) && IsEnumeration(o2, slots.Keys)
    ensures FillSlots(fragment, slots, contents, o1) == FillSlots(fragment, slots, contents, o2)
  {
    WellPlacedPlacement(fragment, slots, contents, o1);
    WellPlacedPlacement(fragment, slots, contents, o2);
    SamePlanSteps(fragment, slots, contents, o1, o2);
    FillInOrderOrderIndependent(FragmentBody(fragment), SlotPlan(fragment, slots, contents, o1), SlotPlan(fragment, slots, contents, o2));
  }

  /** Event count of the filled body: the body's events, less every
      placeholder subtree, plus every slot's content. */
  lemma FillSlotsLength(fragment: seq<Event>, slots: map<string, Event>, contents: map<string, seq<Event>>, order: seq<string>)
    requires WellPlaced(fragment, slots, contents) && IsEnumeration(order, slots.Keys)
    ensures var plan := SlotPlan(fragment, slots, contents, order);
      && FillSlots(fragment, slots, contents, order).Success?
      && |FillSlots(fragment, slots, contents, order).value| == |FragmentBody(fragment)| - SpanTotal(plan) + ContentTotal(plan)
  {
    WellPlacedPlacement(fragment, slots, contents, order);
    FillInOrderLength(FragmentBody(fragment), SlotPlan(fragment, slots, contents, order));
  }

  /** A balanced open-tag block whose every proper prefix stays open is
      well-formed markup. */
  lemma OpenBlockWellFormed(t: seq<Event>)
    requires 1 <= |t| && OpenThroughout(t) && Depth(t) == 0
    ensures WellFormed(t)
  {
    assert t[..|t|] == t;
  }

  /** A placeholder inside the root spans well-formed markup, and so does its
      fallback content. */
  lemma PlaceholderWellFormed(fragment: seq<Event>, e: Event)
    requires Rooted(fragment) && InsideRoot(fragment, e) && e.IsElementTag()
    ensures WellFormed(SubTreeFrom(fragment, e.id))
    ensures WellFormed(FallbackContent(fragment, e))
  {
    RootBody(fragment);
    var i :| 0 <= i < |fragment| && fragment[i] == e;
    IndexOfUnique(fragment, i);
    if e.OpenTag? {
      OpenPlaceholderWellFormed(fragment, i);
    } else {
      StandalonePlaceholderWellFormed(fragment, i);
    }
  }

  /** An open-tag placeholder whose subtree stops before the end of the
      fragment spans well-formed markup, and so does its fallback content. */
  lemma OpenPlaceholderWellFormed(fragment: seq<Event>, s: nat)
    requires UniqueIds(fragment) && s < |fragment| && fragment[s].OpenTag?
    requires s + |SubTreeFrom(fragment, fragment[s].id)| < |fragment|
    ensures WellFormed(SubTreeFrom(fragment, fragment[s].id))
    ensures WellFormed(SubTreeBelow(fragment, fragment[s].id))
  {
    var e := fragment[s];
    IndexOfUnique(fragment, s);
    SpanIsSlice(fragment, e.id);
    SpanShape(fragment, e.id);
    OpenBlockWellFormed(SubTreeFrom(fragment, e.id));
    SubTreeBelowOfOpen(fragment, s);
  }

  /** A standalone placeholder spans itself alone, which is well-formed. */
  lemma StandalonePlaceholderWellFormed(fragment: seq<Event>, s: nat)
    requires UniqueIds(fragment) && s < |fragment| && fragment[s].StandaloneTag?
    ensures WellFormed(SubTreeFrom(fragment, fragment[s].id))
  {
    var e := fragment[s];
    IndexOfUnique(fragment, s);
    SpanIsSlice(fragment, e.id);
    var t := SubTreeFrom(fragment, e.id);
    assert t == [e];
    assert Depth(t) == Delta(e) + Depth(t[1..]);
    assert t[..0] == [] && t[..1] == t;
  }

  /** Call-site contents that are well-formed markup. */
  ghost predicate BalancedContents(contents: map<string, seq<Event>>) {
    forall name :: name in contents ==> WellFormed(contents[name])
  }

  /** Every placeholder is an open or standalone tag, as extractSlots finds them. */
  ghost predicate ElementPlaceholders(slots: map<string, Event>) {
    forall name :: name in slots ==> slots[name].IsElementTag()
  }

  lemma PlanBalanced(fragment: seq<Event>, slots: map<string, Event>, contents: map<string, seq<Event>>, order: seq<string>)
    requires WellPlaced(fragment, slots, contents) && IsEnumeration(order, slots.Keys)
    requires ElementPlaceholders(slots) && BalancedContents(contents)
    ensures BalancedSteps(SlotPlan(fragment, slots, contents, order))
  {
    var plan := SlotPlan(fragment, slots, contents, order);
    forall a | 0 <= a < |plan|
      ensures WellFormed(plan[a].span) && WellFormed(plan[a].content)
    {
      assert order[a] in order;
      PlaceholderWellFormed(fragment, slots[order[a]]);
    }
  }

  /** Filling a well-placed fragment with well-formed contents yields
      well-formed markup. */
  lemma FillSlotsWellFormed(fragment: seq<Event>, slots: map<string, Event>, contents: map<string, seq<Event>>, order: seq<string>)
    requires WellPlaced(fragment, slots, contents) && IsEnumeration(order, slots.Keys)
    requires ElementPlaceholders(slots) && BalancedContents(contents)
    ensures FillSlots(fragment, slots, contents, order).Success?
    ensures WellFormed(FillSlots(fragment, slots, contents, order).value)
  {
    WellPlacedPlacement(fragment, slots, contents, order);
    FillSlotsSplices(fragment, slots, contents, order);
    RootBodyWellFormed(fragment);
    PlanBalanced(fragment, slots, contents, order);
    SplicedWellFormed(FragmentBody(fragment), SlotPlan(fragment, slots, contents, order));
  }

  /** The prepared model of a well-placed fragment is one balanced `th:block`
      element. */
  lemma PrepareModelWellFormed(fragment: seq<Event>, attributes: map<string, string>, slots: map<string, Event>,
                               contents: map<string, seq<Event>>, order: seq<string>, openId: EventId, closeId: EventId)
    requires WellPlaced(fragment, slots, contents) && IsEnumeration(order, slots.Keys)
    requires ElementPlaceholders(slots) && BalancedContents(contents)
    ensures PrepareModel(fragment, attributes, slots, contents, order, openId, closeId).Success?
    ensures WellFormed(PrepareModel(fragment, attributes, slots, contents, order, openId, closeId).value)
  {
    FillSlotsWellFormed(fragment, slots, contents, order);
    var filled := FillSlots(fragment, slots, contents, order).value;
    var r := PrepareModel(fragment, attributes, slots, contents, order, openId, closeId).value;
    assert r == [OpenTag(openId, BlockName, attributes)] + filled + [CloseTag(closeId, BlockName)];
    WrapWellFormed(filled, OpenTag(openId, BlockName, attributes), CloseTag(closeId, BlockName));
  }
}

=== FILE: controller.dfy ===
/** The pattern-library controller's start-up (PatternLibraryController.java):
    every resource below the components directory is filed under the group
    of its folder, the groups are linked to their parent folders' groups,
    and the root group is looked up.

    Resolving resources, their URIs and their existence is I/O: the listing
    is the parameter `resources`, the two existence checks are booleans, and
    the iteration order of the hash map of groups is the parameter `order`. */
module Controller {
  import opened Wrappers
  import opened Enumerations
  import opened JavaStrings
  import opened ComponentGroups
  import Grouping

  /** relativePathFor (PatternLibraryController.java:145-150): the resource's
      URI without as many leading characters as the root URI has. `substring`
      throws when the URI is shorter. */
  function RelativePathFor(rootUri: string, uri: string): (r: string)
    requires |rootUri| <= |uri|
    ensures |rootUri| + |r| == |uri|
    ensures rootUri <= uri ==> rootUri + r == uri
  {
    uri[|rootUri|..]
  }

  /** groupIdFor (PatternLibraryController.java:117-125): a folder path is its
      own group id; any other path belongs to the folder before its last "/". */
  function GroupIdFor(relativePath: string): (r: string)
    ensures r <= relativePath
    ensures r == [] || r[|r| - 1] == '/'
    ensures '/' !in relativePath[|r|..]
  {
    if EndsWith(relativePath, "/") then relativePath
    else relativePath[..LastIndexOf(relativePath, '/') + 1]
  }

  /** The three properties above pin the group id down: it is the longest
      prefix of the path that ends in "/", or empty when there is none. */
  lemma GroupIdForUnique(relativePath: string, id: string)
    requires id <= relativePath && (id == [] || id[|id| - 1] == '/') && '/' !in relativePath[|id|..]
    ensures GroupIdFor(relativePath) == id
  {
  }

  /** A file in a folder belongs to the folder's group. */
  lemma GroupIdOfFile(folder: string, filename: string)
    requires folder == [] || folder[|folder| - 1] == '/'
    requires '/' !in filename
    ensures GroupIdFor(folder + filename) == folder
  {
    var path := folder + filename;
    assert path[|folder|..] == filename;
    GroupIdForUnique(path, folder);
  }

  /** Group ids are stable: the group id of a group id is itself. */
  lemma GroupIdForIdempotent(relativePath: string)
    ensures GroupIdFor(GroupIdFor(relativePath)) == GroupIdFor(relativePath)
  {
    var id := GroupIdFor(relativePath);
    assert id[|id|..] == [];
    GroupIdForUnique(id, id);
  }

  /** parentGroupIdFor (PatternLibraryController.java:127-133): every piece
      of the id split on "/" but the last, joined by "/" and followed by "/".
      None where `limit(-1)` throws, that is where the split is empty. */
  function ParentGroupIdFor(id: string): (r: Option<string>)
    ensures r.None? <==> Split(id, {'/'}) == []
    ensures r.Some? ==> r.value != [] && r.value[|r.value| - 1] == '/'
  {
    var segments := Split(id, {'/'});
    if segments == [] then None
    else Some(Join(segments[..|segments| - 1], "/") + "/")
  }

  /** The parent of a folder's group is the group of the folder around it,
      and the folder's name is the group's local id. */
  lemma ParentOfFolder(parent: string, name: string)
    requires name != [] && '/' !in name
    ensures ParentGroupIdFor(parent + "/" + name + "/") == Some(parent + "/")
    ensures LocalId(parent + "/" + name + "/") == Some(name)
  {
    var segments := Split(parent + "/" + name + "/", {'/'});
    SplitLastBeforeSeparator(parent, '/', name, {'/'});
    assert segments[..|segments| - 1] == Pieces(parent, {'/'});
    JoinPieces(parent, '/');
    LocalIdOfFolder(parent, name);
  }

  /** Going to the parent either reaches the root id or shortens the id, so
      following parents ends at the root or at a group without a parent. */
  lemma ParentShorter(id: string)
    requires ParentGroupIdFor(id).Some?
    ensures ParentGroupIdFor(id).value == RootGroupId || |ParentGroupIdFor(id).value| < |id|
  {
    var segments := Split(id, {'/'});
    var n := |segments|;
    if n >= 2 {
      var front := segments[..n - 1];
      assert segments == front + [segments[n - 1]];
      JoinSnoc(front, segments[n - 1], "/");
      SplitJoin(id, '/');
      var m: nat :| id == Join(segments, "/") + Repeat('/', m);
      assert exists ch :: ch in id && ch in {'/'};
      assert segments[n - 1] != [];
    }
  }

  /** A non-root group id is never its own parent. */
  lemma ParentDiffers(id: string)
    requires id != RootGroupId && ParentGroupIdFor(id).Some?
    ensures ParentGroupIdFor(id).value != id
  {
    ParentShorter(id);
  }

  /** componentGroupFor (PatternLibraryController.java:67-71): the position of
      the first group with the id, none when no group has it. */
  function ComponentGroupFor(groups: seq<Group>, id: string): (r: Option<nat>)
    ensures r.Some? <==> exists k :: 0 <= k < |groups| && groups[k].id == id
    ensures r.Some? ==> r.value < |groups| && groups[r.value].id == id
    ensures r.Some? ==> forall j :: 0 <= j < r.value ==> groups[j].id != id
  {
    FirstWithId(groups, id, 0)
  }

  function FirstWithId(groups: seq<Group>, id: string, from: nat): (r: Option<nat>)
    requires from <= |groups|
    ensures r.Some? <==> exists k :: from <= k < |groups| && groups[k].id == id
    ensures r.Some? ==> from <= r.value < |groups| && groups[r.value].id == id
    ensures r.Some? ==> forall j :: from <= j < r.value ==> groups[j].id != id
    decreases |groups| - from
  {
    if from == |groups| then None
    else if groups[from].id == id then Some(from)
    else FirstWithId(groups, id, from + 1)
  }

  /** Every group can ask for its parent: the root needs none, and no other
      group's id splits into nothing. */
  predicate ParentsDefined(groups: seq<Group>) {
    forall k :: 0 <= k < |groups| ==> IsRoot(groups[k]) || ParentGroupIdFor(groups[k].id).Some?
  }

  /** findParent (PatternLibraryController.java:135-143): the root has no
      parent; any other group's parent is the first group with its parent id. */
  function FindParent(groups: seq<Group>, g: Group): (r: Option<nat>)
    requires IsRoot(g) || ParentGroupIdFor(g.id).Some?
    ensures IsRoot(g) ==> r.None?
    ensures r.Some? ==> r.value < |groups| && groups[r.value].id == ParentGroupIdFor(g.id).value
    ensures !IsRoot(g) && r.None? ==> forall k :: 0 <= k < |groups| ==> groups[k].id != ParentGroupIdFor(g.id).value
  {
    if IsRoot(g) then None
    else ComponentGroupFor(groups, ParentGroupIdFor(g.id).value)
  }

  /** No group is its own parent. */
  lemma NoSelfParent(groups: seq<Group>, i: nat)
    requires i < |groups| && ParentsDefined(groups)
    ensures FindParent(groups, groups[i]) != Some(i)
  {
    if !IsRoot(groups[i]) {
      ParentDiffers(groups[i].id);
    }
  }

  /** Group `i` is a group whose parent is group `p`. */
  predicate ChildOf(groups: seq<Group>, i: int, p: int)
    requires ParentsDefined(groups)
  {
    0 <= i < |groups| && FindParent(groups, groups[i]) == Some(p)
  }

  /** The positions listed are in increasing order (and so distinct). */
  predicate Increasing(s: seq<nat>) {
    forall a, b :: 0 <= a < b < |s| ==> s[a] < s[b]
  }

  /** `subGroups[p]` lists, in list order, exactly the groups whose parent is
      group `p`. */
  ghost predicate Hierarchy(groups: seq<Group>, subGroups: seq<seq<nat>>)
    requires ParentsDefined(groups)
  {
    && |subGroups| == |groups|
    && (forall p, i :: 0 <= p < |groups| ==>
          (i in subGroups[p] <==> ChildOf(groups, i, p)))
    && (forall p :: 0 <= p < |groups| ==> Increasing(subGroups[p]))
  }

  /** After the first `i` groups have been visited, `subGroups[p]` holds
      exactly the visited groups whose parent is `p`. */
  ghost predicate VisitedUpTo(groups: seq<Group>, subGroups: seq<seq<nat>>, i: nat)
    requires ParentsDefined(groups)
  {
    && i <= |groups| && |subGroups| == |groups|
    && forall p, j :: 0 <= p < |groups| ==>
         (j in subGroups[p] <==> j < i && ChildOf(groups, j, p))
  }

  /** Every list holds increasing positions below `i`. */
  ghost predicate OrderedBelow(subGroups: seq<seq<nat>>, i: nat) {
    forall p :: 0 <= p < |subGroups| ==> Increasing(subGroups[p]) && forall j :: j in subGroups[p] ==> j < i
  }

  /** The sub-group lists after visiting group `i`. */
  function Visit(groups: seq<Group>, subGroups: seq<seq<nat>>, i: nat): (r: seq<seq<nat>>)
    requires ParentsDefined(groups) && i < |groups| && |subGroups| == |groups|
    ensures |r| == |subGroups|
  {
    match FindParent(groups, groups[i])
    case None => subGroups
    case Some(p) => subGroups[p := subGroups[p] + [i]]
  }

  /** Visiting the next group adds it to its parent's list and nowhere else. */
  lemma VisitMembers(groups: seq<Group>, subGroups: seq<seq<nat>>, i: nat)
    requires ParentsDefined(groups) && i < |groups| && VisitedUpTo(groups, subGroups, i)
    ensures VisitedUpTo(groups, Visit(groups, subGroups, i), i + 1)
  {
    var next := Visit(groups, subGroups, i);
    var parent := FindParent(groups, groups[i]);
    forall q, j: nat | 0 <= q < |groups|
      ensures j in next[q] <==> j < i + 1 && ChildOf(groups, j, q)
    {
      if parent == Some(q) {
        assert next[q] == subGroups[q] + [i];
        assert j in next[q] <==> j in subGroups[q] || j == i;
      } else {
        assert next[q] == subGroups[q];
        if j == i {
          assert !ChildOf(groups, j, q);
        }
      }
    }
  }

  /** Visiting the next group appends the largest position so far. */
  lemma VisitOrdered(groups: seq<Group>, subGroups: seq<seq<nat>>, i: nat)
    requires ParentsDefined(groups) && i < |groups| && |subGroups| == |groups| && OrderedBelow(subGroups, i)
    ensures OrderedBelow(Visit(groups, subGroups, i), i + 1)
  {
    var next := Visit(groups, subGroups, i);
    forall q | 0 <= q < |next|
      ensures Increasing(next[q]) && forall j :: j in next[q] ==> j < i + 1
    {
      if FindParent(groups, groups[i]) == Some(q) {
        assert next[q] == subGroups[q] + [i];
        AppendLargest(subGroups[q], i);
      } else {
        assert next[q] == subGroups[q];
      }
    }
  }

  /** Appending a position larger than all listed keeps the list increasing. */
  lemma AppendLargest(s: seq<nat>, i: nat)
    requires Increasing(s) && forall j :: j in s ==> j < i
    ensures Increasing(s + [i]) && forall j :: j in s + [i] ==> j < i + 1
  {
    var t := s + [i];
    forall a, b | 0 <= a < b < |t|
      ensures t[a] < t[b]
    {
      assert t[a] == s[a];
      if b == |s| {
        assert s[a] in s;
      }
    }
  }

  /** buildComponentGroupHierarchy (PatternLibraryController.java:112-115,
      with addSubGroup, ComponentGroup.java:91-93): each group in list order
      is appended to the sub-groups of its parent, if it has one. */
  method BuildHierarchy(groups: seq<Group>) returns (subGroups: seq<seq<nat>>)
    requires ParentsDefined(groups)
    ensures Hierarchy(groups, subGroups)
  {
    subGroups := seq(|groups|, _ => []);
    var i := 0;
    while i < |groups|
      invariant i <= |groups| && VisitedUpTo(groups, subGroups, i) && OrderedBelow(subGroups, i)
    {
      VisitMembers(groups, subGroups, i);
      VisitOrdered(groups, subGroups, i);
      subGroups := Visit(groups, subGroups, i);
      i := i + 1;
    }
  }

  /** hasSubGroups (ComponentGroup.java:75-77): a group has sub-groups exactly
      when some group names it as parent. */
  lemma HasSubGroups(groups: seq<Group>, subGroups: seq<seq<nat>>, p: nat)
    requires ParentsDefined(groups) && Hierarchy(groups, subGroups) && p < |groups|
    ensures subGroups[p] != [] <==> exists i :: ChildOf(groups, i, p)
  {
    if subGroups[p] != [] {
      var i := subGroups[p][0];
      assert i in subGroups[p];
      assert ChildOf(groups, i, p);
    } else {
      forall i: int
        ensures !ChildOf(groups, i, p)
      {
        assert i !in subGroups[p];
      }
    }
  }

  /** Every resource can be filed: its URI is at least as long as the root's. */
  predicate UnderRoot(rootUri: string, resources: seq<Resource>) {
    forall x :: x in resources ==> |rootUri| <= |x.uri|
  }

  /** The group id of one resource. */
  function GroupIdOf(rootUri: string, x: Resource): string
    requires |rootUri| <= |x.uri|
  {
    GroupIdFor(RelativePathFor(rootUri, x.uri))
  }

  /** The group ids of a listing. */
  function GroupIds(rootUri: string, resources: seq<Resource>): set<string>
    requires UnderRoot(rootUri, resources)
  {
    set x | x in resources :: GroupIdOf(rootUri, x)
  }

  /** The listing with each resource keyed by its group id. */
  function Filed(rootUri: string, resources: seq<Resource>): (r: seq<(string, Resource)>)
    requires UnderRoot(rootUri, resources)
    ensures |r| == |resources|
    ensures forall k :: 0 <= k < |r| ==> r[k] == (GroupIdOf(rootUri, resources[k]), resources[k])
  {
    seq(|resources|, k requires 0 <= k < |resources| => (GroupIdOf(rootUri, resources[k]), resources[k]))
  }

  /** The resources of one group, in listing order (the reference filter). */
  function Members(rootUri: string, resources: seq<Resource>, id: string): seq<Resource>
    requires UnderRoot(rootUri, resources)
  {
    Grouping.Members(Filed(rootUri, resources), id)
  }

  /** A group's resources are exactly the listed resources with its group id. */
  lemma MembersIn(rootUri: string, resources: seq<Resource>, id: string)
    requires UnderRoot(rootUri, resources)
    ensures forall x :: x in Members(rootUri, resources, id) <==> x in resources && GroupIdOf(rootUri, x) == id
  {
    var filed := Filed(rootUri, resources);
    Grouping.MembersIn(filed, id);
    forall x ensures (id, x) in filed <==> x in resources && GroupIdOf(rootUri, x) == id {
      if x in resources && GroupIdOf(rootUri, x) == id {
        var k :| 0 <= k < |resources| && resources[k] == x;
        assert filed[k] == (id, x);
      }
    }
  }

  /** The reduction in buildComponentGroups (PatternLibraryController.java:97-102):
      each resource, in listing order, is appended to the list of its group,
      which is created when first needed. */
  function IndexResources(rootUri: string, resources: seq<Resource>): (r: map<string, seq<Resource>>)
    requires UnderRoot(rootUri, resources)
  {
    Grouping.Index(Filed(rootUri, resources))
  }

  /** The index holds one entry per group id of the listing, and each entry
      is that group's resources in listing order. */
  lemma IndexResourcesGroups(rootUri: string, resources: seq<Resource>)
    requires UnderRoot(rootUri, resources)
    ensures IndexResources(rootUri, resources).Keys == GroupIds(rootUri, resources)
    ensures forall id :: id in IndexResources(rootUri, resources) ==>
      IndexResources(rootUri, resources)[id] == Members(rootUri, resources, id)
  {
    var filed := Filed(rootUri, resources);
    Grouping.IndexGroups(filed);
    forall id ensures id in Grouping.Keys(filed) <==> id in GroupIds(rootUri, resources) {
      if id in GroupIds(rootUri, resources) {
        var x :| x in resources && GroupIdOf(rootUri, x) == id;
        var k :| 0 <= k < |resources| && resources[k] == x;
        assert filed[k] in filed;
      }
    }
  }

  /** buildComponentGroups (PatternLibraryController.java:96-110): one group
      per group id, in the iteration order of the index, holding its
      resources in listing order. */
  function BuildComponentGroups(rootUri: string, resources: seq<Resource>, order: seq<string>): (r: seq<Group>)
    requires UnderRoot(rootUri, resources) && IsEnumeration(order, IndexResources(rootUri, resources).Keys)
    ensures |r| == |order|
    ensures forall k :: 0 <= k < |r| ==> r[k].id == order[k] && r[k].resources == Members(rootUri, resources, order[k])
  {
    IndexResourcesGroups(rootUri, resources);
    var index := IndexResources(rootUri, resources);
    seq(|order|, k requires 0 <= k < |order| => Group(order[k], index[order[k]]))
  }

  /** The groups partition the listing: group ids are distinct, every group
      is non-empty, every resource's group is present, and a resource is in a
      group exactly when the group carries its group id. */
  lemma GroupsPartition(rootUri: string, resources: seq<Resource>, order: seq<string>)
    requires UnderRoot(rootUri, resources) && IsEnumeration(order, IndexResources(rootUri, resources).Keys)
    ensures var groups := BuildComponentGroups(rootUri, resources, order);
      && (forall i, j :: 0 <= i < j < |groups| ==> groups[i].id != groups[j].id)
      && (forall k :: 0 <= k < |groups| ==> groups[k].resources != [])
      && (forall x :: x in resources ==> exists k :: 0 <= k < |groups| && groups[k].id == GroupIdOf(rootUri, x))
      && (forall k, x :: 0 <= k < |groups| ==>
            (x in groups[k].resources <==> x in resources && GroupIdOf(rootUri, x) == groups[k].id))
  {
    IndexResourcesGroups(rootUri, resources);
    var groups := BuildComponentGroups(rootUri, resources, order);
    forall k | 0 <= k < |groups|
      ensures forall x :: x in groups[k].resources <==> x in resources && GroupIdOf(rootUri, x) == groups[k].id
    {
      MembersIn(rootUri, resources, order[k]);
    }
    forall k | 0 <= k < |groups|
      ensures groups[k].resources != []
    {
      assert order[k] in order;
      var x :| x in resources && GroupIdOf(rootUri, x) == order[k];
      assert x in groups[k].resources;
    }
    forall x | x in resources
      ensures exists k :: 0 <= k < |groups| && groups[k].id == GroupIdOf(rootUri, x)
    {
      assert GroupIdOf(rootUri, x) in GroupIds(rootUri, resources);
      var k :| 0 <= k < |order| && order[k] == GroupIdOf(rootUri, x);
      assert groups[k].id == GroupIdOf(rootUri, x);
    }
  }

  /** What the start-up needs of the listing: every resource lies under the
      root, `order` is an iteration order of the index, and every group id is
      the root's or has a parent id. */
  predicate Listed(rootUri: string, resources: seq<Resource>, order: seq<string>) {
    && UnderRoot(rootUri, resources)
    && IsEnumeration(order, IndexResources(rootUri, resources).Keys)
    && forall x :: x in resources ==>
         GroupIdOf(rootUri, x) == RootGroupId || ParentGroupIdFor(GroupIdOf(rootUri, x)).Some?
  }

  /** Groups built from a listed resource set can all ask for their parent. */
  lemma ListedParentsDefined(rootUri: string, resources: seq<Resource>, order: seq<string>)
    requires Listed(rootUri, resources, order)
    ensures ParentsDefined(BuildComponentGroups(rootUri, resources, order))
  {
    var groups := BuildComponentGroups(rootUri, resources, order);
    forall k | 0 <= k < |groups|
      ensures IsRoot(groups[k]) || ParentGroupIdFor(groups[k].id).Some?
    {
      IndexResourcesGroups(rootUri, resources);
      assert order[k] in order;
      var x :| x in resources && GroupIdOf(rootUri, x) == order[k];
    }
  }

  /** The state of a started pattern library: its groups, the sub-groups of
      each group, and the position of the root group. */
  datatype Library = Library(groups: seq<Group>, subGroups: seq<seq<nat>>, root: nat)

  /** Why the start-up stops (the constructor's IllegalStateExceptions). */
  datatype StartupError = MissingComponentsRoot | MissingIndex | MissingRootGroup

  /** The PatternLibraryController constructor (PatternLibraryController.java:31-53,
      with collectComponentGroups, 89-94): the components directory and its
      "index.md" must exist, the listing is grouped and linked, and the root
      group must be among the groups. */
  method Initialize(rootExists: bool, indexExists: bool, rootUri: string, resources: seq<Resource>, order: seq<string>)
    returns (r: Result<Library, StartupError>)
    requires rootExists && indexExists ==> Listed(rootUri, resources, order)
    ensures !rootExists ==> r == Failure(MissingComponentsRoot)
    ensures rootExists && !indexExists ==> r == Failure(MissingIndex)
    ensures rootExists && indexExists ==> (r.Success? <==> RootGroupId in GroupIds(rootUri, resources))
    ensures rootExists && indexExists && r.Failure? ==> r.error == MissingRootGroup
    ensures r.Success? ==>
      && r.value.groups == BuildComponentGroups(rootUri, resources, order)
      && ParentsDefined(r.value.groups)
      && Hierarchy(r.value.groups, r.value.subGroups)
      && r.value.root < |r.value.groups| && IsRoot(r.value.groups[r.value.root])
  {
    if !rootExists {
      return Failure(MissingComponentsRoot);
    }
    if !indexExists {
      return Failure(MissingIndex);
    }
    var groups := BuildComponentGroups(rootUri, resources, order);
    ListedParentsDefined(rootUri, resources, order);
    var subGroups := BuildHierarchy(groups);
    IndexResourcesGroups(rootUri, resources);
    var root := ComponentGroupFor(groups, RootGroupId);
    if root.None? {
      assert RootGroupId !in order;
      return Failure(MissingRootGroup);
    }
    assert RootGroupId in order;
    r := Success(Library(groups, subGroups, root.value));
  }

  /** A listing that holds the index file directly under the root has a root
      group, so a start-up that finds "index.md" never misses the root group. */
  lemma IndexMakesRootGroup(rootUri: string, resources: seq<Resource>, index: Resource)
    requires UnderRoot(rootUri, resources) && index in resources && index.uri == rootUri + "/index.md"
    ensures RootGroupId in GroupIds(rootUri, resources)
  {
    assert RelativePathFor(rootUri, index.uri) == "/" + "index.md";
    GroupIdOfFile("/", "index.md");
  }

  /** The index page (PatternLibraryController.java:55-60): the requested
      group, the root group when none is requested, and none (the error page)
      when no group has the id. */
  function GroupPage(lib: Library, requested: Option<string>): (r: Option<nat>)
    ensures r.Some? ==> r.value < |lib.groups| && lib.groups[r.value].id == requested.GetOr(RootGroupId)
    ensures r.None? <==> forall k :: 0 <= k < |lib.groups| ==> lib.groups[k].id != requested.GetOr(RootGroupId)
  {
    ComponentGroupFor(lib.groups, requested.GetOr(RootGroupId))
  }
}

=== FILE: enumerations.dfy ===
/** Iteration orders of Java hash maps. The order in which a `HashMap` hands
    out its entries is unspecified, so wherever the original iterates over
    one the model takes the order as a parameter: any duplicate-free listing
    of the key set. */
module Enumerations {

  /** `order` lists every key exactly once: one possible iteration order of a
      hash map with key set `keys`. */
  predicate IsEnumeration(order: seq<string>, keys: set<string>) {
    && (forall n :: n in order ==> n in keys)
    && (forall n :: n in keys ==> n in order)
    && (forall i, j :: 0 <= i < j < |order| ==> order[i] != order[j])
  }

  /** An enumeration lists as many names as there are keys. */
  lemma {:induction false} EnumerationSize(order: seq<string>, keys: set<string>)
    requires IsEnumeration(order, keys)
    ensures |order| == |keys|
    decreases |order|
  {
    if |order| > 0 {
      var n := |order| - 1;
      var rest := order[..n];
      assert forall x :: x in rest ==> x in order;
      forall x | x in keys - {order[n]}
        ensures x in rest
      {
        var i :| 0 <= i < |order| && order[i] == x;
        assert i != n;
      }
      EnumerationSize(rest, keys - {order[n]});
    }
  }
}

=== FILE: events.dfy ===
/** The flat template-event list a Thymeleaf model is made of.

    Every event carries an `id`. Thymeleaf compares events by reference
    (`==`, `indexOf`, `removeAll`), so two structurally equal events, two
    `<i>text</i>` siblings say, are still different events; the `id` is that
    reference and every lookup below goes through it. */
module Events {

  type EventId = nat

  /** Tag names are complete names ("pl:slot", "th:block"); tag attributes are
      keyed by their complete name ("pl:slot", "th:fragment", "class").
      `Text` stands for every event that is not a tag: text, comments, CDATA,
      doctypes, XML declarations and processing instructions, which the
      processor never tells apart. */
  datatype Event =
    | TemplateStart(id: EventId)
    | TemplateEnd(id: EventId)
    | OpenTag(id: EventId, name: string, attributes: map<string, string>)
    | CloseTag(id: EventId, name: string)
    | StandaloneTag(id: EventId, name: string, attributes: map<string, string>)
    | Text(id: EventId, content: string)
  {
    /** An open or a standalone tag (Thymeleaf's processable element tag). */
    predicate IsElementTag() {
      OpenTag? || StandaloneTag?
    }
  }

  /** Contribution of one event to the number of unclosed open tags. */
  function Delta(e: Event): int {
    if e.OpenTag? then 1 else if e.CloseTag? then -1 else 0
  }

  /** Open tags minus close tags in `s`. */
  function Depth(s: seq<Event>): int {
    if |s| == 0 then 0 else Delta(s[0]) + Depth(s[1..])
  }

  /** Every prefix has at least as many open as close tags and the whole
      sequence has equally many: the events form a forest of complete elements. */
  ghost predicate WellFormed(s: seq<Event>) {
    && Depth(s) == 0
    && forall k :: 0 <= k <= |s| ==> Depth(s[..k]) >= 0
  }

  /** The identities occurring in `s`. */
  function Ids(s: seq<Event>): set<EventId> {
    set e | e in s :: e.id
  }

  /** No identity occurs twice: what a parsed Thymeleaf model guarantees. */
  predicate UniqueIds(s: seq<Event>) {
    forall i, j :: 0 <= i < j < |s| ==> s[i].id != s[j].id
  }

  /** `List.indexOf` by identity: the first position holding `id`, or -1. */
  function IndexOf(s: seq<Event>, id: EventId): (r: int)
    ensures r == -1 <==> id !in Ids(s)
    ensures r != -1 ==> 0 <= r < |s| && s[r].id == id
    ensures r != -1 ==> forall k :: 0 <= k < r ==> s[k].id != id
  {
    if |s| == 0 then -1
    else if s[0].id == id then 0
    else
      var r := IndexOf(s[1..], id);
      assert forall e :: e in s <==> e == s[0] || e in s[1..];
      if r == -1 then -1 else r + 1
  }

  /** `List.removeAll` by identity: drop every event whose id is in `ids`,
      keeping the others in their order. */
  function RemoveIds(s: seq<Event>, ids: set<EventId>): (r: seq<Event>)
    ensures forall e :: e in r <==> e in s && e.id !in ids
    ensures |r| <= |s|
  {
    if |s| == 0 then []
    else
      assert forall e :: e in s <==> e == s[0] || e in s[1..];
      (if s[0].id in ids then [] else [s[0]]) + RemoveIds(s[1..], ids)
  }

  lemma {:induction false} DepthConcat(a: seq<Event>, b: seq<Event>)
    ensures Depth(a + b) == Depth(a) + Depth(b)
    decreases |a|
  {
    if |a| == 0 {
      assert a + b == b;
    } else {
      assert (a + b)[1..] == a[1..] + b;
      DepthConcat(a[1..], b);
    }
  }

  lemma IdsConcat(a: seq<Event>, b: seq<Event>)
    ensures Ids(a + b) == Ids(a) + Ids(b)
  {
    assert forall e :: e in a + b <==> e in a || e in b;
  }

  /** Removal works element by element, so it keeps relative order: removing
      from a concatenation is concatenating the removals. */
  lemma {:induction false} RemoveIdsConcat(a: seq<Event>, b: seq<Event>, ids: set<EventId>)
    ensures RemoveIds(a + b, ids) == RemoveIds(a, ids) + RemoveIds(b, ids)
    decreases |a|
  {
    if |a| == 0 {
      assert a + b == b;
    } else {
      assert (a + b)[1..] == a[1..] + b;
      RemoveIdsConcat(a[1..], b, ids);
    }
  }

  /** Removing identities that do not occur changes nothing. */
  lemma {:induction false} RemoveIdsAbsent(s: seq<Event>, ids: set<EventId>)
    requires Ids(s) !! ids
    ensures RemoveIds(s, ids) == s
    decreases |s|
  {
    if |s| > 0 {
      assert s[0] in s;
      assert Ids(s[1..]) <= Ids(s) by {
        assert forall e :: e in s[1..] ==> e in s;
      }
      RemoveIdsAbsent(s[1..], ids);
      assert s == [s[0]] + s[1..];
    }
  }
}

=== FILE: grouping.dfy ===
/** Grouping a list of keyed items: the reduction that files each item, in
    list order, under its key in a map of lists, and the reference filter it
    agrees with. The controller keys resources by their group id. */
module Grouping {

  /** The items filed under `key`, in list order (the reference filter). */
  function Members<K(==), T>(entries: seq<(K, T)>, key: K): seq<T>
  {
    if entries == [] then []
    else
      (if entries[0].0 == key then [entries[0].1] else []) + Members(entries[1..], key)
  }

  /** The keys that occur in the list. */
  function Keys<K(==), T(==)>(entries: seq<(K, T)>): set<K>
  {
    set e | e in entries :: e.0
  }

  /** An item is filed under a key exactly when it occurs with that key. */
  lemma {:induction false} MembersIn<K, T>(entries: seq<(K, T)>, key: K)
    ensures forall v :: v in Members(entries, key) <==> (key, v) in entries
  {
    if entries != [] {
      MembersIn(entries[1..], key);
      assert forall e :: e in entries <==> e == entries[0] || e in entries[1..];
    }
  }

  /** A key that does not occur gets no items. */
  lemma {:induction false} MembersNone<K, T>(entries: seq<(K, T)>, key: K)
    requires key !in Keys(entries)
    ensures Members(entries, key) == []
  {
    if entries != [] {
      assert entries[0] in entries;
      assert Keys(entries[1..]) <= Keys(entries);
      MembersNone(entries[1..], key);
    }
  }

  /** Filing one more item extends only the list of its own key. */
  lemma {:induction false} MembersSnoc<K, T>(entries: seq<(K, T)>, e: (K, T), key: K)
    ensures Members(entries + [e], key) == Members(entries, key) + (if e.0 == key then [e.1] else [])
  {
    if entries != [] {
      assert (entries + [e])[0] == entries[0];
      assert (entries + [e])[1..] == entries[1..] + [e];
      MembersSnoc(entries[1..], e, key);
    }
  }

  /** The reduction: each item, in list order, is appended to the list of
      its key, which is created when first needed. */
  function Index<K(==), T>(entries: seq<(K, T)>): map<K, seq<T>>
  {
    if entries == [] then map[]
    else
      var n := |entries| - 1;
      var index := Index(entries[..n]);
      var key := entries[n].0;
      index[key := (if key in index then index[key] else []) + [entries[n].1]]
  }

  /** The reduction holds one entry per key of the list, and each entry is
      the reference filter for that key. */
  lemma {:induction false} IndexGroups<K, T>(entries: seq<(K, T)>)
    ensures Index(entries).Keys == Keys(entries)
    ensures forall key :: key in Index(entries) ==> Index(entries)[key] == Members(entries, key)
  {
    if entries != [] {
      var n := |entries| - 1;
      var front, e := entries[..n], entries[n];
      assert entries == front + [e];
      IndexGroups(front);
      var index := Index(front);
      assert Keys(entries) == Keys(front) + {e.0};
      forall key | key in Index(entries)
        ensures Index(entries)[key] == Members(entries, key)
      {
        MembersSnoc(front, e, key);
        if key !in index {
          MembersNone(front, key);
        }
      }
    }
  }
}

=== FILE: javastrings.dfy ===
/** The few `java.lang.String`, `Collectors.joining` and `BufferedReader`
    behaviours the pattern-library browser relies on, with Java's edge cases:
    `split` drops trailing empty pieces and returns the whole string when no
    separator occurs, `lastIndexOf` answers -1 for a missing character, and
    `readLine` ends a line at "\n", "\r" or "\r\n". */
module JavaStrings {

  /** `s.endsWith(suffix)`. */
  predicate EndsWith(s: string, suffix: string) {
    |suffix| <= |s| && s[|s| - |suffix|..] == suffix
  }

  /** `s.lastIndexOf(c)`: the last position holding `c`, or -1. */
  function LastIndexOf(s: string, c: char): (r: int)
    ensures r == -1 <==> c !in s
    ensures r != -1 ==> 0 <= r < |s| && s[r] == c && c !in s[r + 1..]
  {
    if s == [] then -1
    else if s[|s| - 1] == c then |s| - 1
    else
      assert s == s[..|s| - 1] + [s[|s| - 1]];
      LastIndexOf(s[..|s| - 1], c)
  }

  /** `s` holds none of the separator characters. */
  predicate Plain(s: string, separators: set<char>) {
    forall ch :: ch in s ==> ch !in separators
  }

  /** The pieces of `s` between separator characters, keeping every empty
      piece: one more piece than there are separators. */
  function Pieces(s: string, separators: set<char>): (r: seq<string>)
    ensures |r| >= 1
    ensures forall k :: 0 <= k < |r| ==> Plain(r[k], separators)
  {
    if s == [] then [[]]
    else ConsPiece(s[0], Pieces(s[1..], separators), separators)
  }

  /** The pieces of a character followed by text with the given pieces: a
      separator starts a new empty piece, any other character joins the first
      piece. */
  function ConsPiece(ch: char, pieces: seq<string>, separators: set<char>): (r: seq<string>)
    requires |pieces| >= 1 && forall k :: 0 <= k < |pieces| ==> Plain(pieces[k], separators)
    ensures |r| >= 1 && forall k :: 0 <= k < |r| ==> Plain(r[k], separators)
  {
    if ch in separators then
      var r := [[]] + pieces;
      assert forall k :: 1 <= k < |r| ==> r[k] == pieces[k - 1];
      r
    else
      var first := [ch] + pieces[0];
      assert Plain(pieces[0], separators);
      assert forall x :: x in first ==> x == ch || x in pieces[0];
      var r := [first] + pieces[1..];
      assert forall k :: 1 <= k < |r| ==> r[k] == pieces[k];
      r
  }

  /** Pieces that follow the first one are untouched by a character put in front. */
  lemma ConsPieceAppend(ch: char, p: seq<string>, q: seq<string>, separators: set<char>)
    requires |p| >= 1 && forall k :: 0 <= k < |p| ==> Plain(p[k], separators)
    requires forall k :: 0 <= k < |q| ==> Plain(q[k], separators)
    ensures forall k :: 0 <= k < |p + q| ==> Plain((p + q)[k], separators)
    ensures ConsPiece(ch, p + q, separators) == ConsPiece(ch, p, separators) + q
  {
    assert forall k :: 0 <= k < |p + q| ==> (p + q)[k] == if k < |p| then p[k] else q[k - |p|];
    if ch !in separators {
      assert (p + q)[0] == p[0];
      assert (p + q)[1..] == p[1..] + q;
    }
  }

  /** The pieces without the empty ones at the end. */
  function DropTrailingEmpty(pieces: seq<string>): (r: seq<string>)
    ensures r <= pieces
    ensures r == [] || r[|r| - 1] != []
    ensures forall k :: |r| <= k < |pieces| ==> pieces[k] == []
  {
    if pieces == [] || pieces[|pieces| - 1] != [] then pieces
    else DropTrailingEmpty(pieces[..|pieces| - 1])
  }

  /** `s.split(regex)` for a regex matching exactly one character of
      `separators` ("/", "-", "[ -]"). */
  function Split(s: string, separators: set<char>): (r: seq<string>)
    ensures forall k :: 0 <= k < |r| ==> Plain(r[k], separators)
    ensures Plain(s, separators) ==> r == [s]
    ensures !Plain(s, separators) ==> r == [] || r[|r| - 1] != []
  {
    if Plain(s, separators) then [s]
    else DropTrailingEmpty(Pieces(s, separators))
  }

  /** `String.join(separator, pieces)`, `Collectors.joining(separator)`. */
  function Join(pieces: seq<string>, separator: string): (r: string)
    ensures pieces == [] ==> r == []
    ensures |pieces| == 1 ==> r == pieces[0]
  {
    if pieces == [] then []
    else if |pieces| == 1 then pieces[0]
    else pieces[0] + separator + Join(pieces[1..], separator)
  }

  /** Joining a sequence of pieces extended by one more piece. */
  lemma {:induction false} JoinSnoc(pieces: seq<string>, last: string, separator: string)
    requires pieces != []
    ensures Join(pieces + [last], separator) == Join(pieces, separator) + separator + last
  {
    if |pieces| > 1 {
      assert (pieces + [last])[1..] == pieces[1..] + [last];
      JoinSnoc(pieces[1..], last, separator);
    }
  }

  /** `c` repeated `n` times. */
  function Repeat(c: char, n: nat): (r: string)
    ensures |r| == n && forall k :: 0 <= k < n ==> r[k] == c
  {
    if n == 0 then [] else [c] + Repeat(c, n - 1)
  }

  /** `n` empty pieces. */
  function Empties(n: nat): (r: seq<string>)
    ensures |r| == n && forall k :: 0 <= k < n ==> r[k] == []
  {
    seq(n, _ => [])
  }

  /** Joining the pieces with the separator gives back the string. */
  lemma {:induction false} JoinPieces(s: string, c: char)
    ensures Join(Pieces(s, {c}), [c]) == s
  {
    if s != [] {
      var rest := Pieces(s[1..], {c});
      JoinPieces(s[1..], c);
      if s[0] == c {
        assert Pieces(s, {c}) == [[]] + rest;
        assert ([[]] + rest)[1..] == rest;
        assert s == [c] + s[1..];
      } else {
        assert Pieces(s, {c}) == [[s[0]] + rest[0]] + rest[1..];
        if |rest| == 1 {
          assert s == [s[0]] + s[1..];
        } else {
          assert ([[s[0]] + rest[0]] + rest[1..])[1..] == rest[1..];
          assert s == [s[0]] + s[1..];
        }
      }
    }
  }

  /** Joining pieces followed by empty pieces adds one separator per empty piece. */
  lemma {:induction false} JoinTrailingEmpty(pieces: seq<string>, n: nat, c: char)
    requires |pieces| >= 1
    ensures Join(pieces + Empties(n), [c]) == Join(pieces, [c]) + Repeat(c, n)
    decreases |pieces|
  {
    var tail := Empties(n);
    if |pieces| == 1 {
      if n > 0 {
        assert (pieces + tail)[1..] == tail;
        JoinEmpties(n, c);
        assert Repeat(c, n) == [c] + Repeat(c, n - 1);
      } else {
        assert pieces + tail == pieces;
      }
    } else {
      assert (pieces + tail)[1..] == pieces[1..] + tail;
      JoinTrailingEmpty(pieces[1..], n, c);
    }
  }

  /** `n` empty pieces join to `n - 1` separators. */
  lemma {:induction false} JoinEmpties(n: nat, c: char)
    requires n >= 1
    ensures Join(Empties(n), [c]) == Repeat(c, n - 1)
  {
    var e := Empties(n);
    if n > 1 {
      assert e[1..] == Empties(n - 1);
      JoinEmpties(n - 1, c);
    }
  }

  /** The dropped pieces are a run of empty pieces. */
  lemma DropTrailingEmptySplit(pieces: seq<string>)
    ensures pieces == DropTrailingEmpty(pieces) + Empties(|pieces| - |DropTrailingEmpty(pieces)|)
  {
    var r := DropTrailingEmpty(pieces);
    assert pieces == r + pieces[|r|..];
  }

  /** split drops only separators: the string is the joined pieces followed by
      some separators. */
  lemma SplitJoin(s: string, c: char)
    ensures exists n: nat :: s == Join(Split(s, {c}), [c]) + Repeat(c, n)
  {
    var n := SplitJoinCount(s, c);
  }

  /** SplitJoin with the number of dropped separators made explicit. */
  lemma SplitJoinCount(s: string, c: char) returns (n: nat)
    ensures s == Join(Split(s, {c}), [c]) + Repeat(c, n)
  {
    if Plain(s, {c}) {
      assert Split(s, {c}) == [s];
      n := 0;
    } else {
      assert Split(s, {c}) == DropTrailingEmpty(Pieces(s, {c}));
      n := JoinKeptPieces(s, c);
    }
  }

  /** The pieces kept by split, joined, followed by the dropped separators. */
  lemma JoinKeptPieces(s: string, c: char) returns (n: nat)
    ensures s == Join(DropTrailingEmpty(Pieces(s, {c})), [c]) + Repeat(c, n)
  {
    var pieces := Pieces(s, {c});
    var kept := DropTrailingEmpty(pieces);
    DropTrailingEmptySplit(pieces);
    JoinPieces(s, c);
    if kept == [] {
      n := |pieces| - 1;
      JoinAllEmpty(pieces, c);
    } else {
      n := |pieces| - |kept|;
      JoinTrailingEmpty(kept, n, c);
    }
  }

  /** Pieces that are all empty join to one separator fewer than there are. */
  lemma JoinAllEmpty(pieces: seq<string>, c: char)
    requires |pieces| >= 1 && pieces == [] + Empties(|pieces|)
    ensures Join(pieces, [c]) == [] + Repeat(c, |pieces| - 1)
  {
    assert pieces == Empties(|pieces|);
    JoinEmpties(|pieces|, c);
  }

  /** Text without separators is a single piece. */
  lemma {:induction false} PiecesPlain(s: string, separators: set<char>)
    requires Plain(s, separators)
    ensures Pieces(s, separators) == [s]
  {
    if s != [] {
      assert forall ch :: ch in s[1..] ==> ch in s;
      PiecesPlain(s[1..], separators);
      assert [s[0]] + s[1..] == s;
    }
  }

  /** A separator closes the pieces before it: the pieces of `a`, a separator
      and `b` are those of `a` followed by those of `b`. */
  lemma {:induction false} PiecesAppend(a: string, c: char, b: string, separators: set<char>)
    requires c in separators
    ensures Pieces(a + [c] + b, separators) == Pieces(a, separators) + Pieces(b, separators)
  {
    var s := a + [c] + b;
    if a == [] {
      assert s == [c] + b && s[1..] == b;
    } else {
      assert s[0] == a[0] && s[1..] == a[1..] + [c] + b;
      PiecesAppend(a[1..], c, b, separators);
      ConsPieceAppend(a[0], Pieces(a[1..], separators), Pieces(b, separators), separators);
    }
  }

  /** split of text whose last separator is followed by a non-empty
      separator-free tail: the pieces before it, then the tail. */
  lemma SplitLast(a: string, c: char, b: string, separators: set<char>)
    requires c in separators && b != [] && Plain(b, separators)
    ensures Split(a + [c] + b, separators) == Pieces(a, separators) + [b]
  {
    PiecesAppend(a, c, b, separators);
    PiecesPlain(b, separators);
    assert c in a + [c] + b;
  }

  lemma PiecesBeforeSeparator(a: string, c: char, b: string, separators: set<char>)
    requires c in separators && Plain(b, separators)
    ensures Pieces(a + [c] + b + [c], separators) == Pieces(a, separators) + [b] + [[]]
  {
    assert a + [c] + b + [c] == a + [c] + (b + [c] + []);
    PiecesAppend(a, c, b + [c] + [], separators);
    PiecesAppend(b, c, [], separators);
    PiecesPlain(b, separators);
  }

  /** split of text ending in a separator that follows a non-empty
      separator-free segment: the trailing empty piece is dropped. */
  lemma SplitLastBeforeSeparator(a: string, c: char, b: string, separators: set<char>)
    requires c in separators && b != [] && Plain(b, separators)
    ensures Split(a + [c] + b + [c], separators) == Pieces(a, separators) + [b]
  {
    var s := a + [c] + b + [c];
    PiecesBeforeSeparator(a, c, b, separators);
    assert s[|s| - 1] == c;
    var pieces := Pieces(a, separators) + [b] + [[]];
    assert pieces[..|pieces| - 1] == Pieces(a, separators) + [b];
    assert DropTrailingEmpty(pieces) == DropTrailingEmpty(Pieces(a, separators) + [b]);
  }

  /** A line terminator character. */
  predicate IsLineBreak(c: char) {
    c == '\n' || c == '\r'
  }

  /** `s` holds no line terminator. */
  predicate SingleLine(s: string) {
    forall j :: 0 <= j < |s| ==> !IsLineBreak(s[j])
  }

  /** Where the first line of `s` ends: the first line terminator, or |s|. */
  function LineEnd(s: string): (r: nat)
    ensures r <= |s| && (r < |s| ==> IsLineBreak(s[r]))
    ensures forall k :: 0 <= k < r ==> !IsLineBreak(s[k])
  {
    if s == [] || IsLineBreak(s[0]) then 0 else 1 + LineEnd(s[1..])
  }

  /** Where the next line starts after a line ending at `e`: past "\r\n",
      or past the single terminator. */
  function NextLineStart(s: string, e: nat): (r: nat)
    requires e < |s| && IsLineBreak(s[e])
    ensures e < r <= |s|
  {
    if s[e] == '\r' && e + 1 < |s| && s[e + 1] == '\n' then e + 2 else e + 1
  }

  /** readAllLines (ComponentGroup.java:203-216), `BufferedReader.readLine`
      until it returns null: lines end at "\n", "\r" or "\r\n", a final line
      needs no terminator, and the empty string has no lines. */
  function ReadAllLines(s: string): (r: seq<string>)
    ensures s == [] <==> r == []
    decreases |s|
  {
    if s == [] then []
    else
      var e := LineEnd(s);
      if e == |s| then [s]
      else
        [s[..e]] + ReadAllLines(s[NextLineStart(s, e)..])
  }

  /** No line holds a line terminator. */
  lemma {:induction false} ReadAllLinesSingle(s: string)
    ensures forall k :: 0 <= k < |ReadAllLines(s)| ==> SingleLine(ReadAllLines(s)[k])
    decreases |s|
  {
    if s != [] {
      var e := LineEnd(s);
      if e < |s| {
        var rest := s[NextLineStart(s, e)..];
        ReadAllLinesSingle(rest);
        var lines := ReadAllLines(s);
        assert lines == [s[..e]] + ReadAllLines(rest);
        forall k | 0 <= k < |lines|
          ensures SingleLine(lines[k])
        {
          if k > 0 {
            assert lines[k] == ReadAllLines(rest)[k - 1];
          }
        }
      }
    }
  }

  /** A first line ended by "\n" is followed by the lines of the rest. */
  lemma ReadAllLinesStep(s: string, e: nat)
    requires e == LineEnd(s) && e < |s| && s[e] == '\n'
    ensures ReadAllLines(s) == [s[..e]] + ReadAllLines(s[e + 1..])
  {
    assert NextLineStart(s, e) == e + 1;
  }

  /** Text without carriage returns that does not end in "\n" is its lines
      joined by "\n". */
  lemma {:induction false} JoinReadAllLines(s: string)
    requires '\r' !in s && (s == [] || s[|s| - 1] != '\n')
    ensures Join(ReadAllLines(s), "\n") == s
    decreases |s|
  {
    if s != [] {
      var e := LineEnd(s);
      if e < |s| {
        var line, rest := s[..e], s[e + 1..];
        assert s[e] == '\n';
        assert s == line + "\n" + rest;
        assert rest != [];
        assert '\r' !in rest;
        assert rest[|rest| - 1] == s[|s| - 1];
        JoinReadAllLines(rest);
        ReadAllLinesStep(s, e);
        var lines := ReadAllLines(rest);
        assert lines != [];
        assert Join([line] + lines, "\n") == line + "\n" + Join(lines, "\n") by {
          assert ([line] + lines)[1..] == lines;
        }
      }
    }
  }

  /** The lines of a first line, a "\n" and a rest: the first line, then the
      rest's lines. */
  lemma ReadAllLinesCons(line: string, rest: string)
    requires SingleLine(line)
    ensures ReadAllLines(line + "\n" + rest) == [line] + ReadAllLines(rest)
  {
    var s := line + "\n" + rest;
    assert s == line + ("\n" + rest);
    LineEndOf(line, "\n" + rest);
    ReadAllLinesStep(s, |line|);
    assert s[|line| + 1..] == rest;
    assert s[..|line|] == line;
  }

  /** The lines of a first line, a "\r\n" and a rest: the pair ends one line. */
  lemma ReadAllLinesCrLf(line: string, rest: string)
    requires SingleLine(line)
    ensures ReadAllLines(line + "\r\n" + rest) == [line] + ReadAllLines(rest)
  {
    var s := line + "\r\n" + rest;
    assert s == line + ("\r\n" + rest);
    LineEndOf(line, "\r\n" + rest);
    assert s[|line|] == '\r' && s[|line| + 1] == '\n';
    assert NextLineStart(s, |line|) == |line| + 2;
    assert s[|line| + 2..] == rest;
    assert s[..|line|] == line;
  }

  /** The lines of a first line, a lone "\r" and a rest that does not start
      with "\n": the carriage return ends the line by itself. */
  lemma ReadAllLinesCr(line: string, rest: string)
    requires SingleLine(line)
    requires rest == [] || rest[0] != '\n'
    ensures ReadAllLines(line + "\r" + rest) == [line] + ReadAllLines(rest)
  {
    var s := line + "\r" + rest;
    assert s == line + ("\r" + rest);
    LineEndOf(line, "\r" + rest);
    assert s[|line|] == '\r';
    assert NextLineStart(s, |line|) == |line| + 1;
    assert s[|line| + 1..] == rest;
    assert s[..|line|] == line;
  }

  /** A line followed by nothing or by a terminator ends where the line does. */
  lemma {:induction false} LineEndOf(line: string, rest: string)
    requires SingleLine(line)
    requires rest == [] || IsLineBreak(rest[0])
    ensures LineEnd(line + rest) == |line|
  {
    if line != [] {
      assert (line + rest)[1..] == line[1..] + rest;
      LineEndOf(line[1..], rest);
    }
  }

  /** `Character.toUpperCase` on the ASCII letters. */
  function UpperCase(c: char): char {
    if 'a' <= c <= 'z' then (c as int - 'a' as int + 'A' as int) as char else c
  }

  /** `StringUtils.capitalize`: the first character upper-cased. */
  function Capitalize(s: string): (r: string)
    ensures |r| == |s|
    ensures s != [] ==> r[0] == UpperCase(s[0]) && r[1..] == s[1..]
  {
    if s == [] then s else [UpperCase(s[0])] + s[1..]
  }
}

=== FILE: merge.dfy ===
/** Filling the fragment's placeholders: `fillSlot` splices one slot's content
    in place of a placeholder's subtree, `fillSlots` does so for every slot in
    the iteration order of the slot map.

    The events are shared between lists by reference, so a list being filled
    may hold call-site events next to fragment events; lookups again go by id. */
module Merge {
  import opened Wrappers
  import opened Errors
  import opened Events
  import opened SubTree

  /** fillSlot (ComponentModelProcessor.java:160-164): remember where the
      placeholder subtree starts, remove every event of that subtree, insert
      the content at the remembered position. `get(0)` of an empty subtree and
      `addAll` at -1 or past the end throw. */
  function FillSlot(events: seq<Event>, span: seq<Event>, content: seq<Event>): (r: Result<seq<Event>, Error>)
    ensures span == [] ==> r.Failure?
    ensures span != [] && span[0].id !in Ids(events) ==> r.Failure?
    ensures r.Success? ==> forall e :: e in r.value <==> (e in events && e.id !in Ids(span)) || e in content
    ensures r.Success? ==> |r.value| == |RemoveIds(events, Ids(span))| + |content|
    ensures r.Failure? ==> r.error == IndexOutOfBounds
  {
    if span == [] then Failure(IndexOutOfBounds)
    else
      var position := IndexOf(events, span[0].id);
      var kept := RemoveIds(events, Ids(span));
      if position < 0 || position > |kept| then Failure(IndexOutOfBounds)
      else
        assert kept == kept[..position] + kept[position..];
        Success(kept[..position] + content + kept[position..])
  }

  /** Removing a sequence's own identities leaves nothing. */
  lemma {:induction false} RemoveIdsCovered(s: seq<Event>, ids: set<EventId>)
    requires Ids(s) <= ids
    ensures RemoveIds(s, ids) == []
    decreases |s|
  {
    if |s| > 0 {
      assert s[0] in s;
      assert Ids(s[1..]) <= Ids(s) by {
        assert forall e :: e in s[1..] ==> e in s;
      }
      RemoveIdsCovered(s[1..], ids);
    }
  }

  /** The first occurrence of `id` lies after a prefix that does not hold it. */
  lemma {:induction false} IndexOfAfter(pre: seq<Event>, rest: seq<Event>)
    requires |rest| > 0 && rest[0].id !in Ids(pre)
    ensures IndexOf(pre + rest, rest[0].id) == |pre|
    decreases |pre|
  {
    if |pre| > 0 {
      assert pre[0] in pre;
      assert Ids(pre[1..]) <= Ids(pre) by {
        assert forall e :: e in pre[1..] ==> e in pre;
      }
      assert (pre + rest)[1..] == pre[1..] + rest;
      IndexOfAfter(pre[1..], rest);
    } else {
      assert pre + rest == rest;
    }
  }

  /** Removing a subtree's identities from around it leaves its surroundings. */
  lemma RemoveSpan(pre: seq<Event>, span: seq<Event>, post: seq<Event>)
    requires Ids(pre) !! Ids(span) && Ids(post) !! Ids(span)
    ensures RemoveIds(pre + span + post, Ids(span)) == pre + post
  {
    RemoveIdsConcat(pre + span, post, Ids(span));
    RemoveIdsConcat(pre, span, Ids(span));
    RemoveIdsAbsent(pre, Ids(span));
    RemoveIdsAbsent(post, Ids(span));
    RemoveIdsCovered(span, Ids(span));
    assert pre + [] == pre;
  }

  /** When the placeholder subtree sits contiguously between events that do not
      share its identities, filling replaces exactly that subtree by the content. */
  lemma FillSlotReplacesSpan(pre: seq<Event>, span: seq<Event>, post: seq<Event>, content: seq<Event>)
    requires span != []
    requires Ids(pre) !! Ids(span) && Ids(post) !! Ids(span)
    ensures FillSlot(pre + span + post, span, content) == Success(pre + content + post)
  {
    var events := pre + span + post;
    assert events == pre + (span + post);
    IndexOfAfter(pre, span + post);
    RemoveSpan(pre, span, post);
    var kept := pre + post;
    assert kept[..|pre|] == pre;
    assert kept[|pre|..] == post;
  }

  /** One step of fillSlots: a placeholder's subtree and the content it is to be
      replaced by. */
  datatype Splice = Splice(span: seq<Event>, content: seq<Event>)

  /** The steps of `plan` applied one after the other, as the loop over the slot
      map does; the first failing step aborts. */
  function FillInOrder(body: seq<Event>, plan: seq<Splice>): (r: Result<seq<Event>, Error>)
    ensures plan == [] ==> r == Success(body)
    ensures r.Success? ==> forall e :: e in r.value ==> e in body || exists a :: 0 <= a < |plan| && e in plan[a].content
    ensures r.Failure? ==> r.error == IndexOutOfBounds
    decreases |plan|
  {
    if |plan| == 0 then Success(body)
    else
      var last := plan[|plan| - 1];
      var before :- FillInOrder(body, plan[..|plan| - 1]);
      var r := FillSlot(before, last.span, last.content);
      assert r.Success? ==> forall e :: e in r.value ==> e in body || exists a :: 0 <= a < |plan| && e in plan[a].content by {
        if r.Success? {
          forall e | e in r.value
            ensures e in body || exists a :: 0 <= a < |plan| && e in plan[a].content
          {
            if e !in last.content {
              assert e in before;
              if e !in body {
                var a :| 0 <= a < |plan| - 1 && e in plan[..|plan| - 1][a].content;
                assert plan[..|plan| - 1][a] == plan[a];
              }
            }
          }
        }
      }
      r
  }

  /** Reference definition of filling: what a single body event becomes once
      the whole plan is applied. The start of a placeholder subtree becomes its
      content, its other events vanish, every other event stays. */
  function PieceOf(e: Event, plan: seq<Splice>): seq<Event>
    decreases |plan|
  {
    if |plan| == 0 then [e]
    else
      var last := plan[|plan| - 1];
      if last.span != [] && e.id == last.span[0].id then last.content
      else if e.id in Ids(last.span) then []
      else PieceOf(e, plan[..|plan| - 1])
  }

  /** Reference definition of filling a whole sequence, event by event. */
  function Spliced(s: seq<Event>, plan: seq<Splice>): seq<Event> {
    if |s| == 0 then [] else PieceOf(s[0], plan) + Spliced(s[1..], plan)
  }

  /** `span` is non-empty and occurs as one block of `body`, starting where its
      first event's id is first found. */
  predicate Contiguous(body: seq<Event>, span: seq<Event>) {
    && span != []
    && var i := IndexOf(body, span[0].id);
    && 0 <= i && i + |span| <= |body|
    && body[i..i + |span|] == span
  }

  /** No two steps' placeholder subtrees share an event. */
  ghost predicate DisjointSpans(plan: seq<Splice>) {
    forall a, b :: 0 <= a < b < |plan| ==> Ids(plan[a].span) !! Ids(plan[b].span)
  }

  /** The conditions under which the order of filling does not matter: a body
      whose events are distinct, placeholder subtrees that are blocks of it and
      do not overlap, and no content reaching into another step's subtree. */
  ghost predicate Placement(body: seq<Event>, plan: seq<Splice>) {
    && UniqueIds(body)
    && (forall a :: 0 <= a < |plan| ==> Contiguous(body, plan[a].span))
    && DisjointSpans(plan)
    && (forall a, b :: 0 <= a < |plan| && 0 <= b < |plan| && a != b ==> Ids(plan[a].content) !! Ids(plan[b].span))
  }

  lemma {:induction false} SplicedConcat(a: seq<Event>, b: seq<Event>, plan: seq<Splice>)
    ensures Spliced(a + b, plan) == Spliced(a, plan) + Spliced(b, plan)
    decreases |a|
  {
    if |a| == 0 {
      assert a + b == b;
    } else {
      assert (a + b)[1..] == a[1..] + b;
      SplicedConcat(a[1..], b, plan);
    }
  }

  /** An event outside every placeholder subtree stays as it is. */
  lemma {:induction false} PieceUntouched(e: Event, plan: seq<Splice>)
    requires forall a :: 0 <= a < |plan| ==> e.id !in Ids(plan[a].span)
    ensures PieceOf(e, plan) == [e]
    decreases |plan|
  {
    if |plan| > 0 {
      var last := plan[|plan| - 1];
      assert e.id !in Ids(last.span);
      if last.span != [] {
        assert last.span[0] in last.span;
      }
      var prefix := plan[..|plan| - 1];
      assert forall a :: 0 <= a < |prefix| ==> prefix[a] == plan[a];
      PieceUntouched(e, prefix);
    }
  }

  lemma {:induction false} SplicedUntouched(s: seq<Event>, plan: seq<Splice>)
    requires forall a :: 0 <= a < |plan| ==> Ids(s) !! Ids(plan[a].span)
    ensures Spliced(s, plan) == s
    decreases |s|
  {
    if |s| > 0 {
      assert s[0] in s;
      PieceUntouched(s[0], plan);
      assert Ids(s[1..]) <= Ids(s) by {
        assert forall e :: e in s[1..] ==> e in s;
      }
      SplicedUntouched(s[1..], plan);
      assert s == [s[0]] + s[1..];
    }
  }

  /** What an event becomes only holds identities of the event itself and of
      the plan's contents. */
  lemma {:induction false} PieceAvoids(e: Event, plan: seq<Splice>, ids: set<EventId>)
    requires e.id !in ids
    requires forall a :: 0 <= a < |plan| ==> Ids(plan[a].content) !! ids
    ensures Ids(PieceOf(e, plan)) !! ids
    decreases |plan|
  {
    if |plan| == 0 {
      assert forall x :: x in [e] ==> x == e;
    } else {
      var prefix := plan[..|plan| - 1];
      assert forall a :: 0 <= a < |prefix| ==> prefix[a] == plan[a];
      PieceAvoids(e, prefix, ids);
    }
  }

  lemma {:induction false} SplicedAvoids(s: seq<Event>, plan: seq<Splice>, ids: set<EventId>)
    requires Ids(s) !! ids
    requires forall a :: 0 <= a < |plan| ==> Ids(plan[a].content) !! ids
    ensures Ids(Spliced(s, plan)) !! ids
    decreases |s|
  {
    if |s| > 0 {
      assert s[0] in s;
      PieceAvoids(s[0], plan, ids);
      assert Ids(s[1..]) <= Ids(s) by {
        assert forall e :: e in s[1..] ==> e in s;
      }
      SplicedAvoids(s[1..], plan, ids);
      IdsConcat(PieceOf(s[0], plan), Spliced(s[1..], plan));
    }
  }

  /** A further step leaves events outside its subtree alone. */
  lemma {:induction false} SplicedExtend(s: seq<Event>, plan: seq<Splice>, k: nat)
    requires k < |plan|
    requires Ids(s) !! Ids(plan[k].span)
    ensures Spliced(s, plan[..k + 1]) == Spliced(s, plan[..k])
    decreases |s|
  {
    if |s| > 0 {
      assert s[0] in s;
      assert plan[..k + 1][..k] == plan[..k];
      assert plan[..k + 1][k] == plan[k];
      assert s[0].id !in Ids(plan[k].span);
      if plan[k].span != [] {
        assert plan[k].span[0] in plan[k].span;
      }
      assert PieceOf(s[0], plan[..k + 1]) == PieceOf(s[0], plan[..k]);
      assert Ids(s[1..]) <= Ids(s) by {
        assert forall e :: e in s[1..] ==> e in s;
      }
      SplicedExtend(s[1..], plan, k);
    }
  }

  /** Events of the last step's subtree other than its first vanish. */
  lemma {:induction false} SplicedInsideLast(t: seq<Event>, plan: seq<Splice>)
    requires |plan| > 0
    requires forall e :: e in t ==> e.id in Ids(plan[|plan| - 1].span) && e.id != plan[|plan| - 1].span[0].id
    ensures Spliced(t, plan) == []
    decreases |t|
  {
    if |t| > 0 {
      assert t[0] in t;
      assert forall e :: e in t[1..] ==> e in t;
      SplicedInsideLast(t[1..], plan);
    }
  }

  /** The last step's subtree turns into that step's content. */
  lemma SplicedLastSpan(plan: seq<Splice>)
    requires |plan| > 0
    requires plan[|plan| - 1].span != [] && UniqueIds(plan[|plan| - 1].span)
    ensures Spliced(plan[|plan| - 1].span, plan) == plan[|plan| - 1].content
  {
    var span := plan[|plan| - 1].span;
    forall e | e in span[1..]
      ensures e.id in Ids(span) && e.id != span[0].id
    {
      var j :| 1 <= j < |span| && span[j] == e;
      assert span[j] in span;
    }
    SplicedInsideLast(span[1..], plan);
    assert Spliced(span, plan) == PieceOf(span[0], plan) + Spliced(span[1..], plan);
  }

  /** A block of a body with distinct identities shares none with the rest and
      has distinct identities itself. */
  lemma UniqueBlock(body: seq<Event>, i: nat, m: nat)
    requires UniqueIds(body) && i + m <= |body|
    ensures Ids(body[..i]) !! Ids(body[i..i + m])
    ensures Ids(body[i + m..]) !! Ids(body[i..i + m])
    ensures UniqueIds(body[i..i + m])
  {
    var mid := body[i..i + m];
    forall e, f | e in body[..i] && f in mid
      ensures e.id != f.id
    {
      var p :| 0 <= p < i && body[..i][p] == e;
      var q :| 0 <= q < m && mid[q] == f;
      assert body[p] == e && body[i + q] == f;
    }
    forall e, f | e in body[i + m..] && f in mid
      ensures e.id != f.id
    {
      var p :| 0 <= p < |body| - (i + m) && body[i + m..][p] == e;
      var q :| 0 <= q < m && mid[q] == f;
      assert body[i + m + p] == e && body[i + q] == f;
    }
    forall p, q | 0 <= p < q < m
      ensures mid[p].id != mid[q].id
    {
      assert mid[p] == body[i + p] && mid[q] == body[i + q];
    }
  }

  /** A block of the body splits it into what precedes, the block, what follows. */
  lemma ContiguousSplit(body: seq<Event>, span: seq<Event>)
    requires Contiguous(body, span)
    ensures var i := IndexOf(body, span[0].id);
      body == body[..i] + span + body[i + |span|..]
  {
    var i := IndexOf(body, span[0].id);
    var j := i + |span|;
    assert body[..i] + body[i..j] == body[..j];
    assert body[..j] + body[j..] == body;
  }

  /** Placement holds for every prefix of a plan. */
  lemma PlacementPrefix(body: seq<Event>, plan: seq<Splice>, k: nat)
    requires Placement(body, plan) && k <= |plan|
    ensures Placement(body, plan[..k])
  {
    assert forall a :: 0 <= a < k ==> plan[..k][a] == plan[a];
  }

  /** What Placement says about the last step against the steps before it. */
  lemma PlacementLast(body: seq<Event>, plan: seq<Splice>)
    requires Placement(body, plan) && |plan| > 0
    ensures var span, prefix := plan[|plan| - 1].span, plan[..|plan| - 1];
      && Contiguous(body, span)
      && (forall a :: 0 <= a < |prefix| ==> Ids(prefix[a].span) !! Ids(span))
      && (forall a :: 0 <= a < |prefix| ==> Ids(prefix[a].content) !! Ids(span))
  {
    var prefix := plan[..|plan| - 1];
    assert forall a :: 0 <= a < |prefix| ==> prefix[a] == plan[a];
  }

  /** Before its own step a block is untouched, and splicing distributes. */
  lemma SplicedAroundBefore(b1: seq<Event>, span: seq<Event>, b2: seq<Event>, prefix: seq<Splice>)
    requires forall a :: 0 <= a < |prefix| ==> Ids(prefix[a].span) !! Ids(span)
    ensures Spliced(b1 + span + b2, prefix) == Spliced(b1, prefix) + span + Spliced(b2, prefix)
  {
    SplicedUntouched(span, prefix);
    SplicedConcat(b1 + span, b2, prefix);
    SplicedConcat(b1, span, prefix);
  }

  /** After its own step a block has become its content and the sides are as
      they were before the step. */
  lemma SplicedAroundAfter(b1: seq<Event>, b2: seq<Event>, plan: seq<Splice>)
    requires |plan| > 0
    requires plan[|plan| - 1].span != [] && UniqueIds(plan[|plan| - 1].span)
    requires Ids(b1) !! Ids(plan[|plan| - 1].span) && Ids(b2) !! Ids(plan[|plan| - 1].span)
    ensures var j := |plan| - 1;
      Spliced(b1 + plan[j].span + b2, plan) == Spliced(b1, plan[..j]) + plan[j].content + Spliced(b2, plan[..j])
  {
    var j := |plan| - 1;
    assert plan[..j + 1] == plan;
    SplicedExtend(b1, plan, j);
    SplicedExtend(b2, plan, j);
    SplicedLastSpan(plan);
    SplicedConcat(b1 + plan[j].span, b2, plan);
    SplicedConcat(b1, plan[j].span, plan);
  }

  /** One step of the reference splice: before it the step's subtree sits
      untouched between two spliced sides that do not share its identities;
      after it the subtree has become the step's content. */
  lemma SplicedStep(body: seq<Event>, plan: seq<Splice>) returns (p1: seq<Event>, p2: seq<Event>)
    requires Placement(body, plan) && |plan| > 0
    ensures Spliced(body, plan[..|plan| - 1]) == p1 + plan[|plan| - 1].span + p2
    ensures Spliced(body, plan) == p1 + plan[|plan| - 1].content + p2
    ensures Ids(p1) !! Ids(plan[|plan| - 1].span) && Ids(p2) !! Ids(plan[|plan| - 1].span)
    ensures |p1| + |p2| == |Spliced(body, plan[..|plan| - 1])| - |plan[|plan| - 1].span|
  {
    var j := |plan| - 1;
    var prefix, span := plan[..j], plan[j].span;
    PlacementLast(body, plan);
    var i := IndexOf(body, span[0].id);
    ContiguousSplit(body, span);
    var b1, b2 := body[..i], body[i + |span|..];
    UniqueBlock(body, i, |span|);
    SplicedAroundBefore(b1, span, b2, prefix);
    SplicedAvoids(b1, prefix, Ids(span));
    SplicedAvoids(b2, prefix, Ids(span));
    SplicedAroundAfter(b1, b2, plan);
    p1, p2 := Spliced(b1, prefix), Spliced(b2, prefix);
  }

  /** One more step of the fold: the last step fills what the earlier ones
      produced. */
  lemma FillInOrderStep(body: seq<Event>, plan: seq<Splice>, before: seq<Event>)
    requires |plan| > 0 && FillInOrder(body, plan[..|plan| - 1]) == Success(before)
    ensures FillInOrder(body, plan) == FillSlot(before, plan[|plan| - 1].span, plan[|plan| - 1].content)
  {
  }

  /** Filling step by step computes the reference splice: under Placement the
      placeholder subtree of each step is still one block when its turn comes,
      so no step fails and each replaces exactly its subtree. */
  lemma {:induction false} FillInOrderSplices(body: seq<Event>, plan: seq<Splice>)
    requires Placement(body, plan)
    ensures FillInOrder(body, plan) == Success(Spliced(body, plan))
    decreases |plan|
  {
    if |plan| == 0 {
      SplicedUntouched(body, plan);
    } else {
      var j := |plan| - 1;
      PlacementPrefix(body, plan, j);
      FillInOrderSplices(body, plan[..j]);
      FillInOrderSplicesStep(body, plan);
    }
  }

  lemma FillInOrderSplicesStep(body: seq<Event>, plan: seq<Splice>)
    requires Placement(body, plan) && |plan| > 0
    requires FillInOrder(body, plan[..|plan| - 1]) == Success(Spliced(body, plan[..|plan| - 1]))
    ensures FillInOrder(body, plan) == Success(Spliced(body, plan))
  {
    var j := |plan| - 1;
    var p1, p2 := SplicedStep(body, plan);
    FillInOrderStep(body, plan, p1 + plan[j].span + p2);
    FillSlotReplacesSpan(p1, plan[j].span, p2, plan[j].content);
  }

  /** Total length of the placeholder subtrees of a plan. */
  function SpanTotal(plan: seq<Splice>): nat {
    if |plan| == 0 then 0 else SpanTotal(plan[..|plan| - 1]) + |plan[|plan| - 1].span|
  }

  /** Total length of the contents of a plan. */
  function ContentTotal(plan: seq<Splice>): nat {
    if |plan| == 0 then 0 else ContentTotal(plan[..|plan| - 1]) + |plan[|plan| - 1].content|
  }

  /** The spliced length is the body's length, minus the placeholder
      subtrees, plus the contents: each step trades its subtree's events for
      its content's. */
  lemma {:induction false} SplicedLength(body: seq<Event>, plan: seq<Splice>)
    requires Placement(body, plan)
    ensures |Spliced(body, plan)| == |body| - SpanTotal(plan) + ContentTotal(plan)
    decreases |plan|
  {
    if |plan| == 0 {
      SplicedUntouched(body, plan);
    } else {
      var j := |plan| - 1;
      PlacementPrefix(body, plan, j);
      SplicedLength(body, plan[..j]);
      var p1, p2 := SplicedStep(body, plan);
    }
  }

  /** Filling in order succeeds with the body's length, minus the placeholder
      subtrees, plus the contents. */
  lemma FillInOrderLength(body: seq<Event>, plan: seq<Splice>)
    requires Placement(body, plan)
    ensures FillInOrder(body, plan).Success?
    ensures |FillInOrder(body, plan).value| == |body| - SpanTotal(plan) + ContentTotal(plan)
  {
    FillInOrderSplices(body, plan);
    SplicedLength(body, plan);
  }

  /** With disjoint subtrees, what an event inside some step's subtree becomes
      is decided by that step alone. */
  lemma {:induction false} PieceInside(e: Event, plan: seq<Splice>, a: nat)
    requires DisjointSpans(plan)
    requires a < |plan| && e.id in Ids(plan[a].span)
    ensures PieceOf(e, plan) == if e.id == plan[a].span[0].id then plan[a].content else []
    decreases |plan|
  {
    var last := plan[|plan| - 1];
    if a < |plan| - 1 {
      assert e.id !in Ids(last.span);
      if last.span != [] {
        assert last.span[0] in last.span;
      }
      var prefix := plan[..|plan| - 1];
      assert forall x :: 0 <= x < |prefix| ==> prefix[x] == plan[x];
      PieceInside(e, prefix, a);
    }
  }

  /** Two plans with the same steps and disjoint subtrees turn every event into
      the same thing. */
  lemma PieceOrderIndependent(e: Event, p: seq<Splice>, q: seq<Splice>)
    requires DisjointSpans(p) && DisjointSpans(q)
    requires forall sp :: sp in p <==> sp in q
    ensures PieceOf(e, p) == PieceOf(e, q)
  {
    if a :| 0 <= a < |p| && e.id in Ids(p[a].span) {
      assert p[a] in q;
      var b :| 0 <= b < |q| && q[b] == p[a];
      PieceInside(e, p, a);
      PieceInside(e, q, b);
    } else {
      PieceUntouched(e, p);
      forall b | 0 <= b < |q|
        ensures e.id !in Ids(q[b].span)
      {
        assert q[b] in p;
      }
      PieceUntouched(e, q);
    }
  }

  lemma {:induction false} SplicedOrderIndependent(s: seq<Event>, p: seq<Splice>, q: seq<Splice>)
    requires DisjointSpans(p) && DisjointSpans(q)
    requires forall sp :: sp in p <==> sp in q
    ensures Spliced(s, p) == Spliced(s, q)
    decreases |s|
  {
    if |s| > 0 {
      PieceOrderIndependent(s[0], p, q);
      SplicedOrderIndependent(s[1..], p, q);
    }
  }

  /** The iteration order of the slot map does not matter when the placement
      conditions hold: any two orders of the same steps fill alike. */
  lemma FillInOrderOrderIndependent(body: seq<Event>, p: seq<Splice>, q: seq<Splice>)
    requires Placement(body, p) && Placement(body, q)
    requires forall sp :: sp in p <==> sp in q
    ensures FillInOrder(body, p) == FillInOrder(body, q)
  {
    FillInOrderSplices(body, p);
    FillInOrderSplices(body, q);
    SplicedOrderIndependent(body, p, q);
  }

  /** A one-step plan is one fillSlot call. */
  lemma FillInOrderOne(body: seq<Event>, first: Splice)
    ensures FillInOrder(body, [first]) == FillSlot(body, first.span, first.content)
  {
    assert [first][..0] == [];
  }

  /** A two-step plan is two fillSlot calls, the second on the first's result. */
  lemma FillInOrderTwo(body: seq<Event>, first: Splice, second: Splice)
    ensures var r := FillSlot(body, first.span, first.content);
      FillInOrder(body, [first, second]) == if r.Failure? then r else FillSlot(r.value, second.span, second.content)
  {
    assert [first, second][..1] == [first];
    FillInOrderOne(body, first);
  }

  /** Once a step has replaced a subtree by content from elsewhere, a later
      step whose subtree starts inside it finds no start and fails: the
      `addAll` at index -1 of fillSlot. */
  lemma NestedAfterOuterFails(body: seq<Event>, outer: Splice, inner: Splice)
    requires inner.span != [] && inner.span[0].id in Ids(outer.span)
    requires inner.span[0].id !in Ids(outer.content)
    ensures FillInOrder(body, [outer, inner]).Failure?
  {
    FillInOrderTwo(body, outer, inner);
    var first := FillSlot(body, outer.span, outer.content);
    if first.Success? {
      assert inner.span[0].id !in Ids(first.value);
    }
  }

  lemma NestedBlocks(pre: seq<Event>, a0: Event, m1: seq<Event>, inner: seq<Event>, m2: seq<Event>, post: seq<Event>)
    requires UniqueIds(pre + ([a0] + m1 + inner + m2) + post)
    ensures var outer := [a0] + m1 + inner + m2;
      && Ids(pre) !! Ids(outer) && Ids(post) !! Ids(outer)
      && Ids([a0] + m1) !! Ids(inner) && Ids(m2) !! Ids(inner)
  {
    var outer := [a0] + m1 + inner + m2;
    var body := pre + outer + post;
    UniqueBlock(body, |pre|, |outer|);
    assert body[..|pre|] == pre && body[|pre|..|pre| + |outer|] == outer && body[|pre| + |outer|..] == post;
    UniqueBlock(outer, 1 + |m1|, |inner|);
    assert outer[..1 + |m1|] == [a0] + m1 && outer[1 + |m1|..1 + |m1| + |inner|] == inner && outer[1 + |m1| + |inner|..] == m2;
  }

  lemma RemoveThenKeep(acc: seq<Event>, p: seq<Event>, ids: set<EventId>)
    requires Ids(p) !! ids
    ensures RemoveIds(acc + p, ids) == RemoveIds(acc, ids) + p
  {
    RemoveIdsConcat(acc, p, ids);
    RemoveIdsAbsent(p, ids);
  }

  lemma RemoveThenDrop(acc: seq<Event>, p: seq<Event>, ids: set<EventId>)
    requires Ids(p) <= ids
    ensures RemoveIds(acc + p, ids) == RemoveIds(acc, ids)
  {
    RemoveIdsConcat(acc, p, ids);
    RemoveIdsCovered(p, ids);
    assert RemoveIds(acc, ids) + [] == RemoveIds(acc, ids);
  }

  /** Removal from five consecutive parts, of which the second and fourth
      consist of removed identities only and the others of kept ones. */
  lemma RemoveAlternating(p1: seq<Event>, p2: seq<Event>, p3: seq<Event>, p4: seq<Event>, p5: seq<Event>, ids: set<EventId>)
    requires Ids(p1) !! ids && Ids(p3) !! ids && Ids(p5) !! ids
    requires Ids(p2) <= ids && Ids(p4) <= ids
    ensures RemoveIds(p1 + p2 + p3 + p4 + p5, ids) == p1 + p3 + p5
  {
    RemoveIdsAbsent(p1, ids);
    RemoveThenDrop(p1, p2, ids);
    RemoveThenKeep(p1 + p2, p3, ids);
    RemoveThenDrop(p1 + p2 + p3, p4, ids);
    RemoveThenKeep(p1 + p2 + p3 + p4, p5, ids);
  }

  lemma OuterParts(a0: Event, m1: seq<Event>, inner: seq<Event>, m2: seq<Event>)
    ensures Ids([a0] + m1) <= Ids([a0] + m1 + inner + m2)
    ensures Ids(inner) <= Ids([a0] + m1 + inner + m2)
    ensures Ids(m2) <= Ids([a0] + m1 + inner + m2)
  {
    IdsConcat([a0] + m1 + inner, m2);
    IdsConcat([a0] + m1, inner);
  }

  lemma Regroup(p1: seq<Event>, p2: seq<Event>, p3: seq<Event>, p4: seq<Event>, p5: seq<Event>)
    ensures p1 + p2 + p3 + p4 + p5 == p1 + (p2 + p3 + p4 + p5)
  {
    assert p1 + p2 + p3 == p1 + (p2 + p3);
    assert p1 + p2 + p3 + p4 == p1 + (p2 + p3 + p4);
  }

  /** Filling where the subtree's start follows a prefix free of its identities
      and removal leaves that prefix followed by `tail`. */
  lemma FillSlotAfterPrefix(pre: seq<Event>, rest: seq<Event>, span: seq<Event>, content: seq<Event>, tail: seq<Event>)
    requires span != [] && |rest| > 0 && rest[0].id == span[0].id
    requires span[0].id !in Ids(pre)
    requires RemoveIds(pre + rest, Ids(span)) == pre + tail
    ensures FillSlot(pre + rest, span, content) == Success(pre + content + tail)
  {
    IndexOfAfter(pre, rest);
    var kept := pre + tail;
    assert kept[..|pre|] == pre && kept[|pre|..] == tail;
  }

  /** The outer step after the inner one: the outer subtree's remains go, the
      inner content stays behind the outer content. */
  lemma NestedOuterStep(pre: seq<Event>, a0: Event, m1: seq<Event>, inner: seq<Event>, m2: seq<Event>, post: seq<Event>, ca: seq<Event>, cb: seq<Event>)
    requires var outer := [a0] + m1 + inner + m2;
      && Ids(pre) !! Ids(outer) && Ids(post) !! Ids(outer)
      && Ids(cb) !! Ids(outer)
    ensures FillSlot(pre + ([a0] + m1) + cb + m2 + post, [a0] + m1 + inner + m2, ca) == Success(pre + ca + cb + post)
  {
    var outer := [a0] + m1 + inner + m2;
    var head := [a0] + m1;
    OuterParts(a0, m1, inner, m2);
    RemoveAlternating(pre, head, cb, m2, post, Ids(outer));
    NestedOuterFill(pre, head, cb, m2, post, outer, ca);
  }

  /** The outer fill once the removal of its identities is known. */
  lemma NestedOuterFill(pre: seq<Event>, head: seq<Event>, cb: seq<Event>, m2: seq<Event>, post: seq<Event>, outer: seq<Event>, ca: seq<Event>)
    requires head != [] && outer != [] && outer[0] == head[0]
    requires Ids(pre) !! Ids(outer)
    requires RemoveIds(pre + head + cb + m2 + post, Ids(outer)) == pre + cb + post
    ensures FillSlot(pre + head + cb + m2 + post, outer, ca) == Success(pre + ca + cb + post)
  {
    var rest := head + cb + m2 + post;
    Regroup(pre, head, cb, m2, post);
    assert outer[0] in outer;
    Regroup3(pre, cb, post);
    FillSlotAfterPrefix(pre, rest, outer, ca, cb + post);
    Regroup3(pre, ca, cb + post);
    Regroup3(pre + ca, cb, post);
  }

  lemma Regroup3<T>(p1: seq<T>, p2: seq<T>, p3: seq<T>)
    ensures p1 + p2 + p3 == p1 + (p2 + p3)
  {
  }

  /** Filling the inner placeholder first, then the outer one. */
  lemma NestedInnerFirst(pre: seq<Event>, a0: Event, m1: seq<Event>, inner: seq<Event>, m2: seq<Event>, post: seq<Event>, ca: seq<Event>, cb: seq<Event>)
    requires inner != []
    requires var outer := [a0] + m1 + inner + m2;
      && Ids(pre) !! Ids(outer) && Ids(post) !! Ids(outer)
      && Ids([a0] + m1) !! Ids(inner) && Ids(m2) !! Ids(inner)
      && Ids(cb) !! Ids(outer)
    ensures var outer := [a0] + m1 + inner + m2;
      FillInOrder(pre + outer + post, [Splice(inner, cb), Splice(outer, ca)]) == Success(pre + ca + cb + post)
  {
    var outer := [a0] + m1 + inner + m2;
    var x := NestedInnerStep(pre, a0, m1, inner, m2, post, cb);
    NestedOuterStep(pre, a0, m1, inner, m2, post, ca, cb);
    FillInOrderTwo(pre + outer + post, Splice(inner, cb), Splice(outer, ca));
  }

  lemma NestedInnerStep(pre: seq<Event>, a0: Event, m1: seq<Event>, inner: seq<Event>, m2: seq<Event>, post: seq<Event>, cb: seq<Event>)
      returns (x: seq<Event>)
    requires inner != []
    requires var outer := [a0] + m1 + inner + m2;
      && Ids(pre) !! Ids(outer) && Ids(post) !! Ids(outer)
      && Ids([a0] + m1) !! Ids(inner) && Ids(m2) !! Ids(inner)
    ensures x == pre + ([a0] + m1) + cb + m2 + post
    ensures FillSlot(pre + ([a0] + m1 + inner + m2) + post, inner, cb) == Success(x)
  {
    var outer := [a0] + m1 + inner + m2;
    OuterParts(a0, m1, inner, m2);
    IdsConcat(pre, [a0] + m1);
    IdsConcat(m2, post);
    assert pre + outer + post == (pre + ([a0] + m1)) + inner + (m2 + post);
    FillSlotReplacesSpan(pre + ([a0] + m1), inner, m2 + post, cb);
    x := pre + ([a0] + m1) + cb + m2 + post;
    assert x == (pre + ([a0] + m1)) + cb + (m2 + post);
  }

  /** A placeholder nested inside another's subtree makes the slot-map order
      matter. Filling the inner one first succeeds but leaves its content
      after the outer content, outside any placeholder; filling the outer one
      first fails. */
  lemma NestedPlaceholdersOrderDependent(pre: seq<Event>, a0: Event, m1: seq<Event>, inner: seq<Event>, m2: seq<Event>, post: seq<Event>, ca: seq<Event>, cb: seq<Event>)
    requires inner != []
    requires UniqueIds(pre + ([a0] + m1 + inner + m2) + post)
    requires Ids(ca) !! Ids(pre + ([a0] + m1 + inner + m2) + post)
    requires Ids(cb) !! Ids(pre + ([a0] + m1 + inner + m2) + post)
    ensures var outer := [a0] + m1 + inner + m2;
      FillInOrder(pre + outer + post, [Splice(inner, cb), Splice(outer, ca)]) == Success(pre + ca + cb + post)
    ensures var outer := [a0] + m1 + inner + m2;
      FillInOrder(pre + outer + post, [Splice(outer, ca), Splice(inner, cb)]).Failure?
  {
    var outer := [a0] + m1 + inner + m2;
    var body := pre + outer + post;
    NestedBlocks(pre, a0, m1, inner, m2, post);
    IdsConcat(pre + outer, post);
    IdsConcat(pre, outer);
    NestedInnerFirst(pre, a0, m1, inner, m2, post, ca, cb);
    OuterParts(a0, m1, inner, m2);
    assert inner[0] in inner;
    NestedAfterOuterFails(body, Splice(outer, ca), Splice(inner, cb));
  }

  /** Depth of a prefix reaching past a leading part. */
  lemma DepthPrefixAfter(a: seq<Event>, b: seq<Event>, k: nat)
    requires |a| <= k <= |a| + |b|
    ensures Depth((a + b)[..k]) == Depth(a) + Depth(b[..k - |a|])
  {
    assert (a + b)[..k] == a + b[..k - |a|];
    DepthConcat(a, b[..k - |a|]);
  }

  lemma ReplaceBalancedPrefix(p1: seq<Event>, span: seq<Event>, p2: seq<Event>, content: seq<Event>, k: nat)
    requires WellFormed(p1 + span + p2) && WellFormed(span) && WellFormed(content)
    requires k <= |p1| + |content| + |p2|
    ensures Depth((p1 + content + p2)[..k]) >= 0
  {
    var s, t := p1 + span + p2, p1 + content + p2;
    assert Depth(s[..|p1|]) >= 0;
    assert s[..|p1|] == p1;
    if k <= |p1| {
      assert t[..k] == s[..k];
    } else if k <= |p1| + |content| {
      assert t == p1 + (content + p2);
      DepthPrefixAfter(p1, content + p2, k);
      assert (content + p2)[..k - |p1|] == content[..k - |p1|];
      assert Depth(content[..k - |p1|]) >= 0;
    } else {
      var m := k - |p1| - |content|;
      DepthPrefixAfter(p1 + content, p2, k);
      DepthConcat(p1, content);
      DepthPrefixAfter(p1 + span, p2, |p1| + |span| + m);
      DepthConcat(p1, span);
      assert Depth(s[..|p1| + |span| + m]) >= 0;
    }
  }

  /** Replacing a balanced block of well-formed markup by well-formed content
      keeps the markup well-formed. */
  lemma ReplaceBalanced(p1: seq<Event>, span: seq<Event>, p2: seq<Event>, content: seq<Event>)
    requires WellFormed(p1 + span + p2) && WellFormed(span) && WellFormed(content)
    ensures WellFormed(p1 + content + p2)
  {
    DepthConcat(p1 + span, p2);
    DepthConcat(p1, span);
    DepthConcat(p1 + content, p2);
    DepthConcat(p1, content);
    forall k | 0 <= k <= |p1 + content + p2|
      ensures Depth((p1 + content + p2)[..k]) >= 0
    {
      ReplaceBalancedPrefix(p1, span, p2, content, k);
    }
  }

  /** Every step's subtree and content are well-formed markup. */
  ghost predicate BalancedSteps(plan: seq<Splice>) {
    forall a :: 0 <= a < |plan| ==> WellFormed(plan[a].span) && WellFormed(plan[a].content)
  }

  /** One step of a placement keeps the markup well-formed. */
  lemma SplicedStepWellFormed(body: seq<Event>, plan: seq<Splice>)
    requires Placement(body, plan) && |plan| > 0
    requires WellFormed(Spliced(body, plan[..|plan| - 1]))
    requires WellFormed(plan[|plan| - 1].span) && WellFormed(plan[|plan| - 1].content)
    ensures WellFormed(Spliced(body, plan))
  {
    var j := |plan| - 1;
    var span, content := plan[j].span, plan[j].content;
    var p1, p2 := SplicedStep(body, plan);
    ReplaceBalanced(p1, span, p2, content);
  }

  /** Filling well-formed markup with balanced steps yields well-formed markup. */
  lemma {:induction false} SplicedWellFormed(body: seq<Event>, plan: seq<Splice>)
    requires Placement(body, plan) && WellFormed(body) && BalancedSteps(plan)
    ensures WellFormed(Spliced(body, plan))
    decreases |plan|
  {
    if |plan| == 0 {
      SplicedUntouched(body, plan);
    } else {
      var j := |plan| - 1;
      PlacementPrefix(body, plan, j);
      assert BalancedSteps(plan[..j]) by {
        forall a | 0 <= a < j
          ensures WellFormed(plan[..j][a].span) && WellFormed(plan[..j][a].content)
        {
          assert plan[..j][a] == plan[a];
        }
      }
      SplicedWellFormed(body, plan[..j]);
      SplicedStepWellFormed(body, plan);
    }
  }
}

=== FILE: processor.dfy ===
/** The component processor as a whole (doProcess,
    ComponentModelProcessor.java:47-79): locate the component tag of the
    invocation, skip tags outside the dialect, resolve the tag's attributes,
    load the fragment template, and replace the invocation by the fragment
    with its slots filled.

    The template engine is a parameter: loading a template is a lookup in
    `templates`, evaluating an attribute expression is `eval` (`None` when
    evaluation fails), rendering an evaluated value as attribute text is
    `show`, and the identities of the two wrapper events are `openId` and
    `closeId`. */
module Processor {
  import opened Wrappers
  import opened Errors
  import opened Events
  import opened SubTree
  import opened Slots
  import opened Merge
  import opened Compose
  import opened Attributes
  import opened Enumerations

  /** A processor registered for one component element of one dialect. */
  datatype ComponentProcessor = ComponentProcessor(dialectPrefix: string, elementName: string, templatePath: Option<string>)

  /** What processing leaves behind: the invocation model (replaced by the
      merged model when the component was composed) and the local variables
      set for the fragment. */
  datatype Processed<V> = Processed(model: seq<Event>, locals: map<string, Value<V>>)

  /** isValidComponentTag (ComponentModelProcessor.java:73-75): the tag's
      complete name starts with `prefix:`; a `pl-button` tag, which the engine
      also routes here, does not. */
  predicate IsValidComponentTag(proc: ComponentProcessor, tag: Event)
    requires tag.IsElementTag()
  {
    proc.dialectPrefix + ":" <= tag.name
  }

  /** The template a component is loaded from (ComponentModelProcessor.java:77-79):
      the configured path, or `pl/<element>/<element>` by default. */
  function FragmentPath(proc: ComponentProcessor): string {
    proc.templatePath.GetOr("pl/" + proc.elementName + "/" + proc.elementName)
  }

  /** loadFragmentModel: the fragment template's events, or an error when no
      template exists at the path. */
  function LoadFragment(proc: ComponentProcessor, templates: map<string, seq<Event>>): (r: Result<seq<Event>, Error>)
    ensures r.Failure? <==> FragmentPath(proc) !in templates
    ensures r.Failure? ==> r.error == TemplateNotFound(FragmentPath(proc))
    ensures r.Success? ==> r.value == templates[FragmentPath(proc)]
  {
    var path := FragmentPath(proc);
    if path in templates then Success(templates[path]) else Failure(TemplateNotFound(path))
  }

  /** `order` is an iteration order of the slot map of the fragment, when
      there is a fragment. */
  predicate OrdersSlots(proc: ComponentProcessor, templates: map<string, seq<Event>>, order: seq<string>) {
    var fragment := LoadFragment(proc, templates);
    fragment.Success? ==> IsEnumeration(order, ExtractSlots(fragment.value, proc.dialectPrefix).Keys)
  }

  /** blockOpenElement (ComponentModelProcessor.java:170-175): the additional
      attributes as attribute text of the wrapper. */
  function BlockAttributes<V>(additional: map<string, Value<V>>, show: V -> string): (r: map<string, string>)
    ensures r.Keys == additional.Keys
    ensures forall name :: name in additional && additional[name].Raw? ==> r[name] == additional[name].text
    ensures forall name :: name in additional && additional[name].Evaluated? ==> r[name] == show(additional[name].result)
  {
    map name | name in additional ::
      match additional[name]
      case Evaluated(v) => show(v)
      case Raw(text) => text
  }

  /** The composing half of doProcess (ComponentModelProcessor.java:59-70)
      for a tag inside the dialect: resolve its attributes, load the
      fragment, collect both sides of the slots and merge them. */
  function ComposeComponent<V>(proc: ComponentProcessor, model: seq<Event>, tag: Event, templates: map<string, seq<Event>>,
                      eval: string -> Option<V>, show: V -> string, order: seq<string>,
                      openId: EventId, closeId: EventId): (r: Result<Processed<V>, Error>)
    requires tag.IsElementTag() && OrdersSlots(proc, templates, order)
    ensures FragmentPath(proc) !in templates ==> r == Failure(TemplateNotFound(FragmentPath(proc)))
    ensures FragmentPath(proc) in templates ==>
      (r.Failure? && r.error.DuplicateSlot? <==> DuplicateMarkerBefore(model, proc.dialectPrefix, |model|))
    ensures r != Failure(NoComponentTag)
    ensures r.Success? ==>
      && r.value.locals == ComponentAttributes(tag.attributes, proc.dialectPrefix, eval)
      && 2 <= |r.value.model|
      && r.value.model[0] == OpenTag(openId, BlockName, BlockAttributes(AdditionalAttributes(tag.attributes, proc.dialectPrefix, eval), show))
      && r.value.model[|r.value.model| - 1] == CloseTag(closeId, BlockName)
  {
    var prefix := proc.dialectPrefix;
    var additional := AdditionalAttributes(tag.attributes, prefix, eval);
    var locals := ComponentAttributes(tag.attributes, prefix, eval);
    var fragment :- LoadFragment(proc, templates);
    var contents :- ExtractSlotContents(model, prefix);
    var slots := ExtractSlots(fragment, prefix);
    var merged :- PrepareModel(fragment, BlockAttributes(additional, show), slots, contents, order, openId, closeId);
    Success(Processed(merged, locals))
  }

  /** doProcess (ComponentModelProcessor.java:47-71): an invocation without
      an element tag is an error, a tag outside the dialect is left alone,
      and any other tag is composed. */
  function Process<V>(proc: ComponentProcessor, model: seq<Event>, templates: map<string, seq<Event>>,
                      eval: string -> Option<V>, show: V -> string, order: seq<string>,
                      openId: EventId, closeId: EventId): (r: Result<Processed<V>, Error>)
    requires OrdersSlots(proc, templates, order)
    ensures r == Failure(NoComponentTag) <==> FirstElementTag(model).None?
    ensures FirstElementTag(model).Some? && !IsValidComponentTag(proc, model[FirstElementTag(model).value]) ==>
      r == Success(Processed(model, map[]))
    ensures FirstElementTag(model).Some? && IsValidComponentTag(proc, model[FirstElementTag(model).value]) ==>
      r == ComposeComponent(proc, model, model[FirstElementTag(model).value], templates, eval, show, order, openId, closeId)
  {
    match FirstElementTag(model)
    case None => Failure(NoComponentTag)
    case Some(i) =>
      var tag := model[i];
      if !IsValidComponentTag(proc, tag) then Success(Processed(model, map[]))
      else ComposeComponent(proc, model, tag, templates, eval, show, order, openId, closeId)
  }

  /** An invocation the processor composes without interference: its tag is
      in the dialect, its fragment exists, no slot is filled twice, and the
      fragment's placeholders are well placed for the call-site contents. */
  ghost predicate Composable(proc: ComponentProcessor, model: seq<Event>, templates: map<string, seq<Event>>) {
    && FirstElementTag(model).Some?
    && IsValidComponentTag(proc, model[FirstElementTag(model).value])
    && FragmentPath(proc) in templates
    && !DuplicateMarkerBefore(model, proc.dialectPrefix, |model|)
    && var fragment := templates[FragmentPath(proc)];
       WellPlaced(fragment, ExtractSlots(fragment, proc.dialectPrefix), ExtractSlotContents(model, proc.dialectPrefix).value)
  }

  /** A composable invocation becomes one `th:block` element around the
      fragment body with every placeholder subtree replaced by its slot's
      content. */
  lemma ProcessSplices<V>(proc: ComponentProcessor, model: seq<Event>, templates: map<string, seq<Event>>,
                          eval: string -> Option<V>, show: V -> string, order: seq<string>,
                          openId: EventId, closeId: EventId)
    requires OrdersSlots(proc, templates, order) && Composable(proc, model, templates)
    ensures var r := Process(proc, model, templates, eval, show, order, openId, closeId);
      var tag := model[FirstElementTag(model).value];
      var fragment := templates[FragmentPath(proc)];
      var slots := ExtractSlots(fragment, proc.dialectPrefix);
      var contents := ExtractSlotContents(model, proc.dialectPrefix).value;
      && r.Success?
      && r.value.model == [OpenTag(openId, BlockName, BlockAttributes(AdditionalAttributes(tag.attributes, proc.dialectPrefix, eval), show))]
           + Spliced(FragmentBody(fragment), SlotPlan(fragment, slots, contents, order))
           + [CloseTag(closeId, BlockName)]
  {
    var fragment := templates[FragmentPath(proc)];
    var slots := ExtractSlots(fragment, proc.dialectPrefix);
    var contents := ExtractSlotContents(model, proc.dialectPrefix).value;
    FillSlotsSplices(fragment, slots, contents, order);
  }

  /** For a composable invocation the iteration order of the fragment's slot
      map does not matter. */
  lemma ProcessOrderIndependent<V>(proc: ComponentProcessor, model: seq<Event>, templates: map<string, seq<Event>>,
                                   eval: string -> Option<V>, show: V -> string, o1: seq<string>, o2: seq<string>,
                                   openId: EventId, closeId: EventId)
    requires OrdersSlots(proc, templates, o1) && OrdersSlots(proc, templates, o2) && Composable(proc, model, templates)
    ensures Process(proc, model, templates, eval, show, o1, openId, closeId) == Process(proc, model, templates, eval, show, o2, openId, closeId)
  {
    var fragment := templates[FragmentPath(proc)];
    var slots := ExtractSlots(fragment, proc.dialectPrefix);
    var contents := ExtractSlotContents(model, proc.dialectPrefix).value;
    FillSlotsOrderIndependent(fragment, slots, contents, o1, o2);
  }

  /** Placeholders found by extractSlots are open or standalone tags. */
  lemma ExtractedPlaceholders(fragment: seq<Event>, prefix: string)
    ensures ElementPlaceholders(ExtractSlots(fragment, prefix))
  {
    var slots := ExtractSlots(fragment, prefix);
    forall name | name in slots
      ensures slots[name].IsElementTag()
    {
      var i: nat :| LastDeclaration(fragment, prefix, |fragment|, name, i) && fragment[i] == slots[name];
    }
  }

  /** A composable invocation with well-formed slot contents yields a
      well-formed model. */
  lemma ProcessWellFormed<V>(proc: ComponentProcessor, model: seq<Event>, templates: map<string, seq<Event>>,
                             eval: string -> Option<V>, show: V -> string, order: seq<string>,
                             openId: EventId, closeId: EventId)
    requires OrdersSlots(proc, templates, order) && Composable(proc, model, templates)
    requires BalancedContents(ExtractSlotContents(model, proc.dialectPrefix).value)
    ensures Process(proc, model, templates, eval, show, order, openId, closeId).Success?
    ensures WellFormed(Process(proc, model, templates, eval, show, order, openId, closeId).value.model)
  {
    var tag := model[FirstElementTag(model).value];
    var fragment := templates[FragmentPath(proc)];
    var slots := ExtractSlots(fragment, proc.dialectPrefix);
    var contents := ExtractSlotContents(model, proc.dialectPrefix).value;
    ExtractedPlaceholders(fragment, proc.dialectPrefix);
    PrepareModelWellFormed(fragment, BlockAttributes(AdditionalAttributes(tag.attributes, proc.dialectPrefix, eval), show), slots, contents, order, openId, closeId);
  }

  /** `<pl:button>hi</pl:button>` calling the fragment
      `<div th:fragment="button"><pl:slot/></div>` meets every demand the
      composition lemmas make: the text goes to the default slot, and the
      fragment's one placeholder lies inside its root. */
  lemma ComposableButton(proc: ComponentProcessor, model: seq<Event>, templates: map<string, seq<Event>>)
    requires proc == ComponentProcessor("pl", "button", None)
    requires model == [OpenTag(1, "pl:button", map[]), Text(2, "hi"), CloseTag(3, "pl:button")]
    requires templates == map["pl/button/button" := [OpenTag(10, "div", map[FragmentAttribute := "button"]),
                                                     StandaloneTag(11, "pl:slot", map[]), CloseTag(12, "div")]]
    ensures Composable(proc, model, templates) && OrdersSlots(proc, templates, [DefaultSlotName])
  {
    var fragment := [OpenTag(10, "div", map[FragmentAttribute := "button"]), StandaloneTag(11, "pl:slot", map[]), CloseTag(12, "div")];
    var slots := map[DefaultSlotName := StandaloneTag(11, "pl:slot", map[])];
    var contents := map[DefaultSlotName := [Text(2, "hi")]];
    ButtonProcessor(proc, model, templates, fragment);
    ButtonFragmentSlots(fragment);
    ButtonCallSite(model);
    ButtonFragment(fragment, [Text(2, "hi")]);
    ComposableOf(proc, model, templates, fragment, slots, contents, [DefaultSlotName]);
  }

  /** The processor loads the button fragment and accepts the button tag. */
  lemma ButtonProcessor(proc: ComponentProcessor, model: seq<Event>, templates: map<string, seq<Event>>, fragment: seq<Event>)
    requires proc == ComponentProcessor("pl", "button", None)
    requires model == [OpenTag(1, "pl:button", map[]), Text(2, "hi"), CloseTag(3, "pl:button")]
    requires templates == map["pl/button/button" := fragment]
    ensures proc.dialectPrefix == "pl"
    ensures FragmentPath(proc) in templates && templates[FragmentPath(proc)] == fragment
    ensures model[0].IsElementTag() && IsValidComponentTag(proc, model[0])
  {
    assert FragmentPath(proc) == "pl/button/button";
    assert "pl:" <= "pl:button";
  }

  /** Composability assembled from its parts. */
  lemma ComposableOf(proc: ComponentProcessor, model: seq<Event>, templates: map<string, seq<Event>>,
                     fragment: seq<Event>, slots: map<string, Event>, contents: map<string, seq<Event>>, order: seq<string>)
    requires FirstElementTag(model).Some? && IsValidComponentTag(proc, model[FirstElementTag(model).value])
    requires FragmentPath(proc) in templates && templates[FragmentPath(proc)] == fragment
    requires ExtractSlots(fragment, proc.dialectPrefix) == slots && IsEnumeration(order, slots.Keys)
    requires ExtractSlotContents(model, proc.dialectPrefix) == Success(contents)
    requires WellPlaced(fragment, slots, contents)
    ensures Composable(proc, model, templates) && OrdersSlots(proc, templates, order)
  {
  }

  /** Only the fragment's `pl:slot` tag is a placeholder, for the default slot. */
  lemma ButtonPlaceholders(fragment: seq<Event>)
    requires fragment == [OpenTag(10, "div", map[FragmentAttribute := "button"]),
                          StandaloneTag(11, "pl:slot", map[]), CloseTag(12, "div")]
    ensures forall i :: 0 <= i < |fragment| ==> Placeholder(fragment[i], "pl") == if i == 1 then Some(DefaultSlotName) else None
  {
  }

  /** The fragment declares one placeholder, for the default slot. */
  lemma ButtonFragmentSlots(fragment: seq<Event>)
    requires fragment == [OpenTag(10, "div", map[FragmentAttribute := "button"]),
                          StandaloneTag(11, "pl:slot", map[]), CloseTag(12, "div")]
    ensures ExtractSlots(fragment, "pl") == map[DefaultSlotName := StandaloneTag(11, "pl:slot", map[])]
  {
    ButtonPlaceholders(fragment);
    var slots := ExtractSlots(fragment, "pl");
    assert Placeholder(fragment[1], "pl") == Some(DefaultSlotName);
    assert DeclaredBefore(fragment, "pl", |fragment|, DefaultSlotName);
    forall name | name in slots
      ensures name == DefaultSlotName && slots[name] == fragment[1]
    {
      var i: nat :| LastDeclaration(fragment, "pl", |fragment|, name, i) && fragment[i] == slots[name];
    }
  }

  /** The root `div` spans the whole fragment, which is balanced. */
  lemma ButtonRoot(fragment: seq<Event>)
    requires fragment == [OpenTag(10, "div", map[FragmentAttribute := "button"]),
                          StandaloneTag(11, "pl:slot", map[]), CloseTag(12, "div")]
    ensures UniqueIds(fragment) && SubTreeFrom(fragment, 10) == fragment && Depth(fragment) == 0
  {
    assert IndexOf(fragment, 10) == 0;
    assert DepthBetween(fragment, 0, 2) == 1;
    assert SpanEnd(fragment, 0, 1) == 3;
    assert fragment[0..3] == fragment;
    var t := fragment[1..];
    assert t[1..] == [CloseTag(12, "div")];
    assert Depth([CloseTag(12, "div")]) == Delta(CloseTag(12, "div")) + Depth([CloseTag(12, "div")][1..]);
    assert [CloseTag(12, "div")][1..] == [];
  }

  /** The fragment is rooted at its `div`, the placeholder lies strictly
      inside it, and call-site content with other identities is well placed. */
  lemma ButtonFragment(fragment: seq<Event>, content: seq<Event>)
    requires fragment == [OpenTag(10, "div", map[FragmentAttribute := "button"]),
                          StandaloneTag(11, "pl:slot", map[]), CloseTag(12, "div")]
    requires Ids(content) !! {10, 11, 12}
    ensures WellPlaced(fragment, map[DefaultSlotName := StandaloneTag(11, "pl:slot", map[])], map[DefaultSlotName := content])
  {
    ButtonPlaceholderInside(fragment);
    assert Ids(fragment) == {10, 11, 12};
    WellPlacedSingle(fragment, DefaultSlotName, StandaloneTag(11, "pl:slot", map[]), content);
  }

  /** The placeholder's subtree is the placeholder alone, strictly inside the root. */
  lemma ButtonPlaceholderInside(fragment: seq<Event>)
    requires fragment == [OpenTag(10, "div", map[FragmentAttribute := "button"]),
                          StandaloneTag(11, "pl:slot", map[]), CloseTag(12, "div")]
    ensures Rooted(fragment) && InsideRoot(fragment, StandaloneTag(11, "pl:slot", map[]))
  {
    ButtonRoot(fragment);
    assert FirstOpenWithAttribute(fragment, FragmentAttribute) == Some(0);
    assert IndexOf(fragment, 11) == 1;
    assert SubTreeFrom(fragment, 11) == [fragment[1]];
  }

  /** The call site's body is its text, and no event of it is marked for a slot. */
  lemma ButtonCallSiteBody(model: seq<Event>)
    requires model == [OpenTag(1, "pl:button", map[]), Text(2, "hi"), CloseTag(3, "pl:button")]
    ensures FirstElementTag(model) == Some(0)
    ensures CallSiteBody(model) == [Text(2, "hi")]
    ensures forall i :: 0 <= i < |model| ==> SlotMarker(model[i], "pl") == None
  {
    assert FirstElementTag(model) == Some(0);
    assert UniqueIds(model);
    assert IndexOf(model, 1) == 0;
    assert DepthBetween(model, 0, 2) == 1;
    assert SpanEnd(model, 0, 1) == 3;
    assert model[0..3] == model;
  }

  /** The call site's text is its default-slot content. */
  lemma ButtonCallSite(model: seq<Event>)
    requires model == [OpenTag(1, "pl:button", map[]), Text(2, "hi"), CloseTag(3, "pl:button")]
    ensures FirstElementTag(model) == Some(0)
    ensures ExtractSlotContents(model, "pl") == Success(map[DefaultSlotName := [Text(2, "hi")]])
    ensures Ids([Text(2, "hi")]) !! {10, 11, 12}
  {
    ButtonCallSiteBody(model);
    Unmarked(model, "pl");
    var contents := ExtractSlotContents(model, "pl").value;
    assert RemoveIds([Text(2, "hi")], {}) == [Text(2, "hi")] by {
      assert [Text(2, "hi")][1..] == [];
    }
    assert contents.Keys == {DefaultSlotName};
    assert [Text(2, "hi")][0] in [Text(2, "hi")];
  }
}

=== FILE: slots.dfy ===
/** Both sides of slot resolution: the call site's slot contents
    (`extractSlotContents`) and the fragment's slot placeholders
    (`extractSlots`, `isSlot`, `slotNameOf`). */
module Slots {
  import opened Wrappers
  import opened Errors
  import opened Events
  import opened SubTree
  import Tables

  /** DEFAULT_SLOT_NAME: the processor's class name followed by ".default". */
  const DefaultSlotName: string := "personal.cstettler.thymeleaf.dialect.ComponentModelProcessor.default"

  /** The value of the `prefix:slot` attribute of an open or standalone tag, if any. */
  function SlotMarker(e: Event, prefix: string): Option<string> {
    if e.IsElementTag() && prefix + ":slot" in e.attributes then Some(e.attributes[prefix + ":slot"])
    else None
  }

  /** Some event before position `n` is marked as content for slot `name`. */
  ghost predicate MarkedBefore(model: seq<Event>, prefix: string, n: nat, name: string)
    requires n <= |model|
  {
    exists i :: 0 <= i < n && SlotMarker(model[i], prefix) == Some(name)
  }

  /** Two events before position `n` are marked for the same slot. */
  ghost predicate DuplicateMarkerBefore(model: seq<Event>, prefix: string, n: nat)
    requires n <= |model|
  {
    exists i, j :: 0 <= i < j < n && SlotMarker(model[i], prefix).Some? && SlotMarker(model[i], prefix) == SlotMarker(model[j], prefix)
  }

  /** Every event with the slot it is marked for, if any, and its subtree. */
  function SlotEntries(model: seq<Event>, prefix: string): (r: seq<(Option<string>, seq<Event>)>)
    ensures |r| == |model|
    ensures forall i :: 0 <= i < |model| ==> r[i] == (SlotMarker(model[i], prefix), SubTreeFrom(model, model[i].id))
  {
    seq(|model|, i requires 0 <= i < |model| => (SlotMarker(model[i], prefix), SubTreeFrom(model, model[i].id)))
  }

  /** Among the first `n` events, the entries carry a name exactly where the
      model marks it, and repeat a name exactly where the model marks it twice. */
  lemma SlotEntriesMarks(model: seq<Event>, prefix: string, n: nat)
    requires n <= |model|
    ensures forall name :: Tables.Tagged(SlotEntries(model, prefix), n, name) <==> MarkedBefore(model, prefix, n, name)
    ensures Tables.Repeated(SlotEntries(model, prefix), n) <==> DuplicateMarkerBefore(model, prefix, n)
  {
    var entries := SlotEntries(model, prefix);
    forall name
      ensures Tables.Tagged(entries, n, name) <==> MarkedBefore(model, prefix, n, name)
    {
      if Tables.Tagged(entries, n, name) {
        var i :| 0 <= i < n && entries[i].0 == Some(name);
        assert SlotMarker(model[i], prefix) == Some(name);
      }
      if MarkedBefore(model, prefix, n, name) {
        var i :| 0 <= i < n && SlotMarker(model[i], prefix) == Some(name);
        assert entries[i].0 == Some(name);
      }
    }
    if Tables.Repeated(entries, n) {
      var i, j :| 0 <= i < j < n && entries[i].0.Some? && entries[i].0 == entries[j].0;
      assert SlotMarker(model[i], prefix) == entries[i].0 && SlotMarker(model[j], prefix) == entries[j].0;
    }
    if DuplicateMarkerBefore(model, prefix, n) {
      var i, j :| 0 <= i < j < n && SlotMarker(model[i], prefix).Some? && SlotMarker(model[i], prefix) == SlotMarker(model[j], prefix);
      assert entries[i].0 == SlotMarker(model[i], prefix) && entries[j].0 == SlotMarker(model[j], prefix);
    }
  }

  /** The `j`-th event is where a second marker first occurs: it is marked for
      `name`, an earlier event is too, and no two events before it share a
      marker. */
  ghost predicate FirstDuplicateAt(model: seq<Event>, prefix: string, j: nat, name: string)
    requires j < |model|
  {
    SlotMarker(model[j], prefix) == Some(name) && MarkedBefore(model, prefix, j, name) && !DuplicateMarkerBefore(model, prefix, j)
  }

  /** The first repetition among the entries is the first repeated marker. */
  lemma FirstRepeatIsFirstDuplicate(model: seq<Event>, prefix: string, j: nat, name: string)
    requires j < |model| && Tables.FirstRepeatAt(SlotEntries(model, prefix), j, name)
    ensures FirstDuplicateAt(model, prefix, j, name)
  {
    SlotEntriesMarks(model, prefix, j);
  }

  /** A model without slot markers marks nothing, twice or at all. */
  lemma Unmarked(model: seq<Event>, prefix: string)
    requires forall i :: 0 <= i < |model| ==> SlotMarker(model[i], prefix) == None
    ensures !DuplicateMarkerBefore(model, prefix, |model|)
    ensures NamedSubtreeIds(model, prefix) == {}
    ensures forall name :: !MarkedBefore(model, prefix, |model|, name)
  {
  }

  /** The loop of extractSlotContents (ComponentModelProcessor.java:84-97):
      every marked tag's subtree is recorded under its slot name, and a name
      met a second time aborts. */
  function CollectSlotContents(model: seq<Event>, prefix: string): (r: Result<map<string, seq<Event>>, Error>)
    ensures r.Failure? <==> DuplicateMarkerBefore(model, prefix, |model|)
    ensures r.Failure? ==> r.error.DuplicateSlot?
    ensures r.Failure? ==> exists j :: 0 <= j < |model| && FirstDuplicateAt(model, prefix, j, r.error.name)
    ensures r.Success? ==> forall name :: name in r.value <==> MarkedBefore(model, prefix, |model|, name)
    ensures r.Success? ==> forall i :: 0 <= i < |model| && SlotMarker(model[i], prefix).Some? ==>
      && SlotMarker(model[i], prefix).value in r.value
      && r.value[SlotMarker(model[i], prefix).value] == SubTreeFrom(model, model[i].id)
  {
    var entries := SlotEntries(model, prefix);
    SlotEntriesMarks(model, prefix, |model|);
    match Tables.Distinct(entries, |model|)
    case Failure(name) =>
      assert exists j :: 0 <= j < |model| && FirstDuplicateAt(model, prefix, j, name) by {
        var j :| 0 <= j < |model| && Tables.FirstRepeatAt(entries, j, name);
        FirstRepeatIsFirstDuplicate(model, prefix, j, name);
      }
      Failure(DuplicateSlot(name))
    case Success(slots) =>
      assert forall i :: 0 <= i < |model| ==> entries[i] == (SlotMarker(model[i], prefix), SubTreeFrom(model, model[i].id));
      Success(slots)
  }

  /** Position of the first open or standalone tag (firstOpenOrStandaloneElementTag). */
  function FirstElementTag(model: seq<Event>): (r: Option<nat>)
    ensures r.Some? ==> r.value < |model| && model[r.value].IsElementTag()
    ensures r.Some? ==> forall k :: 0 <= k < r.value ==> !model[k].IsElementTag()
    ensures r.None? ==> forall k :: 0 <= k < |model| ==> !model[k].IsElementTag()
  {
    FirstElementTagFrom(model, 0)
  }

  function FirstElementTagFrom(model: seq<Event>, i: nat): (r: Option<nat>)
    requires i <= |model|
    ensures r.Some? ==> i <= r.value < |model| && model[r.value].IsElementTag()
    ensures r.Some? ==> forall k :: i <= k < r.value ==> !model[k].IsElementTag()
    ensures r.None? ==> forall k :: i <= k < |model| ==> !model[k].IsElementTag()
    decreases |model| - i
  {
    if i == |model| then None
    else if model[i].IsElementTag() then Some(i)
    else FirstElementTagFrom(model, i + 1)
  }

  /** The invocation's body: what lies inside the component tag, the first
      open or standalone tag of the invocation model. */
  function CallSiteBody(model: seq<Event>): seq<Event> {
    match FirstElementTag(model)
    case None => []
    case Some(i) => SubTreeBelow(model, model[i].id)
  }

  /** Identities of every event inside some marked element's subtree. */
  ghost function NamedSubtreeIds(model: seq<Event>, prefix: string): set<EventId> {
    set i, e | 0 <= i < |model| && SlotMarker(model[i], prefix).Some? && e in SubTreeFrom(model, model[i].id) :: e.id
  }

  /** Identities of every event recorded in some slot content. */
  function ContentIds(contents: map<string, seq<Event>>): set<EventId> {
    set name, e | name in contents && e in contents[name] :: e.id
  }

  lemma CollectedContentIds(model: seq<Event>, prefix: string)
    requires CollectSlotContents(model, prefix).Success?
    ensures ContentIds(CollectSlotContents(model, prefix).value) == NamedSubtreeIds(model, prefix)
  {
    var named := CollectSlotContents(model, prefix).value;
    forall x | x in ContentIds(named)
      ensures x in NamedSubtreeIds(model, prefix)
    {
      var name: string, e: Event :| name in named && e in named[name] && e.id == x;
      assert MarkedBefore(model, prefix, |model|, name);
      var i :| 0 <= i < |model| && SlotMarker(model[i], prefix) == Some(name);
      assert named[name] == SubTreeFrom(model, model[i].id);
      assert e in SubTreeFrom(model, model[i].id);
    }
    forall x | x in NamedSubtreeIds(model, prefix)
      ensures x in ContentIds(named)
    {
      var i: int, e: Event :| 0 <= i < |model| && SlotMarker(model[i], prefix).Some? && e in SubTreeFrom(model, model[i].id) && e.id == x;
      var name := SlotMarker(model[i], prefix).value;
      assert name in named && named[name] == SubTreeFrom(model, model[i].id);
      assert e in named[name];
    }
  }

  /** extractSlotContents (ComponentModelProcessor.java:81-104): the named slot
      contents of an invocation plus its default-slot content, or an error when
      two elements are marked for the same slot. */
  function ExtractSlotContents(model: seq<Event>, prefix: string): (r: Result<map<string, seq<Event>>, Error>)
    ensures r.Failure? <==> DuplicateMarkerBefore(model, prefix, |model|)
    ensures r.Failure? ==> r.error.DuplicateSlot?
    ensures r.Failure? ==> exists j :: 0 <= j < |model| && FirstDuplicateAt(model, prefix, j, r.error.name)
    ensures r.Success? ==> forall name :: name in r.value <==> name == DefaultSlotName || MarkedBefore(model, prefix, |model|, name)
    ensures r.Success? ==> forall i :: 0 <= i < |model| && SlotMarker(model[i], prefix).Some? && SlotMarker(model[i], prefix).value != DefaultSlotName ==>
      SlotMarker(model[i], prefix).value in r.value && r.value[SlotMarker(model[i], prefix).value] == SubTreeFrom(model, model[i].id)
    ensures r.Success? ==> r.value[DefaultSlotName] == RemoveIds(CallSiteBody(model), NamedSubtreeIds(model, prefix))
  {
    var named :- CollectSlotContents(model, prefix);
    CollectedContentIds(model, prefix);
    var defaultContent := RemoveIds(CallSiteBody(model), ContentIds(named));
    Success(named[DefaultSlotName := defaultContent])
  }

  /** isSlot (ComponentModelProcessor.java:181-187): an open or standalone tag
      whose complete name is exactly `prefix:slot`. */
  predicate IsSlot(e: Event, prefix: string) {
    e.IsElementTag() && e.name == prefix + ":slot"
  }

  /** slotNameOf (ComponentModelProcessor.java:193-197): the `prefix:name`
      attribute, or the default slot name when there is none. */
  function SlotNameOf(e: Event, prefix: string): string
    requires e.IsElementTag()
  {
    if prefix + ":name" in e.attributes then e.attributes[prefix + ":name"] else DefaultSlotName
  }

  /** The slot an event is a placeholder for, if it is one. */
  function Placeholder(e: Event, prefix: string): Option<string> {
    if IsSlot(e, prefix) then Some(SlotNameOf(e, prefix)) else None
  }

  /** Some event before position `n` is a placeholder for `name`. */
  ghost predicate DeclaredBefore(fragment: seq<Event>, prefix: string, n: nat, name: string)
    requires n <= |fragment|
  {
    exists i :: 0 <= i < n && Placeholder(fragment[i], prefix) == Some(name)
  }

  /** Position `i` holds the last placeholder for `name` among the first `n` events. */
  ghost predicate LastDeclaration(fragment: seq<Event>, prefix: string, n: nat, name: string, i: nat)
    requires n <= |fragment|
  {
    && i < n
    && Placeholder(fragment[i], prefix) == Some(name)
    && forall j :: i < j < n ==> Placeholder(fragment[j], prefix) != Some(name)
  }

  /** Every event with the slot it is a placeholder for, if any. */
  function PlaceholderEntries(fragment: seq<Event>, prefix: string): (r: seq<(Option<string>, Event)>)
    ensures |r| == |fragment|
    ensures forall i :: 0 <= i < |fragment| ==> r[i] == (Placeholder(fragment[i], prefix), fragment[i])
  {
    seq(|fragment|, i requires 0 <= i < |fragment| => (Placeholder(fragment[i], prefix), fragment[i]))
  }

  /** The entries carry a name exactly where the fragment declares it. */
  lemma PlaceholderEntriesDeclare(fragment: seq<Event>, prefix: string, name: string)
    ensures Tables.Tagged(PlaceholderEntries(fragment, prefix), |fragment|, name) <==> DeclaredBefore(fragment, prefix, |fragment|, name)
  {
    var entries := PlaceholderEntries(fragment, prefix);
    if Tables.Tagged(entries, |fragment|, name) {
      var i :| 0 <= i < |fragment| && entries[i].0 == Some(name);
      assert Placeholder(fragment[i], prefix) == Some(name);
    }
    if DeclaredBefore(fragment, prefix, |fragment|, name) {
      var i :| 0 <= i < |fragment| && Placeholder(fragment[i], prefix) == Some(name);
      assert entries[i].0 == Some(name);
    }
  }

  /** The last entry with a name is the fragment's last placeholder for it. */
  lemma PlaceholderEntriesLast(fragment: seq<Event>, prefix: string, name: string, i: nat)
    requires Tables.LastTagged(PlaceholderEntries(fragment, prefix), |fragment|, name, i)
    ensures LastDeclaration(fragment, prefix, |fragment|, name, i)
  {
    var entries := PlaceholderEntries(fragment, prefix);
    forall j | i < j < |fragment|
      ensures Placeholder(fragment[j], prefix) != Some(name)
    {
      assert entries[j].0 != Some(name);
    }
  }

  /** extractSlots (ComponentModelProcessor.java:106-116): each slot name
      declared in the fragment mapped to its last placeholder, as `put`
      silently replaces an earlier placeholder for the same name. */
  function ExtractSlots(fragment: seq<Event>, prefix: string): (r: map<string, Event>)
    ensures forall name :: name in r <==> DeclaredBefore(fragment, prefix, |fragment|, name)
    ensures forall name :: name in r ==> exists i: nat :: LastDeclaration(fragment, prefix, |fragment|, name, i) && fragment[i] == r[name]
  {
    var entries := PlaceholderEntries(fragment, prefix);
    var r := Tables.LastWins(entries, |fragment|);
    forall name
      ensures name in r <==> DeclaredBefore(fragment, prefix, |fragment|, name)
    {
      PlaceholderEntriesDeclare(fragment, prefix, name);
    }
    forall name | name in r
      ensures exists i: nat :: LastDeclaration(fragment, prefix, |fragment|, name, i) && fragment[i] == r[name]
    {
      Tables.LastWinsKeepsLast(entries, |fragment|, name);
      var i: nat :| Tables.LastTagged(entries, |fragment|, name, i) && entries[i].1 == r[name];
      PlaceholderEntriesLast(fragment, prefix, name, i);
    }
    r
  }
}

=== FILE: subtree.dfy ===
/** Bracket matching over the flat event list: `subTreeFrom` and `subTreeBelow`
    of ComponentModelProcessor.

    `Scan` is the Java loop itself, one call per loop iteration; `Span` is an
    independent description of the same span (the start event, then everything
    up to the first point where the open/close depth is back to zero), and
    `ScanMatchesSpan` proves the two agree. */
module SubTree {
  import opened Events

  /** Iteration `i` of the loop in `subTreeFrom`, with `found` and `depth` the
      loop's flag and counter of unclosed open tags. */
  function Scan(model: seq<Event>, start: EventId, i: nat, found: bool, depth: int): seq<Event>
    requires i <= |model|
    decreases |model| - i
  {
    if i == |model| then []
    else
      var e := model[i];
      var isStart := e.id == start;
      var found' := found || isStart;
      var taken := (if isStart then [e] else []) + (if found' && depth > 0 then [e] else []);
      var depth' := if found' then depth + Delta(e) else depth;
      if found' && depth' == 0 then taken
      else taken + Scan(model, start, i + 1, found', depth')
  }

  /** Open tags minus close tags among `model[s..k]`. */
  function DepthBetween(model: seq<Event>, s: nat, k: nat): int
    requires s <= k <= |model|
    decreases k - s
  {
    if k == s then 0 else DepthBetween(model, s, k - 1) + Delta(model[k - 1])
  }

  /** The first `e >= j` at which the events from `s` are balanced again, or the
      end of the model when that never happens. */
  function SpanEnd(model: seq<Event>, s: nat, j: nat): (e: nat)
    requires s < j <= |model|
    ensures j <= e <= |model|
    ensures e == |model| || DepthBetween(model, s, e) == 0
    decreases |model| - j
  {
    if j == |model| || DepthBetween(model, s, j) == 0 then j else SpanEnd(model, s, j + 1)
  }

  /** `SpanEnd` is the first such point: before it the events from `s` are
      never balanced. */
  lemma {:induction false} SpanEndFirst(model: seq<Event>, s: nat, j: nat, k: nat)
    requires s < j <= |model|
    requires j <= k < SpanEnd(model, s, j)
    ensures DepthBetween(model, s, k) != 0
    decreases k - j
  {
    if k > j {
      SpanEndFirst(model, s, j + 1, k);
    }
  }

  /** Reference description of the span starting at the event `start`: nothing
      when it does not occur, the event alone unless it is an open tag, and
      otherwise everything up to its matching close tag. */
  function Span(model: seq<Event>, start: EventId): seq<Event>
  {
    var s := IndexOf(model, start);
    if s == -1 then []
    else if model[s].OpenTag? then model[s..SpanEnd(model, s, s + 1)]
    else [model[s]]
  }

  /** subTreeFrom (ComponentModelProcessor.java:271-305). */
  function SubTreeFrom(model: seq<Event>, start: EventId): (r: seq<Event>)
    ensures start !in Ids(model) ==> r == []
    ensures UniqueIds(model) ==> r == Span(model, start)
  {
    ScanMatchesSpan(model, start);
    Scan(model, start, 0, false, 0)
  }

  /** subTreeBelow (ComponentModelProcessor.java:265-269): the span without its
      first and last event, or nothing when the span has fewer than two. */
  function SubTreeBelow(model: seq<Event>, start: EventId): seq<Event>
  {
    var t := SubTreeFrom(model, start);
    if |t| < 2 then [] else t[1..|t| - 1]
  }

  lemma {:induction false} DepthBetweenIsDepth(model: seq<Event>, s: nat, k: nat)
    requires s <= k <= |model|
    ensures DepthBetween(model, s, k) == Depth(model[s..k])
    decreases k - s
  {
    if k > s {
      DepthBetweenIsDepth(model, s, k - 1);
      assert model[s..k] == model[s..k - 1] + [model[k - 1]];
      DepthConcat(model[s..k - 1], [model[k - 1]]);
    }
  }

  /** Before the start event is met the loop takes nothing and keeps its counter. */
  lemma {:induction false} ScanBeforeStart(model: seq<Event>, start: EventId, i: nat, s: nat, depth: int)
    requires i <= s <= |model|
    requires forall k :: i <= k < s ==> model[k].id != start
    ensures Scan(model, start, i, false, depth) == Scan(model, start, s, false, depth)
    decreases s - i
  {
    if i < s {
      ScanBeforeStart(model, start, i + 1, s, depth);
    }
  }

  /** After a close tag as start event the counter stays negative: nothing more is taken. */
  lemma {:induction false} ScanBelowZero(model: seq<Event>, start: EventId, i: nat, depth: int)
    requires i <= |model|
    requires depth < 0
    requires forall k :: i <= k < |model| ==> model[k].id != start
    ensures Scan(model, start, i, true, depth) == []
    decreases |model| - i
  {
    if i < |model| && depth + Delta(model[i]) != 0 {
      ScanBelowZero(model, start, i + 1, depth + Delta(model[i]));
    }
  }

  /** Inside an open element the loop copies events until the depth is back to zero. */
  lemma {:induction false} ScanInside(model: seq<Event>, start: EventId, s: nat, i: nat)
    requires s < i <= |model|
    requires DepthBetween(model, s, i) > 0
    requires forall k :: i <= k < |model| ==> model[k].id != start
    ensures Scan(model, start, i, true, DepthBetween(model, s, i)) == model[i..SpanEnd(model, s, i)]
    decreases |model| - i
  {
    if i < |model| {
      assert model[i].id != start;
      if DepthBetween(model, s, i + 1) != 0 {
        ScanInside(model, start, s, i + 1);
        ScanInsideNext(model, start, s, i);
      } else {
        ScanInsideLast(model, start, s, i);
      }
    }
  }

  /** An iteration inside the span that does not close it adds its event to
      what the following iterations take. */
  lemma ScanInsideNext(model: seq<Event>, start: EventId, s: nat, i: nat)
    requires s < i < |model| && model[i].id != start
    requires DepthBetween(model, s, i) > 0 && DepthBetween(model, s, i + 1) != 0
    requires Scan(model, start, i + 1, true, DepthBetween(model, s, i + 1)) == model[i + 1..SpanEnd(model, s, i + 1)]
    ensures Scan(model, start, i, true, DepthBetween(model, s, i)) == model[i..SpanEnd(model, s, i)]
  {
    var d' := DepthBetween(model, s, i + 1);
    var end := SpanEnd(model, s, i + 1);
    ScanInsideStep(model, start, s, i, d', end);
    SliceFirst(model, i, end);
  }

  /** The iteration that closes the span takes its event and stops. */
  lemma ScanInsideLast(model: seq<Event>, start: EventId, s: nat, i: nat)
    requires s < i < |model| && model[i].id != start
    requires DepthBetween(model, s, i) > 0 && DepthBetween(model, s, i + 1) == 0
    ensures Scan(model, start, i, true, DepthBetween(model, s, i)) == model[i..SpanEnd(model, s, i)]
  {
    ScanInsideStep(model, start, s, i, 0, SpanEnd(model, s, i + 1));
  }

  lemma SliceFirst<T>(s: seq<T>, i: nat, j: nat)
    requires i < j <= |s|
    ensures s[i..j] == [s[i]] + s[i + 1..j]
  {
  }

  /** One iteration inside the span: the event is taken, and the loop stops
      exactly where the span ends. */
  lemma ScanInsideStep(model: seq<Event>, start: EventId, s: nat, i: nat, d': int, end: nat)
    requires s < i < |model|
    requires DepthBetween(model, s, i) > 0 && model[i].id != start
    requires d' == DepthBetween(model, s, i + 1) && end == SpanEnd(model, s, i + 1)
    ensures Scan(model, start, i, true, DepthBetween(model, s, i)) ==
      [model[i]] + (if d' == 0 then [] else Scan(model, start, i + 1, true, d'))
    ensures SpanEnd(model, s, i) == end
    ensures d' == 0 ==> end == i + 1
  {
    assert d' == DepthBetween(model, s, i) + Delta(model[i]);
  }

  /** The iteration that meets the start event takes it, and stops right there
      unless it is an open or a close tag. */
  lemma ScanAtStart(model: seq<Event>, start: EventId, s: nat)
    requires s < |model| && model[s].id == start
    ensures Scan(model, start, s, false, 0) ==
      [model[s]] + (if Delta(model[s]) == 0 then [] else Scan(model, start, s + 1, true, Delta(model[s])))
  {
  }

  lemma ScanFromOpen(model: seq<Event>, start: EventId, s: nat, end: nat)
    requires s < |model| && model[s].id == start && model[s].OpenTag?
    requires forall k :: s + 1 <= k < |model| ==> model[k].id != start
    requires end == SpanEnd(model, s, s + 1)
    ensures Scan(model, start, s, false, 0) == model[s..end]
  {
    assert Delta(model[s]) == 1;
    assert DepthBetween(model, s, s + 1) == 1 by {
      assert DepthBetween(model, s, s + 1) == DepthBetween(model, s, s) + Delta(model[s]);
    }
    var inner := Scan(model, start, s + 1, true, 1);
    ScanAtStart(model, start, s);
    assert Scan(model, start, s, false, 0) == [model[s]] + inner;
    ScanInside(model, start, s, s + 1);
    assert inner == model[s + 1..end];
    assert model[s..end] == [model[s]] + model[s + 1..end];
  }

  /** The Java loop computes the reference span. */
  lemma ScanMatchesSpan(model: seq<Event>, start: EventId)
    ensures start !in Ids(model) ==> Scan(model, start, 0, false, 0) == []
    ensures UniqueIds(model) ==> Scan(model, start, 0, false, 0) == Span(model, start)
  {
    var s := IndexOf(model, start);
    if s == -1 {
      assert forall k :: 0 <= k < |model| ==> model[k] in model;
      ScanBeforeStart(model, start, 0, |model|, 0);
    } else {
      ScanBeforeStart(model, start, 0, s, 0);
      if UniqueIds(model) {
        ScanFromStart(model, start, s);
      }
    }
  }

  /** With distinct events, the loop from the start event's position takes
      the reference span. */
  lemma ScanFromStart(model: seq<Event>, start: EventId, s: nat)
    requires UniqueIds(model) && s < |model| && model[s].id == start
    ensures Scan(model, start, s, false, 0) == Span(model, start)
  {
    IndexOfUnique(model, s);
    assert forall k :: s + 1 <= k < |model| ==> model[k].id != start;
    ScanAtStart(model, start, s);
    if model[s].OpenTag? {
      ScanFromOpen(model, start, s, SpanEnd(model, s, s + 1));
    } else if model[s].CloseTag? {
      ScanBelowZero(model, start, s + 1, -1);
    }
  }

  /** Between an open tag and its first return to depth zero the depth stays positive. */
  lemma {:induction false} DepthPositiveBeforeEnd(model: seq<Event>, s: nat, k: nat)
    requires s < |model| && model[s].OpenTag?
    requires s < k < SpanEnd(model, s, s + 1)
    ensures DepthBetween(model, s, k) > 0
    decreases k - s
  {
    if k > s + 1 {
      DepthPositiveBeforeEnd(model, s, k - 1);
      SpanEndFirst(model, s, s + 1, k);
    } else {
      assert DepthBetween(model, s, k) == DepthBetween(model, s, s) + Delta(model[s]);
    }
  }

  /** Every non-empty proper prefix of `r` leaves some open tag unclosed. */
  ghost predicate OpenThroughout(r: seq<Event>) {
    forall k :: 1 <= k < |r| ==> Depth(r[..k]) > 0
  }

  lemma SpanSlicePositive(model: seq<Event>, s: nat, k: nat)
    requires s < |model| && model[s].OpenTag?
    requires 1 <= k < SpanEnd(model, s, s + 1) - s
    ensures Depth(model[s..s + k]) > 0
  {
    SpanDepthPositive(model, s, k);
    DepthPositiveSlice(model, s, k);
  }

  lemma SpanDepthPositive(model: seq<Event>, s: nat, k: nat)
    requires s < |model| && model[s].OpenTag?
    requires 1 <= k < SpanEnd(model, s, s + 1) - s
    ensures DepthBetween(model, s, s + k) > 0
  {
    DepthPositiveBeforeEnd(model, s, s + k);
  }

  lemma DepthPositiveSlice(model: seq<Event>, s: nat, k: nat)
    requires s + k <= |model| && DepthBetween(model, s, s + k) > 0
    ensures Depth(model[s..s + k]) > 0
  {
    DepthBetweenIsDepth(model, s, s + k);
  }

  lemma SpanPrefixPositive(model: seq<Event>, s: nat, k: nat)
    requires s < |model| && model[s].OpenTag?
    requires 1 <= k < SpanEnd(model, s, s + 1) - s
    ensures Depth(model[s..SpanEnd(model, s, s + 1)][..k]) > 0
  {
    SpanSlicePositive(model, s, k);
    var e := SpanEnd(model, s, s + 1);
    assert model[s..e][..k] == model[s..s + k];
  }

  /** The span of an open tag: every proper prefix has more open than close
      tags, and it ends at the first return to depth zero or at the end of the model. */
  lemma SpanOfOpenTag(model: seq<Event>, s: nat)
    requires s < |model| && model[s].OpenTag?
    ensures var r := model[s..SpanEnd(model, s, s + 1)];
      && OpenThroughout(r)
      && (Depth(r) == 0 || s + |r| == |model|)
  {
    var e := SpanEnd(model, s, s + 1);
    forall k | 1 <= k < e - s
      ensures Depth(model[s..e][..k]) > 0
    {
      SpanPrefixPositive(model, s, k);
    }
    DepthBetweenIsDepth(model, s, e);
  }

  /** The span is a contiguous slice of the model beginning at the start event,
      and a single event unless that is an open tag. */
  lemma SpanIsSlice(model: seq<Event>, start: EventId)
    requires start in Ids(model)
    ensures var s, r := IndexOf(model, start), Span(model, start);
      && 1 <= |r|
      && s + |r| <= |model|
      && r == model[s..s + |r|]
      && r[0].id == start
      && (!r[0].OpenTag? ==> |r| == 1)
  {
    var s := IndexOf(model, start);
    if model[s].OpenTag? {
      SpanOfOpenSlice(model, s, SpanEnd(model, s, s + 1));
    } else {
      assert Span(model, start) == [model[s]];
      SliceOne(model, s);
    }
  }

  lemma SliceOne<T>(s: seq<T>, i: nat)
    requires i < |s|
    ensures s[i..i + 1] == [s[i]]
  {
    assert |s[i..i + 1]| == 1 && s[i..i + 1][0] == s[i];
  }

  lemma SpanOfOpenSlice(model: seq<Event>, s: nat, e: nat)
    requires s < |model| && e == SpanEnd(model, s, s + 1)
    ensures 1 <= |model[s..e]| && s + |model[s..e]| == e
    ensures model[s..e][0] == model[s]
  {
  }

  /** For an open tag the span is a bracket match: every non-empty proper prefix
      has more open than close tags, and the span stops at the first return to
      depth zero, running to the end of the model only when that never happens.
      So sibling elements after the matching close tag are never included. */
  lemma SpanShape(model: seq<Event>, start: EventId)
    requires start in Ids(model)
    ensures var s, r := IndexOf(model, start), Span(model, start);
      r[0].OpenTag? ==> OpenThroughout(r) && (Depth(r) == 0 || s + |r| == |model|)
  {
    SpanIsSlice(model, start);
    var s := IndexOf(model, start);
    if model[s].OpenTag? {
      SpanOfOpenTag(model, s);
    }
  }

  lemma BalancedSpanLength(t: seq<Event>)
    requires 1 <= |t| && t[0].OpenTag? && Depth(t) == 0
    ensures 2 <= |t|
  {
  }

  lemma BalancedSpanLast(t: seq<Event>)
    requires 2 <= |t| && t[0].OpenTag? && Depth(t) == 0 && OpenThroughout(t)
    ensures t[|t| - 1].CloseTag?
    ensures Depth(t[..|t| - 1]) == 1
  {
    var n := |t|;
    assert t == t[..n - 1] + [t[n - 1]];
    DepthConcat(t[..n - 1], [t[n - 1]]);
    assert Depth(t[..n - 1]) > 0;
  }

  lemma BalancedSpanInteriorDepth(t: seq<Event>)
    requires 2 <= |t| && t[0].OpenTag? && Depth(t[..|t| - 1]) == 1
    ensures Depth(t[1..|t| - 1]) == 0
  {
    var b := t[1..|t| - 1];
    assert t[..|t| - 1] == [t[0]] + b;
    DepthConcat([t[0]], b);
  }

  lemma BalancedSpanInteriorPrefix(t: seq<Event>, k: nat)
    requires 2 <= |t| && t[0].OpenTag? && OpenThroughout(t)
    requires k <= |t| - 2
    ensures Depth(t[1..|t| - 1][..k]) >= 0
  {
    var b := t[1..|t| - 1];
    PrefixOfInterior(t, k);
    DepthConcat([t[0]], b[..k]);
    assert Depth(t[..k + 1]) > 0;
  }

  lemma PrefixOfInterior<T>(t: seq<T>, k: nat)
    requires k + 2 <= |t|
    ensures t[..k + 1] == [t[0]] + t[1..|t| - 1][..k]
  {
    var b := t[1..|t| - 1];
    assert |t[..k + 1]| == |[t[0]] + b[..k]|;
    forall j | 0 <= j < k + 1
      ensures t[..k + 1][j] == ([t[0]] + b[..k])[j]
    {
      if j > 0 {
        assert ([t[0]] + b[..k])[j] == b[j - 1];
      }
    }
  }

  /** A balanced span opened by an open tag ends with its close tag, and what lies
      strictly between the two is itself well-formed. */
  lemma BalancedSpanInterior(t: seq<Event>)
    requires 1 <= |t| && t[0].OpenTag?
    requires Depth(t) == 0
    requires OpenThroughout(t)
    ensures 2 <= |t| && t[|t| - 1].CloseTag?
    ensures WellFormed(t[1..|t| - 1])
  {
    BalancedSpanLength(t);
    BalancedSpanLast(t);
    BalancedSpanInteriorDepth(t);
    var b := t[1..|t| - 1];
    forall k | 0 <= k <= |b|
      ensures Depth(b[..k]) >= 0
    {
      BalancedSpanInteriorPrefix(t, k);
    }
  }

  lemma IndexOfUnique(model: seq<Event>, s: nat)
    requires UniqueIds(model) && s < |model|
    ensures model[s].id in Ids(model)
    ensures IndexOf(model, model[s].id) == s
  {
    assert model[s] in model;
  }

  /** subTreeBelow of anything but an open tag is empty. */
  lemma SubTreeBelowOfNonOpen(model: seq<Event>, s: nat)
    requires UniqueIds(model) && s < |model|
    requires !model[s].OpenTag?
    ensures SubTreeBelow(model, model[s].id) == []
  {
    IndexOfUnique(model, s);
  }

  /** subTreeBelow of an open tag that is never closed: the span runs to the
      end of the model, and `subList(1, size - 1)` drops the model's last
      event whatever it is. */
  lemma SubTreeBelowOfUnclosed(model: seq<Event>, s: nat)
    requires UniqueIds(model) && s < |model|
    requires model[s].OpenTag? && Depth(SubTreeFrom(model, model[s].id)) != 0
    ensures SubTreeFrom(model, model[s].id) == model[s..]
    ensures SubTreeBelow(model, model[s].id) == if s + 2 <= |model| then model[s + 1..|model| - 1] else []
  {
    IndexOfUnique(model, s);
    var e := SpanEnd(model, s, s + 1);
    assert SubTreeFrom(model, model[s].id) == model[s..e];
    if e < |model| {
      DepthBetweenIsDepth(model, s, e);
      assert false;
    }
    assert model[s..e] == model[s..];
  }

  /** subTreeBelow of an open tag whose span closes: exactly the events strictly
      between the tag and its matching close tag, and they form well-formed markup. */
  lemma SubTreeBelowOfOpen(model: seq<Event>, s: nat)
    requires UniqueIds(model) && s < |model|
    requires model[s].OpenTag? && Depth(SubTreeFrom(model, model[s].id)) == 0
    ensures var t := SubTreeFrom(model, model[s].id);
      && 2 <= |t|
      && s + |t| <= |model|
      && model[s + |t| - 1].CloseTag?
      && SubTreeBelow(model, model[s].id) == model[s + 1..s + |t| - 1]
      && WellFormed(SubTreeBelow(model, model[s].id))
  {
    var start := model[s].id;
    IndexOfUnique(model, s);
    var t := SubTreeFrom(model, start);
    OpenSpanInterior(model, s, t);
    assert SubTreeBelow(model, start) == t[1..|t| - 1];
  }

  lemma OpenSpanInterior(model: seq<Event>, s: nat, t: seq<Event>)
    requires s < |model| && model[s].OpenTag? && IndexOf(model, model[s].id) == s
    requires t == Span(model, model[s].id) && Depth(t) == 0
    ensures 2 <= |t| && s + |t| <= |model|
    ensures model[s + |t| - 1].CloseTag?
    ensures t[1..|t| - 1] == model[s + 1..s + |t| - 1]
    ensures WellFormed(t[1..|t| - 1])
  {
    var start := model[s].id;
    SpanIsSlice(model, start);
    SpanShape(model, start);
    BalancedSliceInterior(model, s, t);
  }

  lemma BalancedSliceInterior(model: seq<Event>, s: nat, t: seq<Event>)
    requires 1 <= |t| && s + |t| <= |model| && t == model[s..s + |t|]
    requires t[0].OpenTag? && Depth(t) == 0 && OpenThroughout(t)
    ensures 2 <= |t|
    ensures model[s + |t| - 1].CloseTag?
    ensures t[1..|t| - 1] == model[s + 1..s + |t| - 1]
    ensures WellFormed(t[1..|t| - 1])
  {
    BalancedSpanInterior(t);
    InteriorOfSlice(model, s, t);
  }

  lemma InteriorOfSlice<T>(m: seq<T>, s: nat, t: seq<T>)
    requires 2 <= |t| && s + |t| <= |m| && t == m[s..s + |t|]
    ensures t[|t| - 1] == m[s + |t| - 1]
    ensures t[1..|t| - 1] == m[s + 1..s + |t| - 1]
  {
    var n := |t|;
    var a, b := t[1..n - 1], m[s + 1..s + n - 1];
    assert |a| == |b|;
    forall j | 0 <= j < n - 2
      ensures a[j] == b[j]
    {
      assert a[j] == t[j + 1] == m[s + j + 1];
    }
  }
}

=== FILE: tables.dfy ===
/** Building a table from a list of entries, each tagged with an optional
    key, in list order: either a later entry replaces an earlier one with the
    same key (extractSlots), or a key met a second time aborts
    (extractSlotContents). */
module Tables {
  import opened Wrappers

  /** Some entry before position `n` carries key `k`. */
  ghost predicate Tagged<K, V>(entries: seq<(Option<K>, V)>, n: nat, k: K)
    requires n <= |entries|
  {
    exists i :: 0 <= i < n && entries[i].0 == Some(k)
  }

  /** Position `i` holds the last entry with key `k` among the first `n`. */
  ghost predicate LastTagged<K, V>(entries: seq<(Option<K>, V)>, n: nat, k: K, i: nat)
    requires n <= |entries|
  {
    && i < n
    && entries[i].0 == Some(k)
    && forall j :: i < j < n ==> entries[j].0 != Some(k)
  }

  /** Two entries before position `n` carry the same key. */
  ghost predicate Repeated<K, V>(entries: seq<(Option<K>, V)>, n: nat)
    requires n <= |entries|
  {
    exists i, j :: 0 <= i < j < n && entries[i].0.Some? && entries[i].0 == entries[j].0
  }

  /** The first `n` entries put into a table one by one, a later entry
      replacing an earlier one with the same key. */
  function LastWins<K(==,!new), V>(entries: seq<(Option<K>, V)>, n: nat): (r: map<K, V>)
    requires n <= |entries|
    ensures forall k :: k in r <==> Tagged(entries, n, k)
  {
    if n == 0 then map[]
    else
      var acc := LastWins(entries, n - 1);
      match entries[n - 1].0
      case None => acc
      case Some(k) => acc[k := entries[n - 1].1]
  }

  /** The entry kept for a key is the last one carrying it. */
  lemma {:induction false} LastWinsKeepsLast<K(!new), V>(entries: seq<(Option<K>, V)>, n: nat, k: K)
    requires n <= |entries|
    requires k in LastWins(entries, n)
    ensures exists i: nat :: LastTagged(entries, n, k, i) && entries[i].1 == LastWins(entries, n)[k]
  {
    assert n > 0;
    var r, acc := LastWins(entries, n), LastWins(entries, n - 1);
    var tag := entries[n - 1].0;
    assert r == if tag.Some? then acc[tag.value := entries[n - 1].1] else acc;
    if tag == Some(k) {
      assert r[k] == entries[n - 1].1;
      assert LastTagged(entries, n, k, n - 1);
    } else {
      assert r[k] == acc[k];
      LastWinsKeepsLast(entries, n - 1, k);
      var i: nat :| LastTagged(entries, n - 1, k, i) && entries[i].1 == acc[k];
      LastTaggedExtends(entries, n, k, i);
    }
  }

  /** The last entry with a key stays the last one past an entry with
      another key or none. */
  lemma LastTaggedExtends<K, V>(entries: seq<(Option<K>, V)>, n: nat, k: K, i: nat)
    requires 0 < n <= |entries|
    requires LastTagged(entries, n - 1, k, i) && entries[n - 1].0 != Some(k)
    ensures LastTagged(entries, n, k, i)
  {
    forall j | i < j < n
      ensures entries[j].0 != Some(k)
    {
      if j < n - 1 {
        assert i < j < n - 1;
      }
    }
  }

  /** A repetition among the first `n` entries is one among the first `n - 1`,
      or the last entry's key met again. */
  lemma RepeatedStep<K, V>(entries: seq<(Option<K>, V)>, n: nat)
    requires 0 < n <= |entries|
    ensures Repeated(entries, n) <==>
      Repeated(entries, n - 1) || (entries[n - 1].0.Some? && Tagged(entries, n - 1, entries[n - 1].0.value))
  {
    if Repeated(entries, n) {
      var i, j :| 0 <= i < j < n && entries[i].0.Some? && entries[i].0 == entries[j].0;
      if j == n - 1 {
        assert Tagged(entries, n - 1, entries[n - 1].0.value);
      }
    }
    if entries[n - 1].0.Some? && Tagged(entries, n - 1, entries[n - 1].0.value) {
      var i :| 0 <= i < n - 1 && entries[i].0 == entries[n - 1].0;
      assert entries[i].0 == entries[n - 1].0;
    }
  }

  /** Position `j` is where a repetition first occurs: it carries key `k`,
      which an earlier entry carries too, and the entries before it repeat
      no key. */
  ghost predicate FirstRepeatAt<K, V>(entries: seq<(Option<K>, V)>, j: nat, k: K)
    requires j < |entries|
  {
    entries[j].0 == Some(k) && Tagged(entries, j, k) && !Repeated(entries, j)
  }

  /** The first `n` entries put into a table one by one, failing with the
      first key met a second time. */
  function Distinct<K(==,!new), V>(entries: seq<(Option<K>, V)>, n: nat): (r: Result<map<K, V>, K>)
    requires n <= |entries|
    ensures r.Failure? <==> Repeated(entries, n)
    ensures r.Failure? ==> exists j :: 0 <= j < n && FirstRepeatAt(entries, j, r.error)
    ensures r.Success? ==> forall k :: k in r.value <==> Tagged(entries, n, k)
    ensures r.Success? ==> forall i :: 0 <= i < n && entries[i].0.Some? ==>
      entries[i].0.value in r.value && r.value[entries[i].0.value] == entries[i].1
  {
    if n == 0 then Success(map[])
    else
      RepeatedStep(entries, n);
      match Distinct(entries, n - 1)
      case Failure(k) => Failure(k)
      case Success(acc) =>
        match entries[n - 1].0
        case None => Success(acc)
        case Some(k) =>
          if k in acc then
            assert FirstRepeatAt(entries, n - 1, k);
            Failure(k)
          else Success(acc[k := entries[n - 1].1])
  }
}

=== FILE: wrappers.dfy ===
/** Failure-compatible wrappers used throughout the model: `Option` stands for a
    Java reference that may be null, `Result` for a call that may throw. */
module Wrappers {

  datatype Option<+T> = None | Some(value: T) {

    predicate IsFailure() {
      None?
    }

    function PropagateFailure<U>(): Option<U>
      requires None?
    {
      None
    }

    function Extract(): T
      requires Some?
    {
      value
    }

    /** The value, or `default` when absent. */
    function GetOr(default: T): T {
      if Some? then value else default
    }
  }

  datatype Result<+R, +E> = Success(value: R) | Failure(error: E) {

    predicate IsFailure() {
      Failure?
    }

    function PropagateFailure<U>(): Result<U, E>
      requires Failure?
    {
      Failure(error)
    }

    function Extract(): R
      requires Success?
    {
      value
    }
  }
}

/** The ways composing a component can fail; each is an exception in the
    original processor. */
module Errors {

  datatype Error =
    | NoComponentTag              // the invocation model holds no open or standalone tag
    | DuplicateSlot(name: string) // two call-site elements carry the same slot name
    | TemplateNotFound(path: string) // the fragment template cannot be resolved
    | IndexOutOfBounds            // a placeholder span is no longer found where it is spliced
}
